=== FILE: README.md ===
# SNAP desktop: descriptor editing, workspace windows, mask area, RGB channel sources

This project models four self-contained sets of rules in the SNAP desktop
application (Java, Swing/NetBeans) and proves properties of them in Dafny.
The GUI host is taken out; what is left is pure functions and small methods
over sequences, maps, strings and integers.

- **Tool-adapter editor dialog** (`ToolAdapterEditorDialog`). Modules
  `AdapterEditor` and `JavaText`.
  - Opening an adapter descriptor adds the three mandatory template
    parameters `sourceProducts`, `sourceProductFiles` and
    `targetProductFile` when they are missing.
  - A duplicated operator is named `name + separator + index`.
  - `verifyUserInput` checks the tool location, the working directory, the
    system variables and the File parameters. The file system is an
    oracle.
  - `onOK` does the following:
    - reads the source-product count from the last `sourceProducts[N]`
      (else `sourceProductFiles[N]`) reference in the template;
    - stores the bound parameter values;
    - drops the two synthetic source parameters;
    - puts the menu location under `Menu/`.
  - Autocompletion entries are sorted with `String.compareTo`, which
    compares UTF-16 code units.
  - `JavaText` models the `java.lang.String` and `Integer` operations used
    here:
    - `lastIndexOf` and `indexOf`;
    - `substring`, with its exception;
    - `Integer.valueOf`, with its exception;
    - 32-bit wrap-around of `int` addition.
- **Workspace window** (`WorkspaceTopComponent`). Modules
  `WorkspaceWindows`, `Tiling` and `TabPopup`.
  - The frame↔tab maps, kept mutually inverse by `addWindow` and
    `closeInternalFrame`.
  - The tab-bar visibility rule.
  - The tab "close" action and `CloseWindowAction`.
  - `getContainedTopComponents`.
  - The tab popup menu, as a function of the tab count and the tab under
    the mouse.
  - The integer layout arithmetic of Tile Evenly, Tile Horizontally and
    Tile Vertically.
- **Compute Mask Area** (`ComputeMaskAreaAction`). Modules `MaskAction`,
  `MaskStatistics` and `MaskTraversal`.
  - Which masks are offered for the viewed raster, and how one is picked.
  - The tile-by-tile, pixel-by-pixel traversal clipped to the scene
    rectangle.
  - Cancellation and progress accounting.
  - The min/max/sum/count accumulator.
  - The empty-mask rule when the work is done.
  - The area of one pixel is an opaque real function. Cancellation is a
    monotone oracle indexed by the number of polls so far.
- **RGB channel sources** (`Continuous3BandGraphicalForm`). Module
  `ChannelSources`.
  - The order-preserving, duplicate-free `appendToChannelSources`.
  - The candidate list built by `updateFormModel`.
  - `handleFormShown` and `handleFormHidden`.
  - Channel selection.
  - The guarded change of one channel's source in
    `handleChannelSourceNameChanged`.

`Basics` holds the shared vocabulary:
- `Option`;
- `Result` with Java exception kinds;
- `Filter`, `IndexOf` and `RemoveAt`;
- distinctness;
- `java.awt.Rectangle` as `Rect`, with `intersection`, `isEmpty` and
  containment.

A Java `null` is `None`. A Java exception is a `Failure` carrying its kind:
- `NullPointer` for a null dereference;
- `IndexOutOfBounds` for `substring`, `List.get` and array indexing;
- `NumberFormat` for `Integer.valueOf`;
- `Arithmetic` for integer division by zero.

The model follows the code in two places where its behaviour is easy to
misread:
- **`verifyUserInput`.** The value bound to the tool-location field only
  rescues a missing location from the first null check. The executability
  check after it still looks at the descriptor's own location.
- **The pixel loop's `break`.** It leaves only the inner loop, so the
  cancellation flag is polled again at the start of every later column.
  `MaskTraversal.ComputeAreaStatistics` counts those polls, and proves that
  no tile is processed once cancellation has been seen.

## Model

| member | source | states |
|---|---|---|
| AdapterEditor.AddIfMissing | snap-sta-ui/src/main/java/org/esa/snap/ui/tooladapter/dialogs/ToolAdapterEditorDialog.java:161-171 | a template parameter is appended exactly when no parameter of its name exists, and afterwards one does |
| AdapterEditor.MissingOneAfter | snap-sta-ui/src/main/java/org/esa/snap/ui/tooladapter/dialogs/ToolAdapterEditorDialog.java:161-171 | adding one mandatory parameter does not change whether another, differently named one is missing, so the three checks are independent |
| AdapterEditor.MissingMandatoryFacts | snap-sta-ui/src/main/java/org/esa/snap/ui/tooladapter/dialogs/ToolAdapterEditorDialog.java:161-171 | the parameters added are exactly the mandatory ones absent before, each at most once; an added `targetProductFile` has notNull false |
| AdapterEditor.EnsureTemplateParams | snap-sta-ui/src/main/java/org/esa/snap/ui/tooladapter/dialogs/ToolAdapterEditorDialog.java:160-171 | existing parameters are kept in order as a prefix; afterwards all three mandatory names are present |
| AdapterEditor.OpenForEdit | snap-sta-ui/src/main/java/org/esa/snap/ui/tooladapter/dialogs/ToolAdapterEditorDialog.java:155-203 | editing keeps the original descriptor as the old one, keeps every field but the parameters, extends the parameters and sets newNameIndex to -1 |
| AdapterEditor.OpenAsCopy | snap-sta-ui/src/main/java/org/esa/snap/ui/tooladapter/dialogs/ToolAdapterEditorDialog.java:211-220 | operatorIsNew holds iff the index is at least 1; then name and alias get separator and decimal index appended; otherwise both are unchanged; apart from name, alias and the template parameters the copy equals the original |
| AdapterEditor.CopyNameRecoversIndex | snap-sta-ui/src/main/java/org/esa/snap/ui/tooladapter/dialogs/ToolAdapterEditorDialog.java:215-218 | the generated name starts with the old name and separator, and parsing the rest of the name or the alias gives back the index |
| AdapterEditor.FirstUnsetVariable | snap-sta-ui/src/main/java/org/esa/snap/ui/tooladapter/dialogs/ToolAdapterEditorDialog.java:258-267 | None iff every system variable has a non-empty value; otherwise the first variable without one |
| AdapterEditor.FirstMissingFile | snap-sta-ui/src/main/java/org/esa/snap/ui/tooladapter/dialogs/ToolAdapterEditorDialog.java:271-284 | None iff every notNull or notEmpty File parameter names an existing path; otherwise the first that does not |
| AdapterEditor.VerifyUserInput | snap-sta-ui/src/main/java/org/esa/snap/ui/tooladapter/dialogs/ToolAdapterEditorDialog.java:225-286 | valid iff the tool is set and executable, the working directory exists, all variables are set and all required files exist; each rejection names a failing variable or parameter and its flag; the checks run in Java's order: a bad working directory is reported only once the tool passes, an empty variable only once the tool and directory pass, and it is the first unset variable |
| AdapterEditor.ReadArrayIndex | snap-sta-ui/src/main/java/org/esa/snap/ui/tooladapter/dialogs/ToolAdapterEditorDialog.java:812-818 | a read reporting success carries a count above 1; one reporting failure leaves the count unchanged |
| AdapterEditor.ResolveTemplateProductCount | snap-sta-ui/src/main/java/org/esa/snap/ui/tooladapter/dialogs/ToolAdapterEditorDialog.java:808-834 | the last `sourceProducts[` reference past position 0 decides; failing that, the last `sourceProductFiles[`; with neither the count is 1; on failure the count is unchanged |
| AdapterEditor.ProductsReferenceDecides | snap-sta-ui/src/main/java/org/esa/snap/ui/tooladapter/dialogs/ToolAdapterEditorDialog.java:810-818 | when the last `sourceProducts[` past position 0 reads `N]`, the result is success with count N+1 (as a 32-bit `int`) if that exceeds 1, else failure with the count unchanged |
| AdapterEditor.FilesReferenceDecides | snap-sta-ui/src/main/java/org/esa/snap/ui/tooladapter/dialogs/ToolAdapterEditorDialog.java:819-828 | with no `sourceProducts[` past position 0, the last `sourceProductFiles[N]` decides by the same rule |
| AdapterEditor.NoReferenceMeansOneProduct | snap-sta-ui/src/main/java/org/esa/snap/ui/tooladapter/dialogs/ToolAdapterEditorDialog.java:829-831 | a template with no array reference past position 0 succeeds with count 1 |
| AdapterEditor.ReadIndexFailures | snap-sta-ui/src/main/java/org/esa/snap/ui/tooladapter/dialogs/ToolAdapterEditorDialog.java:812-813 | reading the count throws only `substring`'s or `Integer.valueOf`'s exception |
| AdapterEditor.JoinFieldsRoundTrip | snap-sta-ui/src/main/java/org/esa/snap/ui/tooladapter/dialogs/ToolAdapterEditorDialog.java:331-333 | an array value joined with the array separator splits back into the same items when no item contains the separator |
| AdapterEditor.StoreBoundValue | snap-sta-ui/src/main/java/org/esa/snap/ui/tooladapter/dialogs/ToolAdapterEditorDialog.java:310-338 | a template parameter's default becomes the file name; any other bound parameter's default becomes the text or the joined array; unbound parameters are untouched |
| AdapterEditor.RemoveSourceParams | snap-sta-ui/src/main/java/org/esa/snap/ui/tooladapter/dialogs/ToolAdapterEditorDialog.java:340-343 | no `sourceProducts` or `sourceProductFiles` parameter remains; every other parameter is kept as often as it occurred |
| AdapterEditor.RemoveSourceParamsKeepsOrder | snap-sta-ui/src/main/java/org/esa/snap/ui/tooladapter/dialogs/ToolAdapterEditorDialog.java:340-343 | the removal works part by part on a split list and keeps a single parameter iff it is not a source parameter, so the kept parameters stay in their order |
| AdapterEditor.MissingKeptOnSave | snap-sta-ui/src/main/java/org/esa/snap/ui/tooladapter/dialogs/ToolAdapterEditorDialog.java:340-343 | of the parameters added on opening, only a missing `targetProductFile` survives saving |
| AdapterEditor.OpenThenSaveParams | snap-sta-ui/src/main/java/org/esa/snap/ui/tooladapter/dialogs/ToolAdapterEditorDialog.java:340-343 | opening then saving leaves the original parameters minus the source ones, plus the target parameter if it was missing |
| AdapterEditor.ChooseMenuLocation | snap-sta-ui/src/main/java/org/esa/snap/ui/tooladapter/dialogs/ToolAdapterEditorDialog.java:345-350 | custom text replaces the menu location only when the new-menu option is selected and the text is non-empty |
| AdapterEditor.NormaliseMenu | snap-sta-ui/src/main/java/org/esa/snap/ui/tooladapter/dialogs/ToolAdapterEditorDialog.java:351-354 | a location stays null iff it was null, otherwise starts with `Menu/`; one already there is unchanged |
| AdapterEditor.NormaliseMenuIdempotent | snap-sta-ui/src/main/java/org/esa/snap/ui/tooladapter/dialogs/ToolAdapterEditorDialog.java:351-354 | normalising twice is normalising once |
| AdapterEditor.OnOK | snap-sta-ui/src/main/java/org/esa/snap/ui/tooladapter/dialogs/ToolAdapterEditorDialog.java:289-375 | invalid input is rejected with verifyUserInput's reason; on valid input the handler fails iff reading the count throws, and it saves iff that reading succeeds and accepts the array usage; what it saves is the prepared descriptor with the count read; a saved descriptor keeps name and alias, has count >= 1, has no source parameters and sits under `Menu/` |
| AdapterEditor.OnOKWithoutReferences | snap-sta-ui/src/main/java/org/esa/snap/ui/tooladapter/dialogs/ToolAdapterEditorDialog.java:289-296 | valid input with a template that uses no product or file array saves the prepared descriptor with one source product |
| AdapterEditor.PrepareForSave | snap-sta-ui/src/main/java/org/esa/snap/ui/tooladapter/dialogs/ToolAdapterEditorDialog.java:304-354 | the saved descriptor keeps name, alias and variables, takes the count read, is marked a user source unless packaged, names its template after the alias, stores each bound value as its parameter's default, drops the source product parameters, and takes the custom menu when one is chosen and non-empty, prefixed with `Menu/` when it lacks that |
| AdapterEditor.LexLeTotal | snap-sta-ui/src/main/java/org/esa/snap/ui/tooladapter/dialogs/ToolAdapterEditorDialog.java:842 | the `compareTo` order relates any two strings |
| AdapterEditor.LexLeTransitive | snap-sta-ui/src/main/java/org/esa/snap/ui/tooladapter/dialogs/ToolAdapterEditorDialog.java:842 | the `compareTo` order is transitive |
| AdapterEditor.LexLeIsUtf16Order | snap-sta-ui/src/main/java/org/esa/snap/ui/tooladapter/dialogs/ToolAdapterEditorDialog.java:842 | the character-wise order used for sorting is exactly the lexicographic order of the UTF-16 code units, which `compareTo` compares |
| AdapterEditor.InsertSorted | snap-sta-ui/src/main/java/org/esa/snap/ui/tooladapter/dialogs/ToolAdapterEditorDialog.java:842 | inserting into a sorted list keeps it sorted and adds exactly that element |
| AdapterEditor.SortLex | snap-sta-ui/src/main/java/org/esa/snap/ui/tooladapter/dialogs/ToolAdapterEditorDialog.java:742-750 | natural-order sorting gives a permutation of its input sorted by the UTF-16 `compareTo` order |
| AdapterEditor.AutocompleteEntries | snap-sta-ui/src/main/java/org/esa/snap/ui/tooladapter/dialogs/ToolAdapterEditorDialog.java:836-844 | the entries are sorted by the UTF-16 `compareTo` order, and as a multiset are the variable keys plus the parameter names |
| AdapterEditor.AutocompleteMembership | snap-sta-ui/src/main/java/org/esa/snap/ui/tooladapter/dialogs/ToolAdapterEditorDialog.java:836-844 | a string is offered iff it is some variable's key or some parameter's name |
| JavaText.LastIndexOf | snap-sta-ui/src/main/java/org/esa/snap/ui/tooladapter/dialogs/ToolAdapterEditorDialog.java:810 | -1 iff the pattern does not occur; otherwise an occurrence with none after it |
| JavaText.IndexOfFrom | snap-sta-ui/src/main/java/org/esa/snap/ui/tooladapter/dialogs/ToolAdapterEditorDialog.java:812 | the first occurrence at or after the start position, a negative start counting as 0; -1 iff none |
| JavaText.Substring | snap-sta-ui/src/main/java/org/esa/snap/ui/tooladapter/dialogs/ToolAdapterEditorDialog.java:812 | succeeds iff 0 <= begin <= end <= length, with exactly those characters; otherwise IndexOutOfBounds |
| JavaText.Wrap32 | snap-sta-ui/src/main/java/org/esa/snap/ui/tooladapter/dialogs/ToolAdapterEditorDialog.java:813 | the result is the 32-bit `int` congruent to the input, and in-range values are unchanged |
| JavaText.ParseIntToString | snap-sta-ui/src/main/java/org/esa/snap/ui/tooladapter/dialogs/ToolAdapterEditorDialog.java:216-217 | `Integer.valueOf` reads back every `int` that string concatenation writes |
| WorkspaceWindows.Initial | snap-gui/src/main/java/org/esa/snap/gui/window/WorkspaceTopComponent.java:78-99 | a new workspace satisfies the map invariant, has no tabs and hides the tab bar |
| WorkspaceWindows.AddWindow | snap-gui/src/main/java/org/esa/snap/gui/window/WorkspaceTopComponent.java:123-156 | the new tab goes at the end, tabCount grows by one, the bar shows, and the new frame and tab map to each other |
| WorkspaceWindows.AddWindowValid | snap-gui/src/main/java/org/esa/snap/gui/window/WorkspaceTopComponent.java:129-145 | adding a window keeps the two maps mutual inverses and the tab model in step; the new id was unused; existing frames are unchanged |
| WorkspaceWindows.RemoveAtIsWithout | snap-gui/src/main/java/org/esa/snap/gui/window/WorkspaceTopComponent.java:258-261 | in a duplicate-free tab model, removing at the tab's index is removing that tab |
| WorkspaceWindows.TabsAfterClose | snap-gui/src/main/java/org/esa/snap/gui/window/WorkspaceTopComponent.java:256-262 | the tab model loses the frame's tab only when removeTab is set; it stays duplicate-free |
| WorkspaceWindows.CloseInternalFrame | snap-gui/src/main/java/org/esa/snap/gui/window/WorkspaceTopComponent.java:251-274 | returns the frame's hosted window; the frame leaves the maps; tabs are untouched unless removeTab; the bar hides when no frames remain. Every caller passes a mapped frame; the unknown-frame case cannot arise and is modelled as returning None with nothing removed |
| WorkspaceWindows.CloseInternalFrameValid | snap-gui/src/main/java/org/esa/snap/gui/window/WorkspaceTopComponent.java:251-274 | closing a frame keeps the maps mutual inverses |
| WorkspaceWindows.AppendedTabClosed | snap-gui/src/main/java/org/esa/snap/gui/window/WorkspaceTopComponent.java:257-261 | removing the tab just appended gives back the tab model before |
| WorkspaceWindows.AddThenCloseRestores | snap-gui/src/main/java/org/esa/snap/gui/window/WorkspaceTopComponent.java:123-274 | adding a window and closing its frame returns that window and restores the maps and tabs |
| WorkspaceWindows.WindowsOf | snap-gui/src/main/java/org/esa/snap/gui/window/WorkspaceTopComponent.java:116-119 | one window per tab, in tab order, each the one its tab's frame hosts; NullPointer iff some tab has no frame |
| WorkspaceWindows.ContainedTopComponents | snap-gui/src/main/java/org/esa/snap/gui/window/WorkspaceTopComponent.java:113-121 | the hosted windows in tab-model order, one per tab |
| WorkspaceWindows.AddWindowAppends | snap-gui/src/main/java/org/esa/snap/gui/window/WorkspaceTopComponent.java:113-156 | after adding a window the contained components are the old ones plus the new window at the end |
| WorkspaceWindows.TabClose | snap-gui/src/main/java/org/esa/snap/gui/window/WorkspaceTopComponent.java:316-326 | a close on a tab leaves the tab model untouched and drops only that tab's frame; an index outside the model throws |
| WorkspaceWindows.RemoveTabFromModel | snap-gui/src/main/java/org/esa/snap/gui/window/WorkspaceTopComponent.java:319 | removing the tab afterwards, as the tab framework does, restores the invariant |
| WorkspaceWindows.TabCloseAgreesWithClose | snap-gui/src/main/java/org/esa/snap/gui/window/WorkspaceTopComponent.java:316-326 | the tab close followed by the later model removal equals closing the frame with removeTab set |
| WorkspaceWindows.CloseWindow | snap-gui/src/main/java/org/esa/snap/gui/window/WorkspaceTopComponent.java:436-450 | an index outside the tab model throws and a tab without a frame dereferences null; otherwise the tab leaves the model, only its frame leaves the desktop and the tab map, every other frame is unchanged, and the invariant is kept |
| WorkspaceWindows.ValidFramesInjective | snap-gui/src/main/java/org/esa/snap/gui/window/WorkspaceTopComponent.java:68-69 | under the invariant different tabs have different frames |
| WorkspaceWindows.ApplyLayout | snap-gui/src/main/java/org/esa/snap/gui/window/WorkspaceTopComponent.java:573-578 | placing windows by tab index succeeds iff each index has a tab with a frame; maps and tabs are unchanged |
| WorkspaceWindows.ApplyLayoutKeepsFrames | snap-gui/src/main/java/org/esa/snap/gui/window/WorkspaceTopComponent.java:573-578 | the layout loop keeps the set of frames and what each hosts |
| WorkspaceWindows.ApplyLayoutUntouched | snap-gui/src/main/java/org/esa/snap/gui/window/WorkspaceTopComponent.java:573-578 | a frame whose tab is not laid out keeps its bounds |
| WorkspaceWindows.ApplyLayoutPlaces | snap-gui/src/main/java/org/esa/snap/gui/window/WorkspaceTopComponent.java:573-578 | the frame of the k-th tab ends with the k-th cell as bounds |
| WorkspaceWindows.RelaidValid | snap-gui/src/main/java/org/esa/snap/gui/window/WorkspaceTopComponent.java:577 | moving a frame keeps the invariant |
| WorkspaceWindows.ApplyLayoutValid | snap-gui/src/main/java/org/esa/snap/gui/window/WorkspaceTopComponent.java:573-578 | laying out keeps the invariant |
| WorkspaceWindows.TileHorizontallyWorkspace | snap-gui/src/main/java/org/esa/snap/gui/window/WorkspaceTopComponent.java:568-579 | succeeds iff there are frames and each of the first frame-count tabs has one; no frames means division by zero, a missing tab or frame throws; on success the frame of tab i gets column i and the invariant holds |
| WorkspaceWindows.TiledHorizontallyDisjoint | snap-gui/src/main/java/org/esa/snap/gui/window/WorkspaceTopComponent.java:568-579 | after tiling horizontally, frames lie inside the desktop and two different frames do not overlap |
| WorkspaceWindows.TileVerticallyWorkspace | snap-gui/src/main/java/org/esa/snap/gui/window/WorkspaceTopComponent.java:588-599 | succeeds iff there are frames and each of the first frame-count tabs has one; no frames means division by zero, a missing tab or frame throws; on success the frame of tab i gets row i and the invariant holds |
| WorkspaceWindows.TiledVerticallyDisjoint | snap-gui/src/main/java/org/esa/snap/gui/window/WorkspaceTopComponent.java:588-599 | after tiling vertically, frames lie inside the desktop and two different frames do not overlap |
| WorkspaceWindows.TileEvenlyWorkspace | snap-gui/src/main/java/org/esa/snap/gui/window/WorkspaceTopComponent.java:521-559 | succeeds iff each of the first frame-count tabs has a frame, else throws; with frames the grid is feasible, of least score and the first such in scan order, and the frame of tab k gets cell k; with none, nothing changes |
| Tiling.SingleRowFeasible | snap-gui/src/main/java/org/esa/snap/gui/window/WorkspaceTopComponent.java:529-531 | one row of n columns always meets n <= hor·ver <= 2n |
| Tiling.ChooseGrid | snap-gui/src/main/java/org/esa/snap/gui/window/WorkspaceTopComponent.java:526-542 | with n >= 1 the grid is feasible and minimises the score; no earlier grid in scan order (ver outer, hor inner) scores as low; with n < 1 it is -1 × -1 |
| Tiling.PlaceRow | snap-gui/src/main/java/org/esa/snap/gui/window/WorkspaceTopComponent.java:550-557 | one grid row extends the placed cells by the next windows' cells, up to n |
| Tiling.TileEvenly | snap-gui/src/main/java/org/esa/snap/gui/window/WorkspaceTopComponent.java:521-558 | with n >= 1 there are exactly n cells on the feasible grid of least score that comes first in scan order; cell k is in column k mod hor and row k div hor |
| Tiling.EvenCellInside | snap-gui/src/main/java/org/esa/snap/gui/window/WorkspaceTopComponent.java:544-554 | every cell of a feasible grid lies inside the desktop |
| Tiling.EvenCellsDisjoint | snap-gui/src/main/java/org/esa/snap/gui/window/WorkspaceTopComponent.java:544-554 | cells of different windows do not overlap |
| Tiling.TileHorizontally | snap-gui/src/main/java/org/esa/snap/gui/window/WorkspaceTopComponent.java:569-578 | zero windows iff division by zero; otherwise n full-height columns of width W/n at x = i·(W/n) |
| Tiling.ColumnsDisjointInside | snap-gui/src/main/java/org/esa/snap/gui/window/WorkspaceTopComponent.java:572-577 | each column lies inside the desktop and different columns do not overlap |
| Tiling.TileVertically | snap-gui/src/main/java/org/esa/snap/gui/window/WorkspaceTopComponent.java:589-598 | zero windows iff division by zero; otherwise n full-width rows |
| Tiling.VerticalIsTransposedHorizontal | snap-gui/src/main/java/org/esa/snap/gui/window/WorkspaceTopComponent.java:569-598 | tiling vertically is tiling the transposed desktop horizontally, then transposing each cell |
| Tiling.RowsDisjointInside | snap-gui/src/main/java/org/esa/snap/gui/window/WorkspaceTopComponent.java:592-597 | each row lies inside the desktop and different rows do not overlap |
| TabPopup.Popup | snap-gui/src/main/java/org/esa/snap/gui/window/WorkspaceTopComponent.java:355-358 | nothing is shown exactly when there are no tabs |
| TabPopup.PopupContents | snap-gui/src/main/java/org/esa/snap/gui/window/WorkspaceTopComponent.java:363-392 | an entry is present iff offered (single-window actions need a tab under the mouse, all-window ones several tabs); no action twice; separators only between groups |
| TabPopup.ContentsOnTabOfSeveral | snap-gui/src/main/java/org/esa/snap/gui/window/WorkspaceTopComponent.java:363-392 | with the mouse on one of several tabs the menu has every entry, once, well separated |
| TabPopup.ContentsOnSingleTab | snap-gui/src/main/java/org/esa/snap/gui/window/WorkspaceTopComponent.java:363-386 | on the only tab the menu offers just the single-window actions |
| TabPopup.ContentsOffTab | snap-gui/src/main/java/org/esa/snap/gui/window/WorkspaceTopComponent.java:367-392 | off any tab, with several tabs, the menu offers just the all-window actions |
| TabPopup.AsWrittenLabelsCollide | snap-gui/src/main/java/org/esa/snap/gui/window/WorkspaceTopComponent.java:480-486 | with the labels as written, two tabs and the mouse on the first show two different actions both labelled "Close Others" |
| TabPopup.LabelInjective | snap-gui/src/main/java/org/esa/snap/gui/window/WorkspaceTopComponent.java:436-626 | with the corrected labels, different actions aimed at one tab have different labels |
| TabPopup.PopupLabelsDistinct | snap-gui/src/main/java/org/esa/snap/gui/window/WorkspaceTopComponent.java:363-392 | with the corrected labels, no two actions of any popup look alike |
| MaskAction.EligibleNamesAppend | snap-rcp/src/main/java/org/esa/snap/rcp/mask/ComputeMaskAreaAction.java:129-137 | the eligible names keep the mask group's order |
| MaskAction.EligibleNamesMembership | snap-rcp/src/main/java/org/esa/snap/rcp/mask/ComputeMaskAreaAction.java:130-137 | a name is offered iff a mask of that name matches the band's size, or the scene size for a tie-point grid |
| MaskAction.FindMask | snap-rcp/src/main/java/org/esa/snap/rcp/mask/ComputeMaskAreaAction.java:159 | the first mask of the group with that name, or None iff there is none |
| MaskAction.ChooseName | snap-rcp/src/main/java/org/esa/snap/rcp/mask/ComputeMaskAreaAction.java:140-158 | a single eligible name is taken without the dialog; the action is cancelled iff there is not exactly one and the dialog is cancelled; a chosen name is eligible |
| MaskAction.ComputeMaskArea | snap-rcp/src/main/java/org/esa/snap/rcp/mask/ComputeMaskAreaAction.java:113-170 | "No view" iff no view is selected; the action is cancelled iff a view is selected and the name choice is cancelled; every failure is the null-mask error; a chosen name found in the group starts the computation on that mask when it has an image and reports the missing image otherwise |
| MaskAction.EnabledIffViewFound | snap-rcp/src/main/java/org/esa/snap/rcp/mask/ComputeMaskAreaAction.java:103-121 | the action is enabled iff running it gets past the view check |
| MaskAction.StartedMaskEligible | snap-rcp/src/main/java/org/esa/snap/rcp/mask/ComputeMaskAreaAction.java:129-166 | the measured mask belongs to the product and its name was offered; with unique names it is itself eligible |
| MaskAction.SingleEligibleNoDialog | snap-rcp/src/main/java/org/esa/snap/rcp/mask/ComputeMaskAreaAction.java:140-141 | with one eligible mask the dialog answer plays no part and the action is not cancelled |
| MaskAction.CancelEndsAction | snap-rcp/src/main/java/org/esa/snap/rcp/mask/ComputeMaskAreaAction.java:153-157 | with several or no eligible masks, cancelling the dialog ends the action |
| MaskStatistics.Min | snap-rcp/src/main/java/org/esa/snap/rcp/mask/ComputeMaskAreaAction.java:320-321 | the result is a lower bound of both arguments and is one of them |
| MaskStatistics.Max | snap-rcp/src/main/java/org/esa/snap/rcp/mask/ComputeMaskAreaAction.java:322-323 | the result is an upper bound of both arguments and is one of them |
| MaskStatistics.AddPixel | snap-rcp/src/main/java/org/esa/snap/rcp/mask/ComputeMaskAreaAction.java:320-325 | one more pixel and its area added; min and max widen just enough to include it; the Earth radius is kept |
| MaskStatistics.VisitAllAppend | snap-rcp/src/main/java/org/esa/snap/rcp/mask/ComputeMaskAreaAction.java:285-332 | visiting two pixel runs in turn is visiting their concatenation |
| MaskStatistics.VisitAllCounts | snap-rcp/src/main/java/org/esa/snap/rcp/mask/ComputeMaskAreaAction.java:300-325 | from the initial statistics the count is the number of non-zero samples and the area the sum of their areas |
| MaskStatistics.VisitAllBounds | snap-rcp/src/main/java/org/esa/snap/rcp/mask/ComputeMaskAreaAction.java:320-323 | every counted pixel's area lies between the recorded min and max |
| MaskStatistics.VisitAllAttained | snap-rcp/src/main/java/org/esa/snap/rcp/mask/ComputeMaskAreaAction.java:320-323 | once a pixel is counted, min and max are finite and equal to some counted pixel's area |
| MaskStatistics.Done | snap-rcp/src/main/java/org/esa/snap/rcp/mask/ComputeMaskAreaAction.java:341-361 | "Mask is empty" iff nothing was counted; otherwise the shown mean times the count is the total area |
| MaskStatistics.AreaSumBounds | snap-rcp/src/main/java/org/esa/snap/rcp/mask/ComputeMaskAreaAction.java:324-325 | with each area between lo and hi, the sum lies between count·lo and count·hi |
| MaskStatistics.MeanFromBounds | snap-rcp/src/main/java/org/esa/snap/rcp/mask/ComputeMaskAreaAction.java:360 | with a positive count, the mean of areas between lo and hi lies between them |
| MaskStatistics.MeanWithinExtremes | snap-rcp/src/main/java/org/esa/snap/rcp/mask/ComputeMaskAreaAction.java:359-363 | the mean pixel area shown lies between the minimum and maximum shown |
| MaskStatistics.DoneAfterVisit | snap-rcp/src/main/java/org/esa/snap/rcp/mask/ComputeMaskAreaAction.java:344-360 | the mask is reported empty iff it has no non-zero sample; otherwise min <= mean <= max with a positive divisor |
| MaskTraversal.RowPixelsAt | snap-rcp/src/main/java/org/esa/snap/rcp/mask/ComputeMaskAreaAction.java:299 | a row run visits x0, x0+1, … in order, none for a non-positive width |
| MaskTraversal.RectPixelsMembership | snap-rcp/src/main/java/org/esa/snap/rcp/mask/ComputeMaskAreaAction.java:298-299 | the nested row loops visit exactly the pixels the rectangle covers |
| MaskTraversal.RectRowsDistinct | snap-rcp/src/main/java/org/esa/snap/rcp/mask/ComputeMaskAreaAction.java:298-299 | no pixel of a rectangle is visited twice |
| MaskTraversal.ProcessRow | snap-rcp/src/main/java/org/esa/snap/rcp/mask/ComputeMaskAreaAction.java:299-327 | the inner loop folds the row's pixels into the statistics in order |
| MaskTraversal.ProcessTile | snap-rcp/src/main/java/org/esa/snap/rcp/mask/ComputeMaskAreaAction.java:290-329 | a tile contributes exactly the pixels of its intersection with the scene, row by row, and nothing when that is empty |
| MaskTraversal.NextTile | snap-rcp/src/main/java/org/esa/snap/rcp/mask/ComputeMaskAreaAction.java:285-286 | the tile at column tx, row ty is tile number (tx-minX)·numY + (ty-minY) in loop order |
| MaskTraversal.ProcessNextTile | snap-rcp/src/main/java/org/esa/snap/rcp/mask/ComputeMaskAreaAction.java:287-330 | an uncancelled poll processes the next tile and reports one unit of work |
| MaskTraversal.CancelledPoll | snap-rcp/src/main/java/org/esa/snap/rcp/mask/ComputeMaskAreaAction.java:287-289 | a poll that sees cancellation processes nothing, and the loop state stays consistent for any later column |
| MaskTraversal.ProcessColumn | snap-rcp/src/main/java/org/esa/snap/rcp/mask/ComputeMaskAreaAction.java:286-331 | the inner loop over one tile column keeps the statistics equal to the visit of all tiles worked so far |
| MaskTraversal.ComputeAreaStatistics | snap-rcp/src/main/java/org/esa/snap/rcp/mask/ComputeMaskAreaAction.java:260-337 | the total is numX·numY; the tiles worked are a prefix of loop order, all seen uncancelled; short of all tiles, the next poll saw cancellation; the statistics are those of exactly that prefix |
| MaskTraversal.TilePixelsMembership | snap-rcp/src/main/java/org/esa/snap/rcp/mask/ComputeMaskAreaAction.java:290-299 | on a regular grid, a tile visits exactly the scene pixels whose tile column and row are its own |
| MaskTraversal.TileAtIndex | snap-rcp/src/main/java/org/esa/snap/rcp/mask/ComputeMaskAreaAction.java:285-286 | the k-th tile of the loop is (tx, ty) iff k is its column-major index |
| MaskTraversal.TilesPixelsMembership | snap-rcp/src/main/java/org/esa/snap/rcp/mask/ComputeMaskAreaAction.java:285-299 | the first k tiles visit exactly the in-grid scene pixels with tile index below k |
| MaskTraversal.TilesPixelsDistinct | snap-rcp/src/main/java/org/esa/snap/rcp/mask/ComputeMaskAreaAction.java:285-299 | no pixel is visited twice across tiles |
| MaskTraversal.CoveredInGrid | snap-rcp/src/main/java/org/esa/snap/rcp/mask/ComputeMaskAreaAction.java:269-295 | when the tiles cover the scene, every scene pixel falls in some tile of the loop |
| MaskTraversal.WholeSceneCounted | snap-rcp/src/main/java/org/esa/snap/rcp/mask/ComputeMaskAreaAction.java:260-337 | when the tiles cover the scene, an uncancelled run counts exactly the non-zero mask samples of the scene |
| ChannelSources.FreshMembership | snap-rcp/src/main/java/org/esa/snap/rcp/colormanip/Continuous3BandGraphicalForm.java:200-206 | the nodes appended are exactly those of the input not already listed |
| ChannelSources.FreshDistinct | snap-rcp/src/main/java/org/esa/snap/rcp/colormanip/Continuous3BandGraphicalForm.java:200-206 | no node is appended twice |
| ChannelSources.AppendDistinctFacts | snap-rcp/src/main/java/org/esa/snap/rcp/colormanip/Continuous3BandGraphicalForm.java:200-206 | after appending, the list holds the old and new nodes and stays duplicate-free |
| ChannelSources.AppendToChannelSources | snap-rcp/src/main/java/org/esa/snap/rcp/colormanip/Continuous3BandGraphicalForm.java:200-206 | the loop appends exactly the reference order-preserving deduplicated append |
| ChannelSources.AppendDistinctCompose | snap-rcp/src/main/java/org/esa/snap/rcp/colormanip/Continuous3BandGraphicalForm.java:175-178 | successive appends equal one deduplication of the concatenation |
| ChannelSources.DedupPrefix | snap-rcp/src/main/java/org/esa/snap/rcp/colormanip/Continuous3BandGraphicalForm.java:175-178 | deduplicating a longer list starts with the deduplication of its front, so current sources come first |
| ChannelSources.Acknowledge | snap-rcp/src/main/java/org/esa/snap/rcp/colormanip/Continuous3BandGraphicalForm.java:248-255 | succeeds iff the channel's source and model are present; then the editor shows that model and the name field that source's name |
| ChannelSources.UpdateFormModel | snap-rcp/src/main/java/org/esa/snap/rcp/colormanip/Continuous3BandGraphicalForm.java:168-198 | fewer than three rasters throw; otherwise it succeeds iff none of the first three rasters and none of the initial sources is null and the channel is 0, 1 or 2; on success current = first three, the list is dedup(current ++ initial ++ bands), and channel and initial sources are kept; all three models are renewed and the selected channel is acknowledged, showing its model and its source's name |
| ChannelSources.UpdateFormModelList | snap-rcp/src/main/java/org/esa/snap/rcp/colormanip/Continuous3BandGraphicalForm.java:170-194 | the list is duplicate-free, starts with the deduplicated current sources, holds exactly the current, initial and band nodes, and names it in the same order |
| ChannelSources.UpdateFormModelValid | snap-rcp/src/main/java/org/esa/snap/rcp/colormanip/Continuous3BandGraphicalForm.java:168-198 | updating keeps the form's invariant, renews all three models and shows the selected channel's |
| ChannelSources.HandleFormShown | snap-rcp/src/main/java/org/esa/snap/rcp/colormanip/Continuous3BandGraphicalForm.java:149-156 | fewer than three rasters throw; otherwise it succeeds iff none of the first three is null and the channel is 0, 1 or 2, and then they become both the initial and the current sources |
| ChannelSources.HandleFormHidden | snap-rcp/src/main/java/org/esa/snap/rcp/colormanip/Continuous3BandGraphicalForm.java:159-165 | the list is emptied and all models and sources nulled; channel and RGB names are kept |
| ChannelSources.ShowAfterHide | snap-rcp/src/main/java/org/esa/snap/rcp/colormanip/Continuous3BandGraphicalForm.java:149-165 | showing after hiding gives the same form as showing directly, on the modelled fields |
| ChannelSources.UpdateAfterHideFails | snap-rcp/src/main/java/org/esa/snap/rcp/colormanip/Continuous3BandGraphicalForm.java:159-198 | updating a hidden form fails, because its nulled entries are dereferenced |
| ChannelSources.SelectChannel | snap-rcp/src/main/java/org/esa/snap/rcp/colormanip/Continuous3BandGraphicalForm.java:104-122 | a value outside {0,1,2} or the current channel changes nothing; a new channel is acknowledged, succeeding iff its source and model are present, and is then shown with its model and source name; the invariant is kept |
| ChannelSources.FindSource | snap-rcp/src/main/java/org/esa/snap/rcp/colormanip/Continuous3BandGraphicalForm.java:263-269 | a listed source with the chosen name, or None iff no listed source has it |
| ChannelSources.HandleChannelSourceNameChanged | snap-rcp/src/main/java/org/esa/snap/rcp/colormanip/Continuous3BandGraphicalForm.java:262-299 | an unknown name changes nothing; a failing lookup is reported; re-selecting the channel's current source changes nothing; a source without statistics puts back the previous name; any other found source becomes the channel's source, the old name is recorded for the channel, the channel gets a fresh editor model shown in the editor, and nothing else changes |
| ChannelSources.ReselectUnchanged | snap-rcp/src/main/java/org/esa/snap/rcp/colormanip/Continuous3BandGraphicalForm.java:277-278 | choosing the current source's name again changes nothing |
| ChannelSources.MissingStatsReverts | snap-rcp/src/main/java/org/esa/snap/rcp/colormanip/Continuous3BandGraphicalForm.java:294-297 | a new source without statistics is not taken, and the name reverts to the old value, or "" if it was null |
| ChannelSources.ChangeTouchesOneChannel | snap-rcp/src/main/java/org/esa/snap/rcp/colormanip/Continuous3BandGraphicalForm.java:279-292 | a change gives the selected channel the listed source of the chosen name, which has statistics, and that name as RGB source name; the other channels keep source, RGB name and model |
| ChannelSources.NameChangeValid | snap-rcp/src/main/java/org/esa/snap/rcp/colormanip/Continuous3BandGraphicalForm.java:262-299 | changing a channel source keeps the form's invariant |
| ChannelSources.GetRasters | snap-rcp/src/main/java/org/esa/snap/rcp/colormanip/Continuous3BandGraphicalForm.java:226-228 | the result is a new array with the current sources |

## Left out

- Swing and NetBeans layout, widgets, dialogs, action registration and lookup wiring: they build a user interface and state no rules.
- The tool-adapter dialog's file and package I/O: saving, removing and registering operators, and copying and writing template files in `onOK`. This includes `ensureLocalCopy` and the `templates` map.
- The writer list and toolbox-operator list sorting in the private constructor, and `getAvailableMenuOptions`: they read plug-in registries and the configuration file system.
- Path existence, executability, directory tests and variable resolution: these are oracles in `AdapterEditor.Environment`.
- Library constants whose values are not in the modelled files:
  - the generated-name separator;
  - `ArrayConverter.SEPARATOR`;
  - the template-file suffix;
  - the default notNull of a new template parameter;
  - the mean Earth radius.

  They are parameters.
- Docking (`dockInternalFrame`, Dock, Dock All) and maximising: they hand frames to the NetBeans window manager. The workspace side of docking is `WorkspaceWindows.CloseInternalFrame` with removeTab set.
- Close All, Close Others and Clone only show "Not implemented yet". Only their place in the popup and their labels are modelled.
- `getSubComponents`, frame activation listeners and `componentActivated`.
- The tab-bar visibility after closing follows the desktop's component count, which the model takes to be the number of mapped frames. Other components on the desktop pane are not modelled.
- Geodesic pixel area: geocoding, `Math.cos` and the double arithmetic are one opaque real function of the pixel. Floating-point rounding, and `MathUtils.round` in the display, are not modelled: sums and means are exact reals.
- Threading: `SwingWorker` and the progress dialog. `ExecutionException` and `InterruptedException` in `done` are not modelled.
- Tiling.ChooseGrid: the score is exact real arithmetic, not IEEE doubles, so ties that rounding would break differently are not modelled.
- MaskTraversal.ComputeAreaStatistics: tile numbers, `numXTiles * numYTiles` and pixel counts are unbounded integers, not 32-bit `int`. The tile samples are taken as the mask image's samples at the same pixel.
- Pixel positions from `Rectangle.intersection` are unbounded integers: `java.awt.Rectangle`'s clamping of `int` overflow is not modelled.
- ChannelSources: stretch settings, display samples and gamma are not modelled:
  - histogram gain and view samples copied from old models;
  - min/max display samples copied from a source's palette;
  - gamma.

  Models are identified only by their channel.
- ChannelSources: property-change events that fire again while a handler runs are not modelled. Each handler runs to completion on the state it is given.
- ChannelSources.GetRasters: its contract is stated with `fresh` on a returned array; the copy is the point of the operation.
- When an exception is thrown part way through an operation, the partly updated Java state is not modelled: the operation returns the exception instead of a state.
- MaskStatistics.MeanWithinExtremes: pixel areas are finite reals. Java does not check that `getGeoPos` found a valid position; an invalid one gives NaN coordinates, and a NaN area makes the minimum, maximum and mean NaN, so min <= mean <= max fails there.
- MaskStatistics.DoneAfterVisit: the same finite-area assumption; with a NaN pixel area the reported bounds do not hold.
- AdapterEditor.VerifyUserInput: when the descriptor's tool location is null and only the bound value rescues it, Java still resolves the null location (`resolveVariables(null)`), which most likely throws a NullPointerException in code outside this model. The model instead hands the missing location to the executability oracle.
- MaskAction.FindMask: `ProductNodeGroup.get(String)` is library code outside this model. It is taken to return the first mask whose name is exactly equal, and a null name (no selection) to find nothing, so the action ends in a NullPointerException. A case-insensitive lookup, or an IllegalArgumentException for a null name, is not modelled.
- MaskAction.StartedMaskEligible: its "unique names" condition relies on the same exact-match lookup; under a case-insensitive lookup it would need names unique up to case.
- ChannelSources.ShowAfterHide: the histogram view gain and sample range are not modelled. Java's handleFormHidden (line 162) clears the editor models, so the next updateFormModel (lines 181-186) starts from default gains instead of copying the old ones; showing after hiding therefore loses the gains a direct re-show would keep.
- AdapterEditor.OnOK: array property values are taken to be object arrays with non-null elements. Java casts to `Object[]` and calls `toString` on each element before the `try`, so a primitive array (ClassCastException) or a null element (NullPointerException) would escape `onOK`; neither is modelled. `ArrayConverter.SEPARATOR` is a `String` in Java and a single character here.
- `Integer.valueOf` accepts only ASCII digits here; Java also accepts other Unicode decimal digits.
- `SaveProductAsAction` and `CollocationDialog` are not part of this model: they orchestrate dialogs over code outside these files.

## Findings

| source | as written | input that shows it | evidently intended | confidence | as-written member | corrected member |
|---|---|---|---|---|---|---|
| snap-gui/src/main/java/org/esa/snap/gui/window/WorkspaceTopComponent.java:480-486 | `CloneWindowAction` is constructed with the label "Close Others", copied from the action above it | two tabs, popup on tab 0: entries 2 and 8 are different actions both reading "Close Others" | a label of its own, e.g. "Clone" | not executed | TabPopup.AsWrittenLabelsCollide | TabPopup.PopupLabelsDistinct |

=== FILE: adapter_editor.dfy ===
/** The editing rules of the tool-adapter editor dialog: the three template
    parameters every adapter must have, the naming of a duplicated operator,
    input verification, the source-product count read from the command-line
    template, and the descriptor changes made when the dialog is confirmed.
    File-system queries are oracles carried in `Environment`. */
module AdapterEditor {
  import opened Basics
  import opened JavaText

  const SourceProductsName: string := "sourceProducts"
  const SourceProductFilesName: string := "sourceProductFiles"
  const TargetProductFileName: string := "targetProductFile"
  const MenuRoot: string := "Menu/"

  /** The Java class a parameter is declared with. */
  datatype DataType = ProductArrayType | FileArrayType | FileType | OtherType(className: string)

  /** `File.class.isAssignableFrom(dataType)`: only a plain `File` qualifies,
      a `File[]` does not. */
  predicate IsFileType(t: DataType) {
    t == FileType
  }

  datatype Param = Param(
    name: string,
    dataType: DataType,
    notNull: bool,
    notEmpty: bool,
    defaultValue: Option<string>,
    templateBefore: bool,
    templateAfter: bool)

  datatype SystemVariable = SystemVariable(key: string, value: Option<string>)

  /** Where an adapter came from; only `PackageSource` counts as "from package". */
  datatype AdapterSource = UserSource | PackageSource | OtherSource(tag: string)

  datatype Descriptor = Descriptor(
    name: string,
    alias: string,
    menuLocation: Option<string>,
    mainToolFileLocation: Option<string>,
    workingDir: Option<string>,
    variables: seq<SystemVariable>,
    params: seq<Param>,
    sourceProductCount: int,
    source: AdapterSource,
    templateFileLocation: Option<string>)

  /** The flag values a freshly constructed template parameter carries; the
      parameter class itself is not part of this model. */
  datatype NewParamFlags = NewParamFlags(notNull: bool, notEmpty: bool)

  /** The editor state: the descriptor being edited, a working copy, and how
      the dialog was opened. */
  datatype Dialog = Dialog(
    oldDescriptor: Descriptor,
    descriptor: Descriptor,
    operatorIsNew: bool,
    newNameIndex: int)

  // ---------------------------------------------------------------------
  // Mandatory template parameters

  predicate HasParam(ps: seq<Param>, name: string) {
    exists i :: 0 <= i < |ps| && ps[i].name == name
  }

  lemma HasParamAppend(a: seq<Param>, b: seq<Param>, name: string)
    ensures HasParam(a + b, name) <==> HasParam(a, name) || HasParam(b, name)
  {
    if HasParam(a + b, name) {
      var i :| 0 <= i < |a + b| && (a + b)[i].name == name;
      if i >= |a| { assert b[i - |a|] == (a + b)[i]; }
    }
    if HasParam(b, name) {
      var i :| 0 <= i < |b| && b[i].name == name;
      assert (a + b)[|a| + i] == b[i];
    }
    if HasParam(a, name) {
      var i :| 0 <= i < |a| && a[i].name == name;
      assert (a + b)[i] == a[i];
    }
  }

  predicate IsMandatoryName(name: string) {
    name == SourceProductsName || name == SourceProductFilesName || name == TargetProductFileName
  }

  function NewParam(name: string, dataType: DataType, flags: NewParamFlags): Param {
    Param(name, dataType, flags.notNull, flags.notEmpty, None, false, false)
  }

  /** The `targetProductFile` parameter the dialog adds: never required. */
  function NewTargetParam(flags: NewParamFlags): Param {
    NewParam(TargetProductFileName, FileType, flags).(notNull := false)
  }

  /** `p` when no parameter of its name exists yet, otherwise nothing. */
  function MissingOne(ps: seq<Param>, p: Param): (m: seq<Param>)
    ensures |m| <= 1
    ensures |m| == 1 <==> !HasParam(ps, p.name)
    ensures |m| == 1 ==> m[0] == p
  {
    if HasParam(ps, p.name) then [] else [p]
  }

  /** Appends `p` unless a parameter of the same name exists already. */
  function AddIfMissing(ps: seq<Param>, p: Param): (r: seq<Param>)
    ensures r == ps + MissingOne(ps, p)
    ensures HasParam(r, p.name)
  {
    var r := ps + MissingOne(ps, p);
    HasParamAppend(ps, MissingOne(ps, p), p.name);
    assert !HasParam(ps, p.name) ==> r[|ps|].name == p.name;
    r
  }

  /** Adding a parameter does not change whether one of another name is
      missing. */
  lemma MissingOneAfter(ps: seq<Param>, p: Param, q: Param)
    requires p.name != q.name
    ensures MissingOne(ps + MissingOne(ps, p), q) == MissingOne(ps, q)
  {
    HasParamAppend(ps, MissingOne(ps, p), q.name);
  }

  /** The three mandatory parameters in the order the dialog adds them. */
  function MandatoryProducts(flags: NewParamFlags): Param {
    NewParam(SourceProductsName, ProductArrayType, flags)
  }

  function MandatoryFiles(flags: NewParamFlags): Param {
    NewParam(SourceProductFilesName, FileArrayType, flags)
  }

  /** The three mandatory names are pairwise different. */
  lemma MandatoryNamesDistinct()
    ensures SourceProductsName != SourceProductFilesName
    ensures SourceProductsName != TargetProductFileName
    ensures SourceProductFilesName != TargetProductFileName
  {
    assert |SourceProductsName| != |SourceProductFilesName|;
    assert SourceProductsName[0] != TargetProductFileName[0];
    assert SourceProductFilesName[0] != TargetProductFileName[0];
  }

  /** The mandatory parameters `ps` lacks, in the order they are added. */
  function MissingMandatory(ps: seq<Param>, flags: NewParamFlags): (m: seq<Param>)
    ensures |m| <= 3
  {
    MissingOne(ps, MandatoryProducts(flags)) + MissingOne(ps, MandatoryFiles(flags)) +
    MissingOne(ps, NewTargetParam(flags))
  }

  /** Exactly the absent mandatory parameters are added, each once, and the
      added target is never required. */
  lemma MissingMandatoryFacts(ps: seq<Param>, flags: NewParamFlags)
    ensures var m := MissingMandatory(ps, flags);
            && (forall i :: 0 <= i < |m| ==> IsMandatoryName(m[i].name) && !HasParam(ps, m[i].name))
            && (forall i, j :: 0 <= i < j < |m| ==> m[i].name != m[j].name)
            && (forall i :: 0 <= i < |m| && m[i].name == TargetProductFileName ==>
                  m[i] == NewTargetParam(flags) && !m[i].notNull)
            && (forall name :: IsMandatoryName(name) ==> (HasParam(m, name) <==> !HasParam(ps, name)))
  {
    var a := MissingOne(ps, MandatoryProducts(flags));
    var b := MissingOne(ps, MandatoryFiles(flags));
    var c := MissingOne(ps, NewTargetParam(flags));
    var m := a + b + c;
    MandatoryNamesDistinct();
    forall name | IsMandatoryName(name) ensures HasParam(m, name) <==> !HasParam(ps, name) {
      HasParamAppend(a, b, name);
      HasParamAppend(a + b, c, name);
    }
    forall i | 0 <= i < |m|
      ensures m[i] == MandatoryProducts(flags) || m[i] == MandatoryFiles(flags) || m[i] == NewTargetParam(flags)
      ensures !HasParam(ps, m[i].name)
    {
      if i < |a| { assert m[i] == a[i]; }
      else if i < |a| + |b| { assert m[i] == b[i - |a|]; }
      else { assert m[i] == c[i - |a| - |b|]; }
    }
    forall i, j | 0 <= i < j < |m| ensures m[i].name != m[j].name {
      if i < |a| { assert m[i] == a[0]; }
      if j >= |a| + |b| { assert m[j] == c[0]; }
      else if j >= |a| { assert m[j] == b[0]; }
    }
  }

  /** The constructor step that makes sure `sourceProducts`,
      `sourceProductFiles` and `targetProductFile` exist: existing entries
      are kept as they are, and only the missing ones are appended. */
  function EnsureTemplateParams(ps: seq<Param>, flags: NewParamFlags): (r: seq<Param>)
    ensures r == ps + MissingMandatory(ps, flags)
    ensures HasParam(r, SourceProductsName)
    ensures HasParam(r, SourceProductFilesName)
    ensures HasParam(r, TargetProductFileName)
  {
    var p1 := AddIfMissing(ps, MandatoryProducts(flags));
    var p2 := AddIfMissing(p1, MandatoryFiles(flags));
    var r := AddIfMissing(p2, NewTargetParam(flags));
    MandatoryNamesDistinct();
    MissingOneAfter(ps, MandatoryProducts(flags), MandatoryFiles(flags));
    MissingOneAfter(ps, MandatoryProducts(flags), NewTargetParam(flags));
    MissingOneAfter(p1, MandatoryFiles(flags), NewTargetParam(flags));
    HasParamAppend(p1, MissingOne(p1, MandatoryFiles(flags)), SourceProductsName);
    HasParamAppend(p2, MissingOne(p2, NewTargetParam(flags)), SourceProductsName);
    HasParamAppend(p2, MissingOne(p2, NewTargetParam(flags)), SourceProductFilesName);
    r
  }

  /** Opening the dialog on an existing adapter: the working copy gets the
      mandatory parameters, and no new name is generated. */
  function OpenForEdit(orig: Descriptor, operatorIsNew: bool, flags: NewParamFlags): (r: Dialog)
    ensures r.oldDescriptor == orig && r.newNameIndex == -1
    ensures r.operatorIsNew == operatorIsNew
    ensures r.descriptor == orig.(params := r.descriptor.params)
    ensures |r.descriptor.params| >= |orig.params|
    ensures r.descriptor.params[..|orig.params|] == orig.params
    ensures HasParam(r.descriptor.params, SourceProductsName)
    ensures HasParam(r.descriptor.params, SourceProductFilesName)
    ensures HasParam(r.descriptor.params, TargetProductFileName)
  {
    Dialog(orig, orig.(params := EnsureTemplateParams(orig.params, flags)), operatorIsNew, -1)
  }

  /** Opening the dialog to duplicate an adapter: an index of 1 or more
      renames the copy to `name + separator + index` (and likewise the
      alias) and marks it new; a smaller index edits the adapter in place. */
  function OpenAsCopy(orig: Descriptor, newNameIndex: int, separator: string, flags: NewParamFlags): (r: Dialog)
    requires MinInt <= newNameIndex <= MaxInt
    ensures r.oldDescriptor == orig && r.newNameIndex == newNameIndex
    ensures r.operatorIsNew <==> newNameIndex >= 1
    ensures newNameIndex >= 1 ==>
              r.descriptor.name == orig.name + separator + IntToString(newNameIndex) &&
              r.descriptor.alias == orig.alias + separator + IntToString(newNameIndex)
    ensures newNameIndex < 1 ==> r.descriptor.name == orig.name && r.descriptor.alias == orig.alias
    ensures r.descriptor.params == EnsureTemplateParams(orig.params, flags)
    ensures r.descriptor.variables == orig.variables && r.descriptor.menuLocation == orig.menuLocation
    ensures r.descriptor == orig.(params := r.descriptor.params, name := r.descriptor.name, alias := r.descriptor.alias)
  {
    var copy := orig.(params := EnsureTemplateParams(orig.params, flags));
    var renamed :=
      if newNameIndex >= 1 then
        copy.(name := orig.name + separator + IntToString(newNameIndex),
              alias := orig.alias + separator + IntToString(newNameIndex))
      else copy;
    Dialog(orig, renamed, newNameIndex >= 1, newNameIndex)
  }

  /** The generated name of a duplicate determines its index: stripping the
      orig name and the separator leaves the decimal index. */
  lemma CopyNameRecoversIndex(orig: Descriptor, newNameIndex: int, separator: string, flags: NewParamFlags)
    requires 1 <= newNameIndex <= MaxInt
    ensures var d := OpenAsCopy(orig, newNameIndex, separator, flags).descriptor;
            |d.name| > |orig.name| + |separator| &&
            d.name[..|orig.name| + |separator|] == orig.name + separator &&
            ParseInt(d.name[|orig.name| + |separator|..]) == Some(newNameIndex) &&
            ParseInt(d.alias[|orig.alias| + |separator|..]) == Some(newNameIndex)
  {
    var d := OpenAsCopy(orig, newNameIndex, separator, flags).descriptor;
    var digits := IntToString(newNameIndex);
    assert d.name == (orig.name + separator) + digits;
    assert d.name[|orig.name| + |separator|..] == digits;
    assert d.alias == (orig.alias + separator) + digits;
    assert d.alias[|orig.alias| + |separator|..] == digits;
    ParseIntToString(newNameIndex);
  }

  // ---------------------------------------------------------------------
  // Input verification

  /** File-system queries the verification relies on. */
  datatype Environment = Environment(
    // the resolved tool location exists and is executable
    toolIsExecutable: Option<string> -> bool,
    // the resolved working directory exists and is a directory
    workingDirIsDirectory: Option<string> -> bool,
    pathExists: string -> bool)

  /** Which constraint a missing file violates, as named in the warning. */
  datatype ViolatedFlag = NotNullFlag | NotEmptyFlag

  datatype VerifyError =
    | MissingTool
    | BadWorkingDir
    | EmptyVariable(key: string)
    | MissingParameterFile(paramName: string, flag: ViolatedFlag)

  datatype Check = Valid | Invalid(reason: VerifyError)

  predicate VariableIsSet(v: SystemVariable) {
    v.value.Some? && |v.value.value| > 0
  }

  /** A File parameter marked notNull or notEmpty must default to an
      existing, non-empty path. */
  predicate FileRequirementMet(p: Param, pathExists: string -> bool) {
    !(IsFileType(p.dataType) && (p.notNull || p.notEmpty) &&
      (p.defaultValue.None? || |p.defaultValue.value| == 0 || !pathExists(p.defaultValue.value)))
  }

  /** The position of the first variable without a value. */
  function FirstUnsetVariable(vs: seq<SystemVariable>): (r: Option<nat>)
    ensures r.None? <==> forall i :: 0 <= i < |vs| ==> VariableIsSet(vs[i])
    ensures r.Some? ==> r.value < |vs| && !VariableIsSet(vs[r.value]) &&
                        forall i :: 0 <= i < r.value ==> VariableIsSet(vs[i])
  {
    if |vs| == 0 then None
    else if !VariableIsSet(vs[0]) then Some(0)
    else match FirstUnsetVariable(vs[1..])
      case None => None
      case Some(k) => Some(k + 1)
  }

  /** The position of the first File parameter whose required path is missing. */
  function FirstMissingFile(ps: seq<Param>, pathExists: string -> bool): (r: Option<nat>)
    ensures r.None? <==> forall i :: 0 <= i < |ps| ==> FileRequirementMet(ps[i], pathExists)
    ensures r.Some? ==> r.value < |ps| && !FileRequirementMet(ps[r.value], pathExists) &&
                        forall i :: 0 <= i < r.value ==> FileRequirementMet(ps[i], pathExists)
  {
    if |ps| == 0 then None
    else if !FileRequirementMet(ps[0], pathExists) then Some(0)
    else match FirstMissingFile(ps[1..], pathExists)
      case None => None
      case Some(k) => Some(k + 1)
  }

  /** `verifyUserInput`. The value bound to the tool-location field only
      rescues a missing location from the first null check; the existence
      check that follows queries the descriptor's own location. */
  function VerifyUserInput(d: Descriptor, boundToolValue: Option<string>, env: Environment): (r: Check)
    ensures r.Valid? <==>
              && (d.mainToolFileLocation.Some? || boundToolValue.Some?)
              && env.toolIsExecutable(d.mainToolFileLocation)
              && env.workingDirIsDirectory(d.workingDir)
              && (forall i :: 0 <= i < |d.variables| ==> VariableIsSet(d.variables[i]))
              && (forall i :: 0 <= i < |d.params| ==> FileRequirementMet(d.params[i], env.pathExists))
    ensures r == Invalid(MissingTool) <==>
              (d.mainToolFileLocation.None? && boundToolValue.None?) ||
              !env.toolIsExecutable(d.mainToolFileLocation)
    ensures r == Invalid(BadWorkingDir) <==>
              && (d.mainToolFileLocation.Some? || boundToolValue.Some?)
              && env.toolIsExecutable(d.mainToolFileLocation)
              && !env.workingDirIsDirectory(d.workingDir)
    ensures r.Invalid? && r.reason.EmptyVariable? <==>
              && (d.mainToolFileLocation.Some? || boundToolValue.Some?)
              && env.toolIsExecutable(d.mainToolFileLocation)
              && env.workingDirIsDirectory(d.workingDir)
              && FirstUnsetVariable(d.variables).Some?
    ensures r.Invalid? && r.reason.EmptyVariable? ==>
              r.reason.key == d.variables[FirstUnsetVariable(d.variables).value].key
    ensures r.Invalid? && r.reason.EmptyVariable? ==>
              exists i :: 0 <= i < |d.variables| && d.variables[i].key == r.reason.key &&
                          !VariableIsSet(d.variables[i])
    ensures r.Invalid? && r.reason.MissingParameterFile? ==>
              (forall i :: 0 <= i < |d.variables| ==> VariableIsSet(d.variables[i])) &&
              exists i :: 0 <= i < |d.params| && d.params[i].name == r.reason.paramName &&
                          !FileRequirementMet(d.params[i], env.pathExists) &&
                          (r.reason.flag == NotNullFlag <==> d.params[i].notNull)
  {
    if d.mainToolFileLocation.None? && boundToolValue.None? then Invalid(MissingTool)
    else if !env.toolIsExecutable(d.mainToolFileLocation) then Invalid(MissingTool)
    else if !env.workingDirIsDirectory(d.workingDir) then Invalid(BadWorkingDir)
    else match FirstUnsetVariable(d.variables)
      case Some(i) => Invalid(EmptyVariable(d.variables[i].key))
      case None =>
        match FirstMissingFile(d.params, env.pathExists)
        case Some(i) =>
          var p := d.params[i];
          Invalid(MissingParameterFile(p.name, if p.notNull then NotNullFlag else NotEmptyFlag))
        case None => Valid
  }

  // ---------------------------------------------------------------------
  // Source-product count from the command-line template

  /** What `resolveTemplateProductCount` reports, with the count it leaves. */
  datatype Resolution = Resolution(success: bool, count: int)

  const ProductsRef: string := SourceProductsName + "["
  const FilesRef: string := SourceProductFilesName + "["

  /** Reads the index after the array reference `ref` found at `idx`, up to
      the next `]`; the count becomes index + 1 (in `int` arithmetic) when
      that exceeds 1, and is left alone otherwise. A missing `]` or a
      non-numeric index throws. */
  function ReadArrayIndex(template: string, idx: int, ref: string, count: int): (r: Result<Resolution, JavaException>)
    ensures r.Success? && r.value.success ==> r.value.count > 1
    ensures r.Success? && !r.value.success ==> r.value.count == count
  {
    var close := IndexOfFrom(template, "]", idx);
    match Substring(template, idx + |ref|, close)
    case Failure(e) => Failure(e)
    case Success(text) =>
      match ParseInt(text)
      case None => Failure(NumberFormat)
      case Some(n) =>
        var maxNum := Wrap32(n + 1);
        if maxNum > 1 then Success(Resolution(true, maxNum)) else Success(Resolution(false, count))
  }

  /** `resolveTemplateProductCount`: the last `sourceProducts[` reference
      decides; failing that, the last `sourceProductFiles[` reference; with
      neither, the count is 1. A reference at position 0 is not seen. */
  function ResolveTemplateProductCount(template: string, count: int): (r: Result<Resolution, JavaException>)
    ensures r.Success? && r.value.success ==> r.value.count >= 1
    ensures r.Success? && !r.value.success ==> r.value.count == count
    ensures LastIndexOf(template, ProductsRef) <= 0 && LastIndexOf(template, FilesRef) <= 0 ==>
              r == Success(Resolution(true, 1))
    ensures LastIndexOf(template, ProductsRef) > 0 ==>
              r == ReadArrayIndex(template, LastIndexOf(template, ProductsRef), ProductsRef, count)
    ensures LastIndexOf(template, ProductsRef) <= 0 && LastIndexOf(template, FilesRef) > 0 ==>
              r == ReadArrayIndex(template, LastIndexOf(template, FilesRef), FilesRef, count)
  {
    var idx := LastIndexOf(template, ProductsRef);
    if idx > 0 then ReadArrayIndex(template, idx, ProductsRef, count)
    else
      var fidx := LastIndexOf(template, FilesRef);
      if fidx > 0 then ReadArrayIndex(template, fidx, FilesRef, count)
      else Success(Resolution(true, 1))
  }

  /** The first `]` at or after the start of a reference `ref + digits + "]"`
      is the one closing it. */
  lemma ClosingBracket(t: string, p: string, ref: string, digits: string, q: string)
    requires t == p + ref + digits + "]" + q
    requires forall k :: 0 <= k < |ref| ==> ref[k] != ']'
    requires forall k :: 0 <= k < |digits| ==> digits[k] != ']'
    ensures IndexOfFrom(t, "]", |p|) == |p| + |ref| + |digits|
  {
    var close := |p| + |ref| + |digits|;
    assert t[close] == ']';
    assert OccursAt(t, "]", close);
    var r := IndexOfFrom(t, "]", |p|);
    forall j | |p| <= j < close
      ensures !OccursAt(t, "]", j)
    {
      if j < |p| + |ref| {
        assert t[j] == ref[j - |p|];
      } else {
        assert t[j] == digits[j - |p| - |ref|];
      }
    }
  }

  /** Reading the reference `ref + k + "]"` placed after `p` yields k + 1. */
  lemma ReferenceRead(p: string, ref: string, k: int, q: string, count: int)
    requires MinInt <= k <= MaxInt
    requires forall i :: 0 <= i < |ref| ==> ref[i] != ']'
    ensures ReadArrayIndex(p + ref + IntToString(k) + "]" + q, |p|, ref, count) ==
              if Wrap32(k + 1) > 1 then Success(Resolution(true, Wrap32(k + 1)))
              else Success(Resolution(false, count))
  {
    var digits := IntToString(k);
    var t := p + ref + digits + "]" + q;
    var start := |p| + |ref|;
    ClosingBracket(t, p, ref, digits, q);
    assert t[start..start + |digits|] == digits;
    ParseIntToString(k);
    IndexRead(t, |p|, ref, count, start + |digits|, digits, k);
  }

  /** Once the closing bracket and the number before it are known, reading
      the index is a matter of the wrapped sum. */
  lemma IndexRead(t: string, idx: int, ref: string, count: int, close: int, text: string, n: int)
    requires IndexOfFrom(t, "]", idx) == close
    requires 0 <= idx + |ref| <= close <= |t| && t[idx + |ref|..close] == text
    requires ParseInt(text) == Some(n)
    ensures ReadArrayIndex(t, idx, ref, count) ==
              if Wrap32(n + 1) > 1 then Success(Resolution(true, Wrap32(n + 1)))
              else Success(Resolution(false, count))
  {
  }

  /** The reference placed after `p` is the last one when none follows. */
  lemma LastReferenceAt(p: string, ref: string, rest: string)
    requires forall j :: |p| < j ==> !OccursAt(p + ref + rest, ref, j)
    ensures LastIndexOf(p + ref + rest, ref) == |p|
  {
    var t := p + ref + rest;
    assert t[|p|..|p| + |ref|] == ref;
    assert OccursAt(t, ref, |p|);
  }

  /** Neither array reference contains a closing bracket. */
  lemma RefsBracketFree()
    ensures forall i :: 0 <= i < |ProductsRef| ==> ProductsRef[i] != ']'
    ensures forall i :: 0 <= i < |FilesRef| ==> FilesRef[i] != ']'
  {
  }

  /** A template whose last `sourceProducts[` reference (not at the very
      start) reads `[k]` yields the count k + 1, or is rejected unchanged
      when k + 1 does not exceed 1 in `int` arithmetic. */
  lemma ProductsReferenceDecides(p: string, k: int, q: string, count: int)
    requires MinInt <= k <= MaxInt
    requires |p| > 0
    requires var t := p + ProductsRef + IntToString(k) + "]" + q;
             forall j :: |p| < j ==> !OccursAt(t, ProductsRef, j)
    ensures var t := p + ProductsRef + IntToString(k) + "]" + q;
            ResolveTemplateProductCount(t, count) ==
              if Wrap32(k + 1) > 1 then Success(Resolution(true, Wrap32(k + 1)))
              else Success(Resolution(false, count))
  {
    var rest := IntToString(k) + "]" + q;
    var t := p + ProductsRef + IntToString(k) + "]" + q;
    assert t == p + ProductsRef + rest;
    LastReferenceAt(p, ProductsRef, rest);
    RefsBracketFree();
    ReferenceRead(p, ProductsRef, k, q, count);
    assert ResolveTemplateProductCount(t, count) == ReadArrayIndex(t, |p|, ProductsRef, count);
  }

  /** With no `sourceProducts[` reference past the start, the last
      `sourceProductFiles[` reference decides in the same way. */
  lemma FilesReferenceDecides(p: string, k: int, q: string, count: int)
    requires MinInt <= k <= MaxInt
    requires |p| > 0
    requires var t := p + FilesRef + IntToString(k) + "]" + q;
             (forall j :: 0 < j ==> !OccursAt(t, ProductsRef, j)) &&
             (forall j :: |p| < j ==> !OccursAt(t, FilesRef, j))
    ensures var t := p + FilesRef + IntToString(k) + "]" + q;
            ResolveTemplateProductCount(t, count) ==
              if Wrap32(k + 1) > 1 then Success(Resolution(true, Wrap32(k + 1)))
              else Success(Resolution(false, count))
  {
    var rest := IntToString(k) + "]" + q;
    var t := p + FilesRef + IntToString(k) + "]" + q;
    assert t == p + FilesRef + rest;
    LastReferenceAt(p, FilesRef, rest);
    RefsBracketFree();
    ReferenceRead(p, FilesRef, k, q, count);
    assert ResolveTemplateProductCount(t, count) == ReadArrayIndex(t, |p|, FilesRef, count);
  }

  /** A template that mentions neither array, or only at its very first
      character, sets the count to 1. */
  lemma NoReferenceMeansOneProduct(t: string, count: int)
    requires forall j :: 0 < j ==> !OccursAt(t, ProductsRef, j) && !OccursAt(t, FilesRef, j)
    ensures ResolveTemplateProductCount(t, count) == Success(Resolution(true, 1))
  {
  }

  // ---------------------------------------------------------------------
  // Confirming the dialog

  /** A value held by a parameter's editor binding. */
  datatype PropertyValue = Scalar(text: string) | ArrayValue(items: seq<string>)

  /** `String.join(sep, items)`. */
  function Join(items: seq<string>, sep: char): (r: string)
    ensures |items| == 1 ==> r == items[0]
    ensures |items| == 0 ==> r == ""
  {
    if |items| == 0 then ""
    else if |items| == 1 then items[0]
    else Join(items[..|items| - 1], sep) + [sep] + items[|items| - 1]
  }

  /** The fields between separator characters, empty ones included; an
      independent reading of a joined value. */
  function Fields(s: string, sep: char): (r: seq<string>)
    ensures |r| >= 1
    decreases |s|
  {
    if |s| == 0 then [""]
    else
      var init := Fields(s[..|s| - 1], sep);
      if s[|s| - 1] == sep then init + [""]
      else init[..|init| - 1] + [init[|init| - 1] + [s[|s| - 1]]]
  }

  lemma {:induction false} FieldsAfterSeparator(a: string, sep: char, b: string)
    requires sep !in b
    ensures Fields(a + [sep] + b, sep) == Fields(a, sep) + [b]
    decreases |b|
  {
    if |b| == 0 {
      assert a + [sep] + b == a + [sep];
      assert (a + [sep])[..|a + [sep]| - 1] == a;
    } else {
      var b' := b[..|b| - 1];
      var s := a + [sep] + b;
      assert s[..|s| - 1] == a + [sep] + b';
      FieldsAfterSeparator(a, sep, b');
      assert b' + [b[|b| - 1]] == b;
    }
  }

  lemma {:induction false} FieldsOfPlain(b: string, sep: char)
    requires sep !in b
    ensures Fields(b, sep) == [b]
    decreases |b|
  {
    if |b| > 0 {
      var b' := b[..|b| - 1];
      FieldsOfPlain(b', sep);
      assert b' + [b[|b| - 1]] == b;
    }
  }

  /** Joining a non-empty list of separator-free values can be undone. */
  lemma {:induction false} JoinFieldsRoundTrip(items: seq<string>, sep: char)
    requires |items| > 0
    requires forall i :: 0 <= i < |items| ==> sep !in items[i]
    ensures Fields(Join(items, sep), sep) == items
    decreases |items|
  {
    if |items| == 1 {
      FieldsOfPlain(items[0], sep);
    } else {
      var init := items[..|items| - 1];
      JoinFieldsRoundTrip(init, sep);
      FieldsAfterSeparator(Join(init, sep), sep, items[|items| - 1]);
      assert init + [items[|items| - 1]] == items;
    }
  }

  /** The default value a bound non-template parameter receives. */
  function DefaultText(v: PropertyValue, sep: char): string {
    match v
    case Scalar(t) => t
    case ArrayValue(items) => Join(items, sep)
  }

  /** Library conventions the confirmation step depends on. */
  datatype Conventions = Conventions(
    arraySeparator: char,
    templateSuffix: string,
    // the file name of a template file a template parameter points at
    fileName: PropertyValue -> string)

  /** Stores one parameter's bound value as its default value: template
      parameters keep the template's file name, others the value's text,
      arrays joined with the array separator. Unbound parameters are kept. */
  function StoreBoundValue(p: Param, v: Option<PropertyValue>, conv: Conventions): (r: Param)
    ensures r == p.(defaultValue := r.defaultValue)
    ensures v.None? ==> r == p
    ensures v.Some? && !(p.templateBefore || p.templateAfter) ==>
              r.defaultValue == Some(DefaultText(v.value, conv.arraySeparator))
    ensures v.Some? && (p.templateBefore || p.templateAfter) ==>
              r.defaultValue == Some(conv.fileName(v.value))
  {
    match v
    case None => p
    case Some(pv) =>
      if p.templateBefore || p.templateAfter then p.(defaultValue := Some(conv.fileName(pv)))
      else p.(defaultValue := Some(DefaultText(pv, conv.arraySeparator)))
  }

  function StoreBoundValues(ps: seq<Param>, binding: string -> Option<PropertyValue>, conv: Conventions): (r: seq<Param>)
    ensures |r| == |ps|
    ensures forall i :: 0 <= i < |ps| ==> r[i] == StoreBoundValue(ps[i], binding(ps[i].name), conv)
  {
    seq(|ps|, i requires 0 <= i < |ps| => StoreBoundValue(ps[i], binding(ps[i].name), conv))
  }

  predicate IsSourceParamName(name: string) {
    name == SourceProductsName || name == SourceProductFilesName
  }

  predicate KeptOnSave(p: Param) {
    !IsSourceParamName(p.name)
  }

  /** Before saving, the synthetic `sourceProducts` and
      `sourceProductFiles` parameters are dropped; all others stay, in order. */
  function RemoveSourceParams(ps: seq<Param>): (r: seq<Param>)
    ensures forall i :: 0 <= i < |r| ==> !IsSourceParamName(r[i].name) && r[i] in ps
    ensures forall i :: 0 <= i < |ps| && !IsSourceParamName(ps[i].name) ==> ps[i] in r
    ensures !HasParam(r, SourceProductsName) && !HasParam(r, SourceProductFilesName)
    ensures forall q :: multiset(r)[q] == if IsSourceParamName(q.name) then 0 else multiset(ps)[q]
  {
    Filter(ps, KeptOnSave)
  }

  /** Dropping the source parameters works piece by piece: a list split in
      two loses them from each part, the parts staying in order, and a
      single parameter is kept exactly when it is not a source parameter.
      Together these fix the saved list, order included. */
  lemma RemoveSourceParamsKeepsOrder(a: seq<Param>, b: seq<Param>, q: Param)
    ensures RemoveSourceParams(a + b) == RemoveSourceParams(a) + RemoveSourceParams(b)
    ensures RemoveSourceParams([q]) == if IsSourceParamName(q.name) then [] else [q]
  {
    FilterAppend(a, b, KeptOnSave);
    FilterShort([q], KeptOnSave);
  }

  /** Opening the editor and saving it again adds nothing but a missing
      `targetProductFile`: the parameters that get saved are the original
      ones minus the source parameters, plus that target if it was absent. */
  lemma OpenThenSaveParams(ps: seq<Param>, flags: NewParamFlags)
    ensures RemoveSourceParams(EnsureTemplateParams(ps, flags)) ==
              RemoveSourceParams(ps) +
              (if HasParam(ps, TargetProductFileName) then [] else [NewTargetParam(flags)])
  {
    FilterAppend(ps, MissingMandatory(ps, flags), KeptOnSave);
    MissingKeptOnSave(ps, flags);
  }

  /** Of the parameters the dialog adds, only the target survives saving. */
  lemma MissingKeptOnSave(ps: seq<Param>, flags: NewParamFlags)
    ensures Filter(MissingMandatory(ps, flags), KeptOnSave) ==
              (if HasParam(ps, TargetProductFileName) then [] else [NewTargetParam(flags)])
  {
    var a := MissingOne(ps, MandatoryProducts(flags));
    var b := MissingOne(ps, MandatoryFiles(flags));
    var c := MissingOne(ps, NewTargetParam(flags));
    FilterAppend(a + b, c, KeptOnSave);
    FilterAppend(a, b, KeptOnSave);
    MandatoryNamesDistinct();
    FilterMissingOne(ps, MandatoryProducts(flags));
    FilterMissingOne(ps, MandatoryFiles(flags));
    FilterMissingOne(ps, NewTargetParam(flags));
  }

  lemma FilterMissingOne(ps: seq<Param>, p: Param)
    ensures Filter(MissingOne(ps, p), KeptOnSave) == if KeptOnSave(p) then MissingOne(ps, p) else []
  {
    FilterShort(MissingOne(ps, p), KeptOnSave);
  }

  /** Only a non-empty custom text entered with "Create Menu" selected
      replaces the stored menu location. */
  function ChooseMenuLocation(current: Option<string>, newMenuSelected: bool, customText: Option<string>): (r: Option<string>)
    ensures newMenuSelected && customText.Some? && |customText.value| > 0 ==> r == customText
    ensures !(newMenuSelected && customText.Some? && |customText.value| > 0) ==> r == current
  {
    if newMenuSelected && customText.Some? && |customText.value| > 0 then customText else current
  }

  predicate StartsWith(s: string, prefix: string) {
    |prefix| <= |s| && s[..|prefix|] == prefix
  }

  /** Puts a menu location under `Menu/` unless it is already there. */
  function NormaliseMenu(m: Option<string>): (r: Option<string>)
    ensures r.Some? <==> m.Some?
    ensures r.Some? ==> StartsWith(r.value, MenuRoot)
    ensures m.Some? && StartsWith(m.value, MenuRoot) ==> r == m
    ensures m.Some? && !StartsWith(m.value, MenuRoot) ==> r == Some(MenuRoot + m.value)
  {
    match m
    case None => None
    case Some(s) =>
      if StartsWith(s, MenuRoot) then m
      else
        var t := MenuRoot + s;
        assert t[..|MenuRoot|] == MenuRoot;
        Some(t)
  }

  /** Normalising twice is the same as normalising once. */
  lemma NormaliseMenuIdempotent(m: Option<string>)
    ensures NormaliseMenu(NormaliseMenu(m)) == NormaliseMenu(m)
  {
  }

  /** What confirming the dialog leads to. */
  datatype OkOutcome =
    | InputRejected(reason: VerifyError)
    | ArrayUsageRejected
    | Saved(descriptor: Descriptor)

  /** Everything `onOK` reads from widgets and the file system. */
  datatype OkInputs = OkInputs(
    boundToolValue: Option<string>,
    env: Environment,
    template: string,
    binding: string -> Option<PropertyValue>,
    newMenuSelected: bool,
    customMenuText: Option<string>)

  /** The descriptor `onOK` saves once input and template have passed. */
  function PrepareForSave(d: Descriptor, count: int, inputs: OkInputs, conv: Conventions): (r: Descriptor)
    ensures r.name == d.name && r.alias == d.alias && r.variables == d.variables
    ensures r.sourceProductCount == count
    ensures r.source == (if d.source == PackageSource then PackageSource else UserSource)
    ensures r.templateFileLocation == Some(d.alias + conv.templateSuffix)
    ensures r.params == RemoveSourceParams(StoreBoundValues(d.params, inputs.binding, conv))
    ensures r.menuLocation == NormaliseMenu(ChooseMenuLocation(d.menuLocation, inputs.newMenuSelected, inputs.customMenuText))
  {
    d.(sourceProductCount := count,
       source := if d.source == PackageSource then PackageSource else UserSource,
       templateFileLocation := Some(d.alias + conv.templateSuffix),
       params := RemoveSourceParams(StoreBoundValues(d.params, inputs.binding, conv)),
       menuLocation := NormaliseMenu(ChooseMenuLocation(d.menuLocation, inputs.newMenuSelected, inputs.customMenuText)))
  }

  /** `onOK`: verify, read the product count from the template, then prepare
      the descriptor that is saved and registered. */
  function OnOK(dialog: Dialog, inputs: OkInputs, conv: Conventions): (r: Result<OkOutcome, JavaException>)
    ensures r.Success? && r.value.InputRejected? ==>
              VerifyUserInput(dialog.descriptor, inputs.boundToolValue, inputs.env) == Invalid(r.value.reason)
    ensures r.Success? && !r.value.InputRejected? ==>
              VerifyUserInput(dialog.descriptor, inputs.boundToolValue, inputs.env).Valid?
    ensures r.Success? && r.value.Saved? ==>
              var s := r.value.descriptor;
              && s.sourceProductCount >= 1
              && !HasParam(s.params, SourceProductsName)
              && !HasParam(s.params, SourceProductFilesName)
              && (s.menuLocation.Some? ==> StartsWith(s.menuLocation.value, MenuRoot))
              && s.name == dialog.descriptor.name && s.alias == dialog.descriptor.alias
    ensures r.Failure? ==> r.error == IndexOutOfBounds || r.error == NumberFormat
    ensures var check := VerifyUserInput(dialog.descriptor, inputs.boundToolValue, inputs.env);
            check.Invalid? ==> r == Success(InputRejected(check.reason))
    ensures var check := VerifyUserInput(dialog.descriptor, inputs.boundToolValue, inputs.env);
            var read := ResolveTemplateProductCount(inputs.template, dialog.descriptor.sourceProductCount);
            && (check.Valid? ==> (r.Failure? <==> read.Failure?))
            && (r.Success? && r.value.Saved? <==> check.Valid? && read.Success? && read.value.success)
            && (r.Success? && r.value.Saved? ==>
                  r.value.descriptor == PrepareForSave(dialog.descriptor, read.value.count, inputs, conv))
  {
    match VerifyUserInput(dialog.descriptor, inputs.boundToolValue, inputs.env)
    case Invalid(reason) => Success(InputRejected(reason))
    case Valid =>
      match ResolveTemplateProductCount(inputs.template, dialog.descriptor.sourceProductCount)
      case Failure(e) => ReadIndexFailures(inputs.template, dialog.descriptor.sourceProductCount); Failure(e)
      case Success(res) =>
        if !res.success then Success(ArrayUsageRejected)
        else Success(Saved(PrepareForSave(dialog.descriptor, res.count, inputs, conv)))
  }

  /** Valid input and a template without array references save the
      descriptor with one source product. */
  lemma OnOKWithoutReferences(dialog: Dialog, inputs: OkInputs, conv: Conventions)
    requires VerifyUserInput(dialog.descriptor, inputs.boundToolValue, inputs.env).Valid?
    requires forall j :: 0 < j ==> !OccursAt(inputs.template, ProductsRef, j) && !OccursAt(inputs.template, FilesRef, j)
    ensures OnOK(dialog, inputs, conv) == Success(Saved(PrepareForSave(dialog.descriptor, 1, inputs, conv)))
    ensures OnOK(dialog, inputs, conv).value.descriptor.sourceProductCount == 1
  {
    NoReferenceMeansOneProduct(inputs.template, dialog.descriptor.sourceProductCount);
  }

  /** Reading the count throws only for a missing `]` or a bad number. */
  lemma ReadIndexFailures(template: string, count: int)
    ensures var r := ResolveTemplateProductCount(template, count);
            r.Failure? ==> r.error == IndexOutOfBounds || r.error == NumberFormat
  {
  }

  // ---------------------------------------------------------------------
  // Autocompletion entries

  /** The UTF-16 code units Java stores for `c`: the character itself below
      U+10000, otherwise a high and a low surrogate. */
  function Utf16Units(c: char): (u: seq<int>)
    ensures 1 <= |u| <= 2
  {
    var v := c as int;
    if v < 0x10000 then [v]
    else [0xD800 + (v - 0x10000) / 0x400, 0xDC00 + (v - 0x10000) % 0x400]
  }

  /** The UTF-16 code units of a string. */
  function Utf16(s: string): seq<int>
    decreases |s|
  {
    if |s| == 0 then [] else Utf16Units(s[0]) + Utf16(s[1..])
  }

  /** `String.compareTo(a, b) <= 0` on the code units: the first differing
      unit decides, and a proper prefix comes first. */
  predicate UnitsLe(a: seq<int>, b: seq<int>)
    decreases |a|
  {
    if |a| == 0 then true
    else if |b| == 0 then false
    else if a[0] != b[0] then a[0] < b[0]
    else UnitsLe(a[1..], b[1..])
  }

  /** Where `compareTo` places a character among the others: code-point
      order, except that U+E000 to U+FFFF follow every supplementary
      character, whose leading surrogate is smaller. */
  function Utf16Rank(c: char): int {
    var v := c as int;
    if 0xE000 <= v < 0x10000 then v + 0x110000 else v
  }

  /** `String.compareTo(a, b) <= 0`, character by character: the first
      differing character decides by its UTF-16 rank, and a proper prefix
      comes first. */
  predicate LexLe(a: string, b: string)
    decreases |a|
  {
    if |a| == 0 then true
    else if |b| == 0 then false
    else if a[0] != b[0] then Utf16Rank(a[0]) < Utf16Rank(b[0])
    else LexLe(a[1..], b[1..])
  }

  /** A common prefix of code units does not decide the comparison. */
  lemma {:induction false} UnitsLeCommonPrefix(u: seq<int>, x: seq<int>, y: seq<int>)
    ensures UnitsLe(u + x, u + y) <==> UnitsLe(x, y)
    decreases |u|
  {
    if |u| == 0 {
      assert u + x == x && u + y == y;
    } else {
      assert (u + x)[0] == u[0] == (u + y)[0];
      assert (u + x)[1..] == u[1..] + x;
      assert (u + y)[1..] == u[1..] + y;
      UnitsLeCommonPrefix(u[1..], x, y);
    }
  }

  /** Of two numbers below `k * k`, the smaller has the smaller quotient by
      `k`, or the same quotient and the smaller remainder. */
  lemma QuotientRemainderOrder(a: int, b: int, k: int)
    requires a >= 0 && b >= 0 && k >= 1 && a != b
    ensures a < b <==> a / k < b / k || (a / k == b / k && a % k < b % k)
  {
    var qa, ra, qb, rb := a / k, a % k, b / k, b % k;
    assert a == qa * k + ra && 0 <= ra < k;
    assert b == qb * k + rb && 0 <= rb < k;
    if qa < qb {
      MulMonotone(qa + 1, qb, k);
      assert (qa + 1) * k == qa * k + k;
    } else if qb < qa {
      MulMonotone(qb + 1, qa, k);
      assert (qb + 1) * k == qb * k + k;
    }
  }

  /** Two supplementary characters compare by code point in UTF-16. */
  lemma SurrogatePairsOrder(c: char, d: char, x: seq<int>, y: seq<int>)
    requires c != d && c as int >= 0x10000 && d as int >= 0x10000
    ensures UnitsLe(Utf16Units(c) + x, Utf16Units(d) + y) <==> c as int < d as int
  {
    var vc, vd := c as int - 0x10000, d as int - 0x10000;
    QuotientRemainderOrder(vc, vd, 0x400);
    var u, w := Utf16Units(c) + x, Utf16Units(d) + y;
    assert u[0] == 0xD800 + vc / 0x400 && w[0] == 0xD800 + vd / 0x400;
    if u[0] == w[0] {
      assert u[1..][0] == 0xDC00 + vc % 0x400 && w[1..][0] == 0xDC00 + vd % 0x400;
    }
  }

  /** When two different characters meet, their UTF-16 units decide as
      their ranks do, whatever follows. */
  lemma DifferentCharsDecide(c: char, d: char, x: seq<int>, y: seq<int>)
    requires c != d
    ensures UnitsLe(Utf16Units(c) + x, Utf16Units(d) + y) <==> Utf16Rank(c) < Utf16Rank(d)
  {
    if c as int >= 0x10000 && d as int >= 0x10000 {
      SurrogatePairsOrder(c, d, x, y);
    } else {
      var u, w := Utf16Units(c) + x, Utf16Units(d) + y;
      assert u[0] != w[0];
    }
  }

  /** U+10000 is stored as the surrogates D800 DC00, so Java sorts it
      before U+E000 although its code point is larger. */
  lemma SupplementaryBeforePrivateUse()
    ensures LexLe("\U{10000}", "\U{E000}") && !LexLe("\U{E000}", "\U{10000}")
    ensures SortLex(["\U{E000}", "\U{10000}"]) == ["\U{10000}", "\U{E000}"]
  {
  }

  /** The character order of `LexLe` is Java's comparison of the UTF-16
      encodings. */
  lemma {:induction false} LexLeIsUtf16Order(a: string, b: string)
    ensures LexLe(a, b) <==> UnitsLe(Utf16(a), Utf16(b))
    decreases |a|
  {
    if |a| > 0 && |b| > 0 {
      if a[0] != b[0] {
        DifferentCharsDecide(a[0], b[0], Utf16(a[1..]), Utf16(b[1..]));
      } else {
        UnitsLeCommonPrefix(Utf16Units(a[0]), Utf16(a[1..]), Utf16(b[1..]));
        LexLeIsUtf16Order(a[1..], b[1..]);
      }
    }
  }

  lemma {:induction false} LexLeTotal(a: string, b: string)
    ensures LexLe(a, b) || LexLe(b, a)
    decreases |a|
  {
    if |a| > 0 && |b| > 0 && a[0] == b[0] {
      LexLeTotal(a[1..], b[1..]);
    }
  }

  lemma {:induction false} LexLeTransitive(a: string, b: string, c: string)
    requires LexLe(a, b) && LexLe(b, c)
    ensures LexLe(a, c)
    decreases |a|
  {
    if |a| > 0 && |b| > 0 && |c| > 0 && a[0] == b[0] && b[0] == c[0] {
      LexLeTransitive(a[1..], b[1..], c[1..]);
    }
  }

  predicate SortedLex(s: seq<string>) {
    forall i, j :: 0 <= i < j < |s| ==> LexLe(s[i], s[j])
  }

  function InsertSorted(x: string, s: seq<string>): (r: seq<string>)
    requires SortedLex(s)
    ensures SortedLex(r)
    ensures multiset(r) == multiset(s) + multiset{x}
    decreases |s|
  {
    if |s| == 0 then [x]
    else if LexLe(x, s[0]) then
      LowerBoundOfSorted(x, s);
      PrependSorted(x, s);
      [x] + s
    else
      var rest := InsertSorted(x, s[1..]);
      LexLeTotal(x, s[0]);
      LowerBoundOfSorted(s[0], s[1..]);
      LowerBoundOfInsert(s[0], x, s[1..], rest);
      PrependSorted(s[0], rest);
      assert s == [s[0]] + s[1..];
      [s[0]] + rest
  }

  /** A value below the head of a sorted sequence is below all of it. */
  lemma LowerBoundOfSorted(h: string, s: seq<string>)
    requires SortedLex(s)
    requires |s| > 0 ==> LexLe(h, s[0])
    ensures forall j :: 0 <= j < |s| ==> LexLe(h, s[j])
  {
    forall j | 0 < j < |s| ensures LexLe(h, s[j]) {
      LexLeTransitive(h, s[0], s[j]);
    }
  }

  /** A lower bound of `t` and of `x` bounds every element of `t` with `x`
      added. */
  lemma LowerBoundOfInsert(h: string, x: string, t: seq<string>, rest: seq<string>)
    requires LexLe(h, x)
    requires forall j :: 0 <= j < |t| ==> LexLe(h, t[j])
    requires multiset(rest) == multiset(t) + multiset{x}
    ensures forall j :: 0 <= j < |rest| ==> LexLe(h, rest[j])
  {
    forall j | 0 <= j < |rest| ensures LexLe(h, rest[j]) {
      assert rest[j] in multiset(rest);
      if rest[j] != x {
        assert rest[j] in multiset(t);
        var k :| 0 <= k < |t| && t[k] == rest[j];
      }
    }
  }

  /** Prepending a lower bound keeps a sequence sorted. */
  lemma PrependSorted(h: string, s: seq<string>)
    requires SortedLex(s)
    requires forall j :: 0 <= j < |s| ==> LexLe(h, s[j])
    ensures SortedLex([h] + s)
  {
    var r := [h] + s;
    forall i, j | 0 <= i < j < |r| ensures LexLe(r[i], r[j]) {
      assert r[j] == s[j - 1];
      if i > 0 { assert r[i] == s[i - 1]; }
    }
  }

  /** Sorts by `String.compareTo`, as `List.sort(naturalOrder())` does. */
  function SortLex(s: seq<string>): (r: seq<string>)
    ensures SortedLex(r)
    ensures multiset(r) == multiset(s)
    decreases |s|
  {
    if |s| == 0 then []
    else
      var init := s[..|s| - 1];
      assert s == init + [s[|s| - 1]];
      InsertSorted(s[|s| - 1], SortLex(init))
  }

  function VariableKeys(vs: seq<SystemVariable>): (r: seq<string>)
    ensures |r| == |vs| && forall i :: 0 <= i < |vs| ==> r[i] == vs[i].key
  {
    seq(|vs|, i requires 0 <= i < |vs| => vs[i].key)
  }

  function ParamNames(ps: seq<Param>): (r: seq<string>)
    ensures |r| == |ps| && forall i :: 0 <= i < |ps| ==> r[i] == ps[i].name
  {
    seq(|ps|, i requires 0 <= i < |ps| => ps[i].name)
  }

  /** `getAutocompleteEntries`: every variable key and parameter name, each
      as often as it occurs, in sorted order. */
  function AutocompleteEntries(d: Descriptor): (r: seq<string>)
    ensures SortedLex(r)
    ensures multiset(r) == multiset(VariableKeys(d.variables)) + multiset(ParamNames(d.params))
    ensures |r| == |d.variables| + |d.params|
  {
    var all := VariableKeys(d.variables) + ParamNames(d.params);
    var r := SortLex(all);
    assert |r| == |multiset(r)| == |multiset(all)| == |all|;
    r
  }

  /** A string is offered for completion exactly when it is a variable key
      or a parameter name. */
  lemma AutocompleteMembership(d: Descriptor, x: string)
    ensures x in AutocompleteEntries(d) <==>
              (exists i :: 0 <= i < |d.variables| && d.variables[i].key == x) ||
              (exists i :: 0 <= i < |d.params| && d.params[i].name == x)
  {
    var r := AutocompleteEntries(d);
    var keys := VariableKeys(d.variables);
    var names := ParamNames(d.params);
    assert x in r <==> x in multiset(r);
    assert x in multiset(keys) <==> x in keys;
    assert x in multiset(names) <==> x in names;
    if exists i :: 0 <= i < |d.variables| && d.variables[i].key == x {
      var i :| 0 <= i < |d.variables| && d.variables[i].key == x;
      assert keys[i] == x;
    }
    if exists i :: 0 <= i < |d.params| && d.params[i].name == x {
      var i :| 0 <= i < |d.params| && d.params[i].name == x;
      assert names[i] == x;
    }
  }
}

=== FILE: basics.dfy ===
/** Shared building blocks: the Option and Result wrappers that stand in for
    Java's null and thrown exceptions, sequence helpers, and the integer
    rectangle of java.awt. */
module Basics {

  /** A Java reference that may be null. */
  datatype Option<+T> = None | Some(value: T)

  /** The outcome of a Java computation that either returns or throws. */
  datatype Result<+T, +E> = Success(value: T) | Failure(error: E)

  /** The runtime exceptions the modelled code can let escape. */
  datatype JavaException =
    | NullPointer
    | IndexOutOfBounds
    | NumberFormat
    | Arithmetic

  /** No element occurs twice. */
  predicate Distinct<T(==)>(s: seq<T>) {
    forall i, j :: 0 <= i < j < |s| ==> s[i] != s[j]
  }

  /** A prefix of a duplicate-free sequence is duplicate-free and misses
      the elements after it. */
  lemma DistinctPrefix<T>(s: seq<T>, n: nat)
    requires Distinct(s) && n <= |s|
    ensures Distinct(s[..n])
    ensures forall j :: n <= j < |s| ==> s[j] !in s[..n]
  {
    var front := s[..n];
    forall j, k | 0 <= j < k < n ensures front[j] != front[k] {
      assert front[j] == s[j] && front[k] == s[k];
    }
    forall j | n <= j < |s| ensures s[j] !in front {
      forall i | 0 <= i < n ensures front[i] != s[j] {
        assert front[i] == s[i];
      }
    }
  }

  /** Joining two duplicate-free sequences with nothing in common. */
  lemma DistinctConcat<T>(a: seq<T>, b: seq<T>)
    requires Distinct(a) && Distinct(b)
    requires forall i :: 0 <= i < |b| ==> b[i] !in a
    ensures Distinct(a + b)
  {
    var c := a + b;
    forall i, j | 0 <= i < j < |c| ensures c[i] != c[j] {
      if j >= |a| && i < |a| {
        assert c[j] == b[j - |a|] && c[i] == a[i];
      } else if i >= |a| {
        assert c[i] == b[i - |a|] && c[j] == b[j - |a|];
      }
    }
  }

  /** Java's `List.indexOf`: the first position of `x`, or -1. */
  function IndexOf<T(==)>(s: seq<T>, x: T): (r: int)
    ensures -1 <= r < |s|
    ensures r == -1 <==> x !in s
    ensures r >= 0 ==> s[r] == x && forall i :: 0 <= i < r ==> s[i] != x
  {
    if |s| == 0 then -1
    else if s[0] == x then 0
    else
      var k := IndexOf(s[1..], x);
      if k == -1 then -1 else k + 1
  }

  /** Removes position `i`, as `List.remove(int)` does. */
  function RemoveAt<T>(s: seq<T>, i: nat): (r: seq<T>)
    requires i < |s|
    ensures |r| == |s| - 1
    ensures forall j :: 0 <= j < i ==> r[j] == s[j]
    ensures forall j :: i <= j < |r| ==> r[j] == s[j + 1]
  {
    s[..i] + s[i + 1..]
  }

  /** Keeps the elements satisfying `p`, in their original order. */
  function Filter<T(==,!new)>(s: seq<T>, p: T -> bool): (r: seq<T>)
    ensures |r| <= |s|
    ensures forall i :: 0 <= i < |r| ==> r[i] in s && p(r[i])
    ensures forall i :: 0 <= i < |s| && p(s[i]) ==> s[i] in r
    ensures forall x :: multiset(r)[x] == if p(x) then multiset(s)[x] else 0
    decreases |s|
  {
    if |s| == 0 then []
    else
      var front, last := s[..|s| - 1], s[|s| - 1];
      assert s == front + [last];
      if p(last) then Filter(front, p) + [last]
      else Filter(front, p)
  }

  /** Filtering an empty or one-element sequence. */
  lemma FilterShort<T(!new)>(s: seq<T>, p: T -> bool)
    requires |s| <= 1
    ensures |s| == 0 ==> Filter(s, p) == []
    ensures |s| == 1 ==> Filter(s, p) == if p(s[0]) then s else []
  {
    if |s| == 1 {
      assert s[..0] == [];
    }
  }

  /** Filtering distributes over concatenation, so it keeps relative order. */
  lemma {:induction false} FilterAppend<T(!new)>(a: seq<T>, b: seq<T>, p: T -> bool)
    ensures Filter(a + b, p) == Filter(a, p) + Filter(b, p)
    decreases |b|
  {
    if |b| == 0 {
      assert a + b == a;
    } else {
      assert (a + b)[..|a + b| - 1] == a + b[..|b| - 1];
      FilterAppend(a, b[..|b| - 1], p);
    }
  }

  /** Multiplying by a non-negative factor keeps order. */
  lemma MulMonotone(a: int, b: int, c: int)
    requires a <= b && c >= 0
    ensures a * c <= b * c
  {
  }

  /** Euclidean division is determined by quotient and remainder. */
  lemma DivModUnique(x: int, d: int, q: int, r: int)
    requires d >= 1 && 0 <= r < d && x == q * d + r
    ensures x / d == q && x % d == r
  {
    var q', r' := x / d, x % d;
    assert x == q' * d + r';
    assert (q' - q) * d == r - r' by {
      assert (q' - q) * d == q' * d - q * d;
    }
    if q' - q >= 1 {
      MulMonotone(1, q' - q, d);
    } else if q' - q <= -1 {
      MulMonotone(q' - q, -1, d);
    }
  }

  /** `java.awt.Rectangle`: origin, width and height. */
  datatype Rect = Rect(x: int, y: int, width: int, height: int)
  {
    /** `Rectangle.isEmpty`. */
    predicate IsEmpty() {
      width <= 0 || height <= 0
    }

    /** The two rectangles share no interior point. */
    predicate DisjointFrom(other: Rect) {
      || x + width <= other.x
      || other.x + other.width <= x
      || y + height <= other.y
      || other.y + other.height <= y
    }

    /** The pixel at column `px`, row `py` lies inside. */
    predicate Covers(px: int, py: int) {
      x <= px < x + width && y <= py < y + height
    }

    /** `Rectangle.intersection`: the overlap, with a width or height of
        zero or less when there is none (the clamp to `Integer.MIN_VALUE`
        is not modelled). */
    function Intersection(other: Rect): (r: Rect)
      ensures forall px, py :: r.Covers(px, py) <==> Covers(px, py) && other.Covers(px, py)
    {
      var x1 := if x < other.x then other.x else x;
      var y1 := if y < other.y then other.y else y;
      var x2 := if x + width > other.x + other.width then other.x + other.width else x + width;
      var y2 := if y + height > other.y + other.height then other.y + other.height else y + height;
      Rect(x1, y1, x2 - x1, y2 - y1)
    }

    /** Lies within the area `[0, w] x [0, h]`. */
    predicate InsideArea(w: int, h: int) {
      0 <= x && 0 <= width && x + width <= w &&
      0 <= y && 0 <= height && y + height <= h
    }
  }
}

=== FILE: channel_sources.dfy ===
/** The channel-source bookkeeping of the RGB colour manipulation form:
    the list of rasters a channel may show, the three current and initial
    channel sources, and the per-channel editor models. */
module ChannelSources {
  import opened Basics

  /** A raster data node; `id` stands for object identity, since the form
      compares nodes with `==` and `List.contains`. */
  datatype Node = Node(id: nat, name: string)

  /** The elements of `s`, in order, that are neither in `list` nor occur
      earlier in `s`. */
  function Fresh<T(==)>(list: seq<T>, s: seq<T>): seq<T>
    decreases |s|
  {
    if |s| == 0 then []
    else
      var front, x := s[..|s| - 1], s[|s| - 1];
      if x in list || x in front then Fresh(list, front) else Fresh(list, front) + [x]
  }

  /** `list` followed by what appending `s` element by element, skipping
      elements already present, adds to it. */
  function AppendDistinct<T(==)>(list: seq<T>, s: seq<T>): seq<T> {
    list + Fresh(list, s)
  }

  /** The first occurrences of the elements of `s`, in order. */
  function Dedup<T(==)>(s: seq<T>): seq<T> {
    AppendDistinct([], s)
  }

  /** Exactly the elements of `s` missing from `list` are added. */
  lemma {:induction false} FreshMembership<T>(list: seq<T>, s: seq<T>)
    ensures forall x :: x in Fresh(list, s) <==> x !in list && x in s
    decreases |s|
  {
    if |s| > 0 {
      var front := s[..|s| - 1];
      FreshMembership(list, front);
      assert s == front + [s[|s| - 1]];
    }
  }

  /** Nothing is added twice. */
  lemma {:induction false} FreshDistinct<T>(list: seq<T>, s: seq<T>)
    ensures Distinct(Fresh(list, s))
    decreases |s|
  {
    if |s| > 0 {
      var front, x := s[..|s| - 1], s[|s| - 1];
      FreshDistinct(list, front);
      FreshMembership(list, front);
      if !(x in list || x in front) {
        DistinctConcat(Fresh(list, front), [x]);
      }
    }
  }

  /** Appending without duplicates keeps a duplicate-free list
      duplicate-free and adds exactly the missing elements. */
  lemma AppendDistinctFacts<T>(list: seq<T>, s: seq<T>)
    ensures forall x :: x in AppendDistinct(list, s) <==> x in list || x in s
    ensures Distinct(list) ==> Distinct(AppendDistinct(list, s))
  {
    FreshMembership(list, s);
    FreshDistinct(list, s);
    if Distinct(list) {
      var f := Fresh(list, s);
      assert forall i :: 0 <= i < |f| ==> f[i] in f;
      DistinctConcat(list, f);
    }
  }

  /** Appending `a` and then `b` is appending `a + b`: successive appends
      deduplicate the concatenation. */
  lemma {:induction false} AppendDistinctCompose<T>(list: seq<T>, a: seq<T>, b: seq<T>)
    ensures AppendDistinct(AppendDistinct(list, a), b) == AppendDistinct(list, a + b)
    decreases |b|
  {
    var mid := AppendDistinct(list, a);
    if |b| == 0 {
      assert a + b == a;
    } else {
      var b', x := b[..|b| - 1], b[|b| - 1];
      AppendDistinctCompose(list, a, b');
      assert (a + b)[..|a + b| - 1] == a + b';
      FreshMembership(list, a);
      assert (x in mid || x in b') <==> (x in list || x in a + b');
      if x in mid || x in b' {
        assert Fresh(mid, b) == Fresh(mid, b');
        assert Fresh(list, a + b) == Fresh(list, a + b');
      } else {
        assert Fresh(mid, b) == Fresh(mid, b') + [x];
        assert Fresh(list, a + b) == Fresh(list, a + b') + [x];
        assert mid + Fresh(mid, b) == (mid + Fresh(mid, b')) + [x];
        assert list + Fresh(list, a + b) == (list + Fresh(list, a + b')) + [x];
      }
    }
  }

  /** Deduplicating `a + b` starts with the deduplicated `a`. */
  lemma DedupPrefix<T>(a: seq<T>, b: seq<T>)
    ensures |Dedup(a)| <= |Dedup(a + b)| && Dedup(a + b)[..|Dedup(a)|] == Dedup(a)
  {
    AppendDistinctCompose([], a, b);
    var d := Dedup(a);
    assert Dedup(a + b) == d + Fresh(d, b);
  }

  /** `appendToChannelSources`: appends each node not yet in the list. */
  method AppendToChannelSources<T(==)>(list: seq<T>, nodes: seq<T>) returns (r: seq<T>)
    ensures r == AppendDistinct(list, nodes)
  {
    r := list;
    var i := 0;
    while i < |nodes|
      invariant 0 <= i <= |nodes|
      invariant r == AppendDistinct(list, nodes[..i])
    {
      assert nodes[..i + 1][..i] == nodes[..i];
      FreshMembership(list, nodes[..i]);
      if nodes[i] !in r {
        r := r + [nodes[i]];
      }
      i := i + 1;
    }
    assert nodes[..i] == nodes;
  }

  /** The form's state. Null entries are None. `models[c]` is the editor
      model of channel `c` (tagged with its channel), `editorModel` the one
      the image info editor shows, `sourceNames` the choices offered for the
      channel source name, `rgbSourceNames` the source names of the RGB
      channel definition being edited, `channelSourceName` the chosen name. */
  datatype Form = Form(
    channel: int,
    models: seq<Option<nat>>,
    initial: seq<Option<Node>>,
    current: seq<Option<Node>>,
    sources: seq<Option<Node>>,
    sourceNames: seq<string>,
    editorModel: Option<nat>,
    rgbSourceNames: seq<string>,
    channelSourceName: string)

  /** Three channels, the channel index in range, no source listed twice. */
  ghost predicate Valid(f: Form) {
    && 0 <= f.channel < 3
    && |f.models| == 3 && |f.initial| == 3 && |f.current| == 3 && |f.rgbSourceNames| == 3
    && Distinct(f.sources)
  }

  /** The bands of the product as list entries. */
  function Listed(bands: seq<Node>): (r: seq<Option<Node>>)
    ensures |r| == |bands| && forall i :: 0 <= i < |r| ==> r[i] == Some(bands[i])
  {
    seq(|bands|, i requires 0 <= i < |bands| => Some(bands[i]))
  }

  /** The names of listed nodes, position by position. */
  function Names(sources: seq<Option<Node>>): (r: seq<string>)
    requires None !in sources
    ensures |r| == |sources|
    ensures forall i :: 0 <= i < |r| ==> sources[i].Some? && r[i] == sources[i].value.name
  {
    seq(|sources|, i requires 0 <= i < |sources| => sources[i].value.name)
  }

  /** `acknowledgeChannel`: shows the selected channel's model and source
      name; a missing source or model is dereferenced. */
  function Acknowledge(f: Form): (r: Result<Form, JavaException>)
    ensures r.Success? <==> 0 <= f.channel < |f.current| && f.channel < |f.models| &&
                            f.current[f.channel].Some? && f.models[f.channel].Some?
    ensures r.Success? ==> r.value == f.(editorModel := f.models[f.channel],
                                          channelSourceName := f.current[f.channel].value.name)
  {
    if !(0 <= f.channel < |f.current| && f.channel < |f.models|) then Failure(IndexOutOfBounds)
    else if f.current[f.channel].None? || f.models[f.channel].None? then Failure(NullPointer)
    else Success(f.(editorModel := f.models[f.channel], channelSourceName := f.current[f.channel].value.name))
  }

  /** `updateFormModel`: the current sources become the form model's three
      rasters, the list is rebuilt from the current sources, the initial
      sources and the product's bands, the three models are recreated and
      the list's names are offered. A null in the list is dereferenced when
      the names are collected. */
  function UpdateFormModel(f: Form, rasters: seq<Option<Node>>, bands: seq<Node>): (r: Result<Form, JavaException>)
    ensures |rasters| < 3 ==> r == Failure(IndexOutOfBounds)
    ensures |rasters| >= 3 ==>
              (r.Success? <==> None !in rasters[..3] && None !in f.initial && 0 <= f.channel < 3)
    ensures r.Failure? ==> r.error == IndexOutOfBounds || r.error == NullPointer
    ensures r.Success? ==>
              && r.value.current == rasters[..3]
              && r.value.sources == Dedup(rasters[..3] + f.initial + Listed(bands))
              && r.value.initial == f.initial && r.value.channel == f.channel
              && r.value.rgbSourceNames == f.rgbSourceNames
    ensures r.Success? ==>
              && rasters[f.channel].Some?
              && r.value.channelSourceName == rasters[f.channel].value.name
              && r.value.models == [Some(0), Some(1), Some(2)]
              && r.value.editorModel == Some(f.channel)
  {
    if |rasters| < 3 then Failure(IndexOutOfBounds)
    else
      var current := rasters[..3];
      var sources := AppendDistinct(AppendDistinct(AppendDistinct([], current), f.initial), Listed(bands));
      AppendDistinctCompose([], current, f.initial);
      AppendDistinctCompose([], current + f.initial, Listed(bands));
      var models := [Some(0), Some(1), Some(2)];
      AppendDistinctFacts([], current + f.initial + Listed(bands));
      assert None !in Listed(bands);
      if None in sources then Failure(NullPointer)
      else Acknowledge(f.(current := current, sources := sources, models := models, sourceNames := Names(sources)))
  }

  /** After an update the list has no duplicates and starts with the current
      sources, and the offered names follow the list entry by entry. */
  lemma UpdateFormModelList(f: Form, rasters: seq<Option<Node>>, bands: seq<Node>)
    requires UpdateFormModel(f, rasters, bands).Success?
    ensures var g := UpdateFormModel(f, rasters, bands).value;
            && Distinct(g.sources)
            && g.sources[..|Dedup(g.current)|] == Dedup(g.current)
            && (forall x :: x in g.sources <==> x in g.current || x in f.initial || x in Listed(bands))
            && |g.sourceNames| == |g.sources|
            && (forall i :: 0 <= i < |g.sources| ==> g.sources[i].Some? && g.sources[i].value.name == g.sourceNames[i])
  {
    var g := UpdateFormModel(f, rasters, bands).value;
    var current, rest := rasters[..3], f.initial + Listed(bands);
    assert current + f.initial + Listed(bands) == current + rest;
    assert g.sources == Dedup(current + rest);
    AppendDistinctFacts([], current + rest);
    DedupPrefix(current, rest);
    assert g.sourceNames == Names(g.sources);
  }

  /** An update leaves a well-formed form well-formed, with all three
      models present and the selected one shown. */
  lemma UpdateFormModelValid(f: Form, rasters: seq<Option<Node>>, bands: seq<Node>)
    requires Valid(f) && UpdateFormModel(f, rasters, bands).Success?
    ensures var g := UpdateFormModel(f, rasters, bands).value;
            && Valid(g) && g.models == [Some(0), Some(1), Some(2)] && g.editorModel == Some(f.channel)
  {
    UpdateFormModelList(f, rasters, bands);
  }

  /** `handleFormShown`: the initial sources become the three rasters, then
      the form is updated. */
  function HandleFormShown(f: Form, rasters: seq<Option<Node>>, bands: seq<Node>): (r: Result<Form, JavaException>)
    ensures |rasters| < 3 ==> r == Failure(IndexOutOfBounds)
    ensures |rasters| >= 3 ==> (r.Success? <==> None !in rasters[..3] && 0 <= f.channel < 3)
    ensures r.Failure? ==> r.error == IndexOutOfBounds || r.error == NullPointer
    ensures r.Success? ==> r.value.initial == rasters[..3] && r.value.current == rasters[..3]
  {
    if |rasters| < 3 then Failure(IndexOutOfBounds)
    else UpdateFormModel(f.(initial := rasters[..3]), rasters, bands)
  }

  /** `handleFormHidden`: the editor shows nothing, the list is emptied and
      all models and channel sources are cleared. */
  function HandleFormHidden(f: Form): (r: Form)
    ensures r.sources == [] && r.editorModel.None?
    ensures |r.models| == 3 && |r.initial| == 3 && |r.current| == 3
    ensures forall c :: 0 <= c < 3 ==> r.models[c].None? && r.initial[c].None? && r.current[c].None?
    ensures r.channel == f.channel && r.rgbSourceNames == f.rgbSourceNames
  {
    f.(editorModel := None, sources := [], models := [None, None, None],
       initial := [None, None, None], current := [None, None, None])
  }

  /** Hiding keeps nothing the next showing depends on: showing a hidden
      form gives what showing it before hiding would. */
  lemma ShowAfterHide(f: Form, rasters: seq<Option<Node>>, bands: seq<Node>)
    ensures HandleFormShown(HandleFormHidden(f), rasters, bands) == HandleFormShown(f, rasters, bands)
  {
  }

  /** A hidden form cannot be updated before it is shown again: the cleared
      initial sources enter the list as nulls. */
  lemma UpdateAfterHideFails(f: Form, rasters: seq<Option<Node>>, bands: seq<Node>)
    ensures UpdateFormModel(HandleFormHidden(f), rasters, bands).Failure?
  {
    var h := HandleFormHidden(f);
    if |rasters| >= 3 {
      var current := rasters[..3];
      var sources := AppendDistinct(AppendDistinct(AppendDistinct([], current), h.initial), Listed(bands));
      AppendDistinctFacts(AppendDistinct([], current), h.initial);
      AppendDistinctFacts(AppendDistinct(AppendDistinct([], current), h.initial), Listed(bands));
      assert h.initial[0] == None;
      assert None in sources;
    }
  }

  /** `getRasters`: a new array holding the current sources, so writing to
      it cannot change the form. */
  method GetRasters(current: array<Option<Node>>) returns (r: array<Option<Node>>)
    ensures fresh(r) && r[..] == current[..]
  {
    r := new Option<Node>[current.Length](i requires 0 <= i < current.Length reads current => current[i]);
  }

  /** Selecting a channel: the channel property only takes the values 0, 1
      and 2, and only a changed value fires the listener that acknowledges
      it. */
  function SelectChannel(f: Form, c: int): (r: Result<Form, JavaException>)
    ensures !(0 <= c < 3) || c == f.channel ==> r == Success(f)
    ensures 0 <= c < 3 && c != f.channel ==>
              (r.Success? <==> c < |f.current| && c < |f.models| && f.current[c].Some? && f.models[c].Some?)
    ensures 0 <= c < 3 && c != f.channel && r.Success? ==>
              && r.value.channel == c && r.value.editorModel == f.models[c]
              && r.value.channelSourceName == f.current[c].value.name
              && r.value.current == f.current && r.value.sources == f.sources
    ensures Valid(f) && r.Success? ==> Valid(r.value)
  {
    if !(0 <= c < 3) || c == f.channel then Success(f) else Acknowledge(f.(channel := c))
  }

  /** The listed source carrying `name`: the first match, None when no
      entry has it, a null-pointer failure when a null entry comes first. */
  function FindSource(sources: seq<Option<Node>>, name: string): (r: Result<Option<Node>, JavaException>)
    ensures None !in sources ==> r.Success?
    ensures r.Failure? ==> r.error == NullPointer
    ensures r.Success? && r.value.Some? ==> r.value in sources && r.value.value.name == name
    ensures r.Success? && r.value.None? ==> forall i :: 0 <= i < |sources| ==> sources[i].Some? && sources[i].value.name != name
    decreases |sources|
  {
    if |sources| == 0 then Success(None)
    else if sources[0].None? then Failure(NullPointer)
    else if sources[0].value.name == name then Success(sources[0])
    else
      var r := FindSource(sources[1..], name);
      assert forall i :: 1 <= i < |sources| ==> sources[i] == sources[1..][i - 1];
      r
  }

  /** `handleChannelSourceNameChanged`: `oldValue` is the name before the
      change, `hasStx(n)` whether statistics are available for `n`. An
      unknown name or the current source leave the form alone; a source
      without statistics reverts the chosen name; otherwise the channel
      takes the source, its RGB source name and a new model, and is
      acknowledged. */
  function HandleChannelSourceNameChanged(f: Form, oldValue: Option<string>, hasStx: Node -> bool)
    : (r: Result<Form, JavaException>)
    ensures (forall i :: 0 <= i < |f.sources| ==> f.sources[i].Some? && f.sources[i].value.name != f.channelSourceName) ==>
              r == Success(f)
    ensures FindSource(f.sources, f.channelSourceName).Failure? ==> r == Failure(NullPointer)
    ensures Valid(f) ==>
              var found := FindSource(f.sources, f.channelSourceName);
              found.Success? && found.value.Some? && found.value == f.current[f.channel] ==> r == Success(f)
    ensures Valid(f) ==>
              var found := FindSource(f.sources, f.channelSourceName);
              found.Success? && found.value.Some? && found.value != f.current[f.channel] && !hasStx(found.value.value) ==>
                r == Success(f.(channelSourceName := if oldValue.None? then "" else oldValue.value))
    ensures Valid(f) ==>
              var found := FindSource(f.sources, f.channelSourceName);
              found.Success? && found.value.Some? && found.value != f.current[f.channel] && hasStx(found.value.value) ==>
                && r.Success?
                && r.value.current == f.current[f.channel := found.value]
                && r.value.rgbSourceNames == f.rgbSourceNames[f.channel := f.channelSourceName]
                && r.value.models == f.models[f.channel := Some(f.channel)]
                && r.value.editorModel == Some(f.channel)
                && r.value.channelSourceName == f.channelSourceName
                && r.value.sources == f.sources && r.value.channel == f.channel && r.value.initial == f.initial
  {
    match FindSource(f.sources, f.channelSourceName)
    case Failure(e) => Failure(e)
    case Success(None) => Success(f)
    case Success(Some(n)) =>
      if !(0 <= f.channel < |f.current|) then Failure(IndexOutOfBounds)
      else if Some(n) == f.current[f.channel] then Success(f)
      else if !hasStx(n) then
        Success(f.(channelSourceName := if oldValue.None? then "" else oldValue.value))
      else if !(f.channel < |f.rgbSourceNames| && f.channel < |f.models|) then Failure(IndexOutOfBounds)
      else
        Acknowledge(f.(current := f.current[f.channel := Some(n)],
                       rgbSourceNames := f.rgbSourceNames[f.channel := f.channelSourceName],
                       models := f.models[f.channel := Some(f.channel)]))
  }

  /** Choosing the channel's current source again changes nothing. */
  lemma ReselectUnchanged(f: Form, oldValue: Option<string>, hasStx: Node -> bool)
    requires Valid(f) && f.current[f.channel].Some? && f.current[f.channel] in f.sources
    requires f.channelSourceName == f.current[f.channel].value.name
    requires forall i :: 0 <= i < |f.sources| ==> f.sources[i].Some?
    requires forall i, j :: 0 <= i < j < |f.sources| ==> f.sources[i].value.name != f.sources[j].value.name
    ensures HandleChannelSourceNameChanged(f, oldValue, hasStx) == Success(f)
  {
    var found := FindSource(f.sources, f.channelSourceName);
    assert None !in f.sources;
    var k :| 0 <= k < |f.sources| && f.sources[k] == found.value;
    var c :| 0 <= c < |f.sources| && f.sources[c] == f.current[f.channel];
    assert k == c;
  }

  /** Without statistics for the chosen source the channel keeps its source
      and the name reverts to the previous one, or to "" when there was
      none. */
  lemma MissingStatsReverts(f: Form, oldValue: Option<string>, hasStx: Node -> bool)
    requires Valid(f)
    requires var found := FindSource(f.sources, f.channelSourceName);
             found.Success? && found.value.Some? && found.value != f.current[f.channel] && !hasStx(found.value.value)
    ensures var r := HandleChannelSourceNameChanged(f, oldValue, hasStx);
            && r.Success? && r.value.current == f.current && r.value.sources == f.sources
            && r.value.rgbSourceNames == f.rgbSourceNames && r.value.models == f.models
            && r.value.channelSourceName == (if oldValue.None? then "" else oldValue.value)
  {
  }

  /** A change affects only the selected channel: its source becomes the
      listed source of the chosen name, which has statistics, and its RGB
      source name becomes that name; the other channels keep theirs. */
  lemma ChangeTouchesOneChannel(f: Form, oldValue: Option<string>, hasStx: Node -> bool)
    requires Valid(f)
    requires var r := HandleChannelSourceNameChanged(f, oldValue, hasStx);
             r.Success? && r.value.current != f.current
    ensures var g := HandleChannelSourceNameChanged(f, oldValue, hasStx).value;
            && g.current[f.channel].Some? && g.current[f.channel] in f.sources
            && g.current[f.channel].value.name == f.channelSourceName
            && hasStx(g.current[f.channel].value)
            && g.rgbSourceNames[f.channel] == f.channelSourceName
            && g.channelSourceName == f.channelSourceName
            && g.sources == f.sources && g.channel == f.channel
            && (forall c :: 0 <= c < 3 && c != f.channel ==>
                  g.current[c] == f.current[c] && g.rgbSourceNames[c] == f.rgbSourceNames[c] &&
                  g.models[c] == f.models[c])
  {
  }

  /** Handling a name change keeps a well-formed form well-formed. */
  lemma NameChangeValid(f: Form, oldValue: Option<string>, hasStx: Node -> bool)
    requires Valid(f) && HandleChannelSourceNameChanged(f, oldValue, hasStx).Success?
    ensures Valid(HandleChannelSourceNameChanged(f, oldValue, hasStx).value)
  {
  }
}

=== FILE: javatext.dfy ===
/** The few `java.lang.String` and `java.lang.Integer` operations the
    modelled dialogs rely on, with their Java edge cases written out:
    `lastIndexOf`, `indexOf(str, from)`, `substring`, `Integer.valueOf`,
    `Integer.toString` and 32-bit wrap-around of `int` addition. */
module JavaText {
  import opened Basics

  const MinInt: int := -0x8000_0000
  const MaxInt: int := 0x7FFF_FFFF

  /** The value a Java `int` expression yields: two's-complement wrap-around. */
  function Wrap32(x: int): (r: int)
    ensures MinInt <= r <= MaxInt
    ensures (r - x) % 0x1_0000_0000 == 0
    ensures MinInt <= x <= MaxInt ==> r == x
  {
    (x - MinInt) % 0x1_0000_0000 + MinInt
  }

  /** `pat` occurs in `s` starting at position `i`. */
  predicate OccursAt(s: string, pat: string, i: int) {
    0 <= i && i + |pat| <= |s| && s[i..i + |pat|] == pat
  }

  /** `s.lastIndexOf(pat)`, searching backwards from position `from`. */
  function LastIndexOfFrom(s: string, pat: string, from: int): (r: int)
    ensures r == -1 || 0 <= r <= from
    ensures r >= 0 ==> OccursAt(s, pat, r)
    ensures forall j :: r < j <= from ==> !OccursAt(s, pat, j)
    decreases from + 1
  {
    if from < 0 then -1
    else if OccursAt(s, pat, from) then from
    else LastIndexOfFrom(s, pat, from - 1)
  }

  /** `s.lastIndexOf(pat)`: the last position where `pat` occurs, or -1. */
  function LastIndexOf(s: string, pat: string): (r: int)
    ensures -1 <= r <= |s|
    ensures r >= 0 ==> OccursAt(s, pat, r)
    ensures forall j :: r < j ==> !OccursAt(s, pat, j)
    ensures r == -1 <==> forall j :: !OccursAt(s, pat, j)
  {
    LastIndexOfFrom(s, pat, |s| - |pat|)
  }

  /** `s.indexOf(pat, from)`: the first position at or after `from` where
      `pat` occurs, or -1. A negative `from` searches from the start. */
  function IndexOfFrom(s: string, pat: string, from: int): (r: int)
    ensures r == -1 || (from <= r && OccursAt(s, pat, r))
    ensures forall j :: from <= j && (r == -1 || j < r) ==> !OccursAt(s, pat, j)
    decreases |s| - from
  {
    if from < 0 then IndexOfFrom(s, pat, 0)
    else if from + |pat| > |s| then -1
    else if OccursAt(s, pat, from) then from
    else IndexOfFrom(s, pat, from + 1)
  }

  /** `s.substring(begin, end)`, which throws unless `0 <= begin <= end <= |s|`. */
  function Substring(s: string, begin: int, end: int): (r: Result<string, JavaException>)
    ensures r.Success? <==> 0 <= begin <= end <= |s|
    ensures r.Success? ==> |r.value| == end - begin &&
                           forall k :: 0 <= k < |r.value| ==> r.value[k] == s[begin + k]
    ensures r.Failure? ==> r.error == IndexOutOfBounds
  {
    if 0 <= begin <= end <= |s| then Success(s[begin..end]) else Failure(IndexOutOfBounds)
  }

  predicate IsDigit(c: char) {
    '0' <= c <= '9'
  }

  predicate AllDigits(s: string) {
    forall k :: 0 <= k < |s| ==> IsDigit(s[k])
  }

  /** The value of a string of decimal digits, most significant first. */
  function DigitsValue(s: string): nat
    requires AllDigits(s)
    decreases |s|
  {
    if |s| == 0 then 0
    else DigitsValue(s[..|s| - 1]) * 10 + (s[|s| - 1] as int - '0' as int)
  }

  /** `Integer.valueOf(s)`: an optional sign followed by at least one
      decimal digit, within the `int` range; anything else throws
      NumberFormatException (None here). */
  function ParseInt(s: string): (r: Option<int>)
    ensures r.Some? ==> MinInt <= r.value <= MaxInt
    ensures r.Some? ==> |s| > 0
  {
    if |s| == 0 then None
    else
      var negative := s[0] == '-';
      var body := if s[0] == '-' || s[0] == '+' then s[1..] else s;
      if |body| == 0 || !AllDigits(body) then None
      else
        var v: int := if negative then -(DigitsValue(body) as int) else DigitsValue(body);
        if MinInt <= v <= MaxInt then Some(v) else None
  }

  /** The decimal digits of `n`, without sign or leading zeros. */
  function Digits(n: nat): (r: string)
    ensures |r| > 0 && AllDigits(r)
    ensures DigitsValue(r) == n
  {
    if n < 10 then [('0' as int + n) as char]
    else
      var front := Digits(n / 10);
      var r := front + [('0' as int + n % 10) as char];
      assert r[..|r| - 1] == front;
      r
  }

  /** `Integer.toString(n)`, also what `"" + n` produces. */
  function IntToString(n: int): (r: string)
    ensures |r| > 0
    ensures forall k :: 0 <= k < |r| ==> IsDigit(r[k]) || r[k] == '-'
  {
    if n < 0 then "-" + Digits(-n) else Digits(n)
  }

  /** Parsing what `Integer.toString` printed gives the number back. */
  lemma ParseIntToString(n: int)
    requires MinInt <= n <= MaxInt
    ensures ParseInt(IntToString(n)) == Some(n)
  {
    var s := IntToString(n);
    if n < 0 {
      assert s[1..] == Digits(-n);
    } else {
      assert s[0] != '-' && s[0] != '+';
    }
  }
}

=== FILE: mask_action.dfy ===
/** The Compute Mask Area action up to the start of the background
    computation: which masks may be chosen for the viewed raster, how one of
    them is picked, and which errors end the action early. */
module MaskAction {
  import opened Basics
  import MaskTraversal

  /** A raster size in pixels. */
  datatype Size = Size(width: int, height: int)

  /** The kind of raster a view shows. */
  datatype RasterKind = BandRaster | TiePointGridRaster | OtherRaster

  datatype Raster = Raster(kind: RasterKind, size: Size)

  /** A mask of the product; `image` is None when it has no source image. */
  datatype Mask = Mask(name: string, size: Size, image: Option<MaskTraversal.MaskImage>)

  /** A product: its scene size and its mask group in group order. */
  datatype Product = Product(sceneSize: Size, masks: seq<Mask>)

  /** The selected scene view: the raster it shows and that raster's
      product. */
  datatype View = View(raster: Raster, product: Product)

  /** The user's answer to the mask selection dialog: cancelled, or OK with
      the combo box at position `index`. A combo box over a non-empty list
      always has a selection, so an index beyond such a list does not
      arise; over an empty list nothing is selected, which is the one way
      to reach the "no selection" outcome. */
  datatype DialogAnswer = Cancel | Ok(index: nat)

  /** How the action ends before any statistics are computed. */
  datatype Launch =
    | NoView
    | Cancelled
    | NoMaskImage
    | Failed(error: JavaException)
    | Started(mask: Mask)

  /** The action is enabled exactly when a scene view is selected. */
  predicate IsEnabled(view: Option<View>) {
    view.Some?
  }

  /** A mask can be measured on a band of the same size, or on a tie-point
      grid when it has the product's scene size. */
  predicate Eligible(raster: Raster, sceneSize: Size, m: Mask) {
    || (raster.kind == BandRaster && raster.size == m.size)
    || (raster.kind == TiePointGridRaster && m.size == sceneSize)
  }

  /** The names of the eligible masks, in group order. */
  function EligibleNames(raster: Raster, sceneSize: Size, masks: seq<Mask>): (r: seq<string>)
    ensures |r| <= |masks|
    decreases |masks|
  {
    if |masks| == 0 then []
    else
      var front := EligibleNames(raster, sceneSize, masks[..|masks| - 1]);
      var m := masks[|masks| - 1];
      if Eligible(raster, sceneSize, m) then front + [m.name] else front
  }

  /** Filtering a group split in two filters each part in turn, so the
      eligible names keep their group order. */
  lemma {:induction false} EligibleNamesAppend(raster: Raster, sceneSize: Size, a: seq<Mask>, b: seq<Mask>)
    ensures EligibleNames(raster, sceneSize, a + b) ==
            EligibleNames(raster, sceneSize, a) + EligibleNames(raster, sceneSize, b)
    decreases |b|
  {
    if |b| == 0 {
      assert a + b == a;
    } else {
      var b' := b[..|b| - 1];
      assert (a + b)[..|a + b| - 1] == a + b';
      EligibleNamesAppend(raster, sceneSize, a, b');
    }
  }

  /** A name is offered exactly when some eligible mask carries it. */
  lemma {:induction false} EligibleNamesMembership(raster: Raster, sceneSize: Size, masks: seq<Mask>)
    ensures forall name :: name in EligibleNames(raster, sceneSize, masks) <==>
              exists i :: 0 <= i < |masks| && masks[i].name == name && Eligible(raster, sceneSize, masks[i])
    decreases |masks|
  {
    if |masks| > 0 {
      var front := masks[..|masks| - 1];
      EligibleNamesMembership(raster, sceneSize, front);
      forall name | exists i :: 0 <= i < |masks| && masks[i].name == name && Eligible(raster, sceneSize, masks[i])
        ensures name in EligibleNames(raster, sceneSize, masks)
      {
        var i :| 0 <= i < |masks| && masks[i].name == name && Eligible(raster, sceneSize, masks[i]);
        if i < |masks| - 1 {
          assert front[i] == masks[i];
        }
      }
      forall name | name in EligibleNames(raster, sceneSize, front)
        ensures exists i :: 0 <= i < |masks| && masks[i].name == name && Eligible(raster, sceneSize, masks[i])
      {
        var i :| 0 <= i < |front| && front[i].name == name && Eligible(raster, sceneSize, front[i]);
        assert masks[i] == front[i];
      }
    }
  }

  /** `maskGroup.get(name)`: the first mask of the group with that name. */
  function FindMask(masks: seq<Mask>, name: string): (r: Option<Mask>)
    ensures r.None? <==> forall i :: 0 <= i < |masks| ==> masks[i].name != name
    ensures r.Some? ==> exists i :: 0 <= i < |masks| && masks[i] == r.value && r.value.name == name &&
                                    forall j :: 0 <= j < i ==> masks[j].name != name
    decreases |masks|
  {
    if |masks| == 0 then None
    else if masks[0].name == name then Some(masks[0])
    else
      var r := FindMask(masks[1..], name);
      assert forall i :: 1 <= i < |masks| ==> masks[i] == masks[1..][i - 1];
      r
  }

  /** The name the user ends up with: the only eligible mask without a
      dialog, otherwise the dialog's selection (None when nothing is
      selected); the outer None is a cancelled dialog. */
  function ChooseName(names: seq<string>, answer: DialogAnswer): (r: Option<Option<string>>)
    ensures |names| == 1 ==> r == Some(Some(names[0]))
    ensures r == None <==> |names| != 1 && answer.Cancel?
    ensures r.Some? && r.value.Some? ==> r.value.value in names
  {
    if |names| == 1 then Some(Some(names[0]))
    else
      match answer
      case Cancel => None
      case Ok(i) => Some(if i < |names| then Some(names[i]) else None)
  }

  /** `computeMaskArea` up to starting the worker. A missing selection is
      passed to `maskGroup.get`; the group lookup is taken to find nothing
      for it, and the missing mask is then dereferenced, which ends in a
      null-pointer exception. */
  function ComputeMaskArea(view: Option<View>, answer: DialogAnswer): (r: Launch)
    ensures r.NoView? <==> view.None?
    ensures r.Started? ==> r.mask.image.Some?
    ensures r == Cancelled <==>
              view.Some? &&
              ChooseName(EligibleNames(view.value.raster, view.value.product.sceneSize, view.value.product.masks), answer) == None
    ensures r.Failed? ==> r.error == NullPointer
    ensures view.Some? ==>
              var names := EligibleNames(view.value.raster, view.value.product.sceneSize, view.value.product.masks);
              var choice := ChooseName(names, answer);
              choice.Some? && choice.value.Some? && FindMask(view.value.product.masks, choice.value.value).Some? ==>
                var m := FindMask(view.value.product.masks, choice.value.value).value;
                r == (if m.image.None? then NoMaskImage else Started(m))
  {
    match view
    case None => NoView
    case Some(v) =>
      var names := EligibleNames(v.raster, v.product.sceneSize, v.product.masks);
      match ChooseName(names, answer)
      case None => Cancelled
      case Some(None) => Failed(NullPointer)
      case Some(Some(name)) =>
        match FindMask(v.product.masks, name)
        case None => Failed(NullPointer)
        case Some(m) => if m.image.None? then NoMaskImage else Started(m)
  }

  /** The action is enabled exactly when running it gets past the view
      check, whatever the user answers. */
  lemma EnabledIffViewFound(view: Option<View>, answer: DialogAnswer)
    ensures IsEnabled(view) <==> !ComputeMaskArea(view, answer).NoView?
  {
  }

  /** The mask whose statistics are computed belongs to the product and,
      when mask names are unique, is eligible for the viewed raster. */
  lemma StartedMaskEligible(view: Option<View>, answer: DialogAnswer)
    requires ComputeMaskArea(view, answer).Started?
    ensures var v := view.value; var m := ComputeMaskArea(view, answer).mask;
            && m in v.product.masks
            && m.name in EligibleNames(v.raster, v.product.sceneSize, v.product.masks)
            && ((forall i, j :: 0 <= i < j < |v.product.masks| ==> v.product.masks[i].name != v.product.masks[j].name) ==>
                  Eligible(v.raster, v.product.sceneSize, m))
  {
    var v := view.value;
    var masks := v.product.masks;
    var names := EligibleNames(v.raster, v.product.sceneSize, masks);
    var name := ChooseName(names, answer).value.value;
    EligibleNamesMembership(v.raster, v.product.sceneSize, masks);
    var m := FindMask(masks, name).value;
    var k :| 0 <= k < |masks| && masks[k].name == name && Eligible(v.raster, v.product.sceneSize, masks[k]);
    var i :| 0 <= i < |masks| && masks[i] == m && m.name == name && forall j :: 0 <= j < i ==> masks[j].name != name;
    if forall a, b :: 0 <= a < b < |masks| ==> masks[a].name != masks[b].name {
      assert i == k;
    }
  }

  /** A single eligible mask is taken without asking: the answer to the
      dialog plays no part. */
  lemma SingleEligibleNoDialog(view: Option<View>, a1: DialogAnswer, a2: DialogAnswer)
    requires view.Some?
    requires |EligibleNames(view.value.raster, view.value.product.sceneSize, view.value.product.masks)| == 1
    ensures ComputeMaskArea(view, a1) == ComputeMaskArea(view, a2)
    ensures !ComputeMaskArea(view, a1).Cancelled?
  {
  }

  /** With several (or no) eligible masks, cancelling the dialog ends the
      action. */
  lemma CancelEndsAction(view: Option<View>)
    requires view.Some?
    requires |EligibleNames(view.value.raster, view.value.product.sceneSize, view.value.product.masks)| != 1
    ensures ComputeMaskArea(view, Cancel) == Cancelled
  {
  }
}

=== FILE: mask_stats.dfy ===
/** The accumulator of the mask-area computation: the number of mask
    pixels, their total area and the smallest and largest pixel area. The
    area of a pixel comes from the geo-coding and is an opaque real-valued
    function here; the sample value of the mask image is an opaque integer
    function. */
module MaskStatistics {

  /** A pixel position: column `x`, row `y`. */
  datatype Pixel = Pixel(x: int, y: int)

  /** A double that may be one of the two infinities. */
  datatype ExtReal = NegInf | Finite(v: real) | PosInf

  predicate Le(a: ExtReal, b: ExtReal) {
    match (a, b)
    case (NegInf, _) => true
    case (_, PosInf) => true
    case (Finite(u), Finite(v)) => u <= v
    case _ => false
  }

  /** `Math.min` on the extended line. */
  function Min(a: ExtReal, b: ExtReal): (r: ExtReal)
    ensures Le(r, a) && Le(r, b)
    ensures r == a || r == b
  {
    if Le(a, b) then a else b
  }

  /** `Math.max` on the extended line. */
  function Max(a: ExtReal, b: ExtReal): (r: ExtReal)
    ensures Le(a, r) && Le(b, r)
    ensures r == a || r == b
  {
    if Le(a, b) then b else a
  }

  /** `MaskAreaStatistics`. */
  datatype Stats = Stats(
    earthRadius: real,
    maskArea: real,
    pixelAreaMin: ExtReal,
    pixelAreaMax: ExtReal,
    numPixels: int)

  /** The statistics before any pixel: no area, the minimum at plus
      infinity, the maximum at minus infinity, no pixels. */
  function Initial(earthRadius: real): Stats {
    Stats(earthRadius, 0.0, PosInf, NegInf, 0)
  }

  /** One mask pixel of area `a` taken into account. */
  function AddPixel(s: Stats, a: real): (r: Stats)
    ensures r.numPixels == s.numPixels + 1 && r.maskArea == s.maskArea + a
    ensures Le(r.pixelAreaMin, Finite(a)) && Le(r.pixelAreaMin, s.pixelAreaMin)
    ensures r.pixelAreaMin == s.pixelAreaMin || r.pixelAreaMin == Finite(a)
    ensures Le(Finite(a), r.pixelAreaMax) && Le(s.pixelAreaMax, r.pixelAreaMax)
    ensures r.pixelAreaMax == s.pixelAreaMax || r.pixelAreaMax == Finite(a)
    ensures r.earthRadius == s.earthRadius
  {
    s.(pixelAreaMin := Min(s.pixelAreaMin, Finite(a)),
       pixelAreaMax := Max(s.pixelAreaMax, Finite(a)),
       maskArea := s.maskArea + a,
       numPixels := s.numPixels + 1)
  }

  /** The inner pixel step: a pixel counts when its mask sample is
      non-zero. */
  function Visit(s: Stats, p: Pixel, sample: Pixel -> int, area: Pixel -> real): Stats {
    if sample(p) != 0 then AddPixel(s, area(p)) else s
  }

  /** The statistics after visiting `px` in order. */
  function VisitAll(s: Stats, px: seq<Pixel>, sample: Pixel -> int, area: Pixel -> real): Stats
    decreases |px|
  {
    if |px| == 0 then s
    else Visit(VisitAll(s, px[..|px| - 1], sample, area), px[|px| - 1], sample, area)
  }

  /** Visiting one more pixel after `px`. */
  lemma VisitAllSnoc(s: Stats, px: seq<Pixel>, p: Pixel, sample: Pixel -> int, area: Pixel -> real)
    ensures VisitAll(s, px + [p], sample, area) == Visit(VisitAll(s, px, sample, area), p, sample, area)
  {
    assert (px + [p])[..|px|] == px;
  }

  /** Visiting two stretches of pixels one after the other. */
  lemma {:induction false} VisitAllAppend(s: Stats, a: seq<Pixel>, b: seq<Pixel>, sample: Pixel -> int, area: Pixel -> real)
    ensures VisitAll(s, a + b, sample, area) == VisitAll(VisitAll(s, a, sample, area), b, sample, area)
    decreases |b|
  {
    if |b| == 0 {
      assert a + b == a;
    } else {
      var front := b[..|b| - 1];
      assert a + b == (a + front) + [b[|b| - 1]];
      VisitAllAppend(s, a, front, sample, area);
      VisitAllSnoc(s, a + front, b[|b| - 1], sample, area);
      VisitAllSnoc(VisitAll(s, a, sample, area), front, b[|b| - 1], sample, area);
    }
  }

  /** The number of pixels of `px` with a non-zero sample. */
  function CountNonZero(px: seq<Pixel>, sample: Pixel -> int): nat
    decreases |px|
  {
    if |px| == 0 then 0
    else CountNonZero(px[..|px| - 1], sample) + (if sample(px[|px| - 1]) != 0 then 1 else 0)
  }

  /** The total area of the pixels of `px` with a non-zero sample. */
  function AreaSum(px: seq<Pixel>, sample: Pixel -> int, area: Pixel -> real): real
    decreases |px|
  {
    if |px| == 0 then 0.0
    else AreaSum(px[..|px| - 1], sample, area) + (if sample(px[|px| - 1]) != 0 then area(px[|px| - 1]) else 0.0)
  }

  /** Starting from the initial statistics, the count is the number of
      mask pixels visited and the area their summed area. */
  lemma {:induction false} VisitAllCounts(er: real, px: seq<Pixel>, sample: Pixel -> int, area: Pixel -> real)
    ensures var s := VisitAll(Initial(er), px, sample, area);
            s.numPixels == CountNonZero(px, sample) && s.maskArea == AreaSum(px, sample, area) &&
            s.earthRadius == er
    decreases |px|
  {
    if |px| > 0 {
      VisitAllCounts(er, px[..|px| - 1], sample, area);
    }
  }

  /** Starting from the initial statistics, the minimum and the maximum
      stay infinite until a mask pixel is seen, and bound the area of every
      mask pixel visited. */
  lemma {:induction false} VisitAllBounds(er: real, px: seq<Pixel>, sample: Pixel -> int, area: Pixel -> real)
    ensures var s := VisitAll(Initial(er), px, sample, area);
            && s.pixelAreaMin != NegInf && s.pixelAreaMax != PosInf
            && (s.pixelAreaMin == PosInf <==> CountNonZero(px, sample) == 0)
            && (s.pixelAreaMax == NegInf <==> CountNonZero(px, sample) == 0)
            && (forall i :: 0 <= i < |px| && sample(px[i]) != 0 ==>
                  Le(s.pixelAreaMin, Finite(area(px[i]))) && Le(Finite(area(px[i])), s.pixelAreaMax))
    decreases |px|
  {
    if |px| > 0 {
      var front := px[..|px| - 1];
      VisitAllBounds(er, front, sample, area);
      var s := VisitAll(Initial(er), px, sample, area);
      forall i | 0 <= i < |px| - 1 && sample(px[i]) != 0
        ensures Le(s.pixelAreaMin, Finite(area(px[i]))) && Le(Finite(area(px[i])), s.pixelAreaMax)
      {
        assert px[i] == front[i];
      }
    }
  }

  /** Once a mask pixel is seen, the minimum and the maximum are areas of
      mask pixels visited. */
  lemma {:induction false} VisitAllAttained(er: real, px: seq<Pixel>, sample: Pixel -> int, area: Pixel -> real)
    requires CountNonZero(px, sample) > 0
    ensures var s := VisitAll(Initial(er), px, sample, area);
            && (exists i :: 0 <= i < |px| && sample(px[i]) != 0 && s.pixelAreaMin == Finite(area(px[i])))
            && (exists i :: 0 <= i < |px| && sample(px[i]) != 0 && s.pixelAreaMax == Finite(area(px[i])))
    decreases |px|
  {
    var front := px[..|px| - 1];
    var last := |px| - 1;
    var s0 := VisitAll(Initial(er), front, sample, area);
    var s := VisitAll(Initial(er), px, sample, area);
    if sample(px[last]) == 0 {
      VisitAllAttained(er, front, sample, area);
      var i :| 0 <= i < |front| && sample(front[i]) != 0 && s0.pixelAreaMin == Finite(area(front[i]));
      assert px[i] == front[i];
      var j :| 0 <= j < |front| && sample(front[j]) != 0 && s0.pixelAreaMax == Finite(area(front[j]));
      assert px[j] == front[j];
    } else if CountNonZero(front, sample) > 0 {
      VisitAllAttained(er, front, sample, area);
      if s.pixelAreaMin != Finite(area(px[last])) {
        var i :| 0 <= i < |front| && sample(front[i]) != 0 && s0.pixelAreaMin == Finite(area(front[i]));
        assert px[i] == front[i];
      }
      if s.pixelAreaMax != Finite(area(px[last])) {
        var j :| 0 <= j < |front| && sample(front[j]) != 0 && s0.pixelAreaMax == Finite(area(front[j]));
        assert px[j] == front[j];
      }
    } else {
      VisitAllBounds(er, front, sample, area);
    }
  }

  /** What `done` shows: the "Mask is empty" error, or the figures with
      the mean pixel area. */
  datatype Report =
    | MaskEmpty
    | Shown(numPixels: int, maskArea: real, meanPixelArea: real,
            pixelAreaMin: ExtReal, pixelAreaMax: ExtReal, earthRadius: real)

  /** `done` and `showResults`: a zero count gives the empty-mask error,
      anything else the figures, the mean being the area per pixel. */
  function Done(s: Stats): (r: Report)
    ensures r.MaskEmpty? <==> s.numPixels == 0
    ensures r.Shown? ==> r.numPixels == s.numPixels && r.maskArea == s.maskArea &&
                         r.meanPixelArea * (s.numPixels as real) == s.maskArea
    ensures r.Shown? ==> r.pixelAreaMin == s.pixelAreaMin && r.pixelAreaMax == s.pixelAreaMax
  {
    if s.numPixels == 0 then MaskEmpty
    else Shown(s.numPixels, s.maskArea, s.maskArea / (s.numPixels as real),
               s.pixelAreaMin, s.pixelAreaMax, s.earthRadius)
  }

  /** A sum of `n` terms that all lie in `[lo, hi]` lies in `[n lo, n hi]`. */
  lemma {:induction false} AreaSumBounds(px: seq<Pixel>, sample: Pixel -> int, area: Pixel -> real, lo: real, hi: real)
    requires forall i :: 0 <= i < |px| && sample(px[i]) != 0 ==> lo <= area(px[i]) <= hi
    ensures lo * (CountNonZero(px, sample) as real) <= AreaSum(px, sample, area) <= hi * (CountNonZero(px, sample) as real)
    decreases |px|
  {
    if |px| > 0 {
      var front := px[..|px| - 1];
      forall i | 0 <= i < |front| && sample(front[i]) != 0 ensures lo <= area(front[i]) <= hi {
        assert front[i] == px[i];
      }
      AreaSumBounds(front, sample, area, lo, hi);
    }
  }

  /** Dividing by a positive number keeps a bound. */
  lemma QuotientBounds(sum: real, n: real, lo: real, hi: real)
    requires n > 0.0 && lo * n <= sum <= hi * n
    ensures lo <= sum / n <= hi
  {
    assert (sum / n) * n == sum;
  }

  /** The mean area of the mask pixels lies within any bounds of their
      areas. */
  lemma MeanFromBounds(px: seq<Pixel>, sample: Pixel -> int, area: Pixel -> real, lo: real, hi: real)
    requires CountNonZero(px, sample) > 0
    requires forall i :: 0 <= i < |px| && sample(px[i]) != 0 ==> lo <= area(px[i]) <= hi
    ensures lo <= AreaSum(px, sample, area) / (CountNonZero(px, sample) as real) <= hi
  {
    AreaSumBounds(px, sample, area, lo, hi);
    QuotientBounds(AreaSum(px, sample, area), CountNonZero(px, sample) as real, lo, hi);
  }

  /** The mean of the areas of the mask pixels visited lies between their
      smallest and their largest area. */
  lemma MeanWithinExtremes(er: real, px: seq<Pixel>, sample: Pixel -> int, area: Pixel -> real)
    requires CountNonZero(px, sample) > 0
    ensures var s := VisitAll(Initial(er), px, sample, area);
            && s.pixelAreaMin.Finite? && s.pixelAreaMax.Finite? && s.numPixels > 0
            && s.pixelAreaMin.v <= s.maskArea / (s.numPixels as real) <= s.pixelAreaMax.v
  {
    var s := VisitAll(Initial(er), px, sample, area);
    VisitAllCounts(er, px, sample, area);
    VisitAllBounds(er, px, sample, area);
    var lo, hi := s.pixelAreaMin.v, s.pixelAreaMax.v;
    forall i | 0 <= i < |px| && sample(px[i]) != 0 ensures lo <= area(px[i]) <= hi {
      assert Le(s.pixelAreaMin, Finite(area(px[i]))) && Le(Finite(area(px[i])), s.pixelAreaMax);
    }
    MeanFromBounds(px, sample, area, lo, hi);
  }

  /** After visiting pixels from the initial statistics, `done` reports an
      empty mask exactly when no visited pixel is a mask pixel; otherwise it
      divides by a positive count and the mean lies between the smallest
      and the largest pixel area. */
  lemma DoneAfterVisit(er: real, px: seq<Pixel>, sample: Pixel -> int, area: Pixel -> real)
    ensures var r := Done(VisitAll(Initial(er), px, sample, area));
            && (r.MaskEmpty? <==> CountNonZero(px, sample) == 0)
            && (r.Shown? ==> r.numPixels > 0)
            && (r.Shown? ==> Le(r.pixelAreaMin, Finite(r.meanPixelArea)) && Le(Finite(r.meanPixelArea), r.pixelAreaMax))
  {
    VisitAllCounts(er, px, sample, area);
    if CountNonZero(px, sample) > 0 {
      MeanWithinExtremes(er, px, sample, area);
    }
  }
}

=== FILE: mask_traversal.dfy ===
/** The traversal of the mask image: tile by tile in column-major tile
    order, each tile clipped to the scene rectangle, each clipped tile row
    by row. The user may cancel between tiles; the progress monitor is told
    the tile total up front and one unit per tile. */
module MaskTraversal {
  import opened Basics
  import opened MaskStatistics

  /** `len` pixels of row `y`, starting at column `x0`. */
  function RowPixels(x0: int, y: int, len: int): seq<Pixel>
    decreases len
  {
    if len <= 0 then [] else RowPixels(x0, y, len - 1) + [Pixel(x0 + len - 1, y)]
  }

  /** A row holds its pixels left to right, one per column. */
  lemma {:induction false} RowPixelsAt(x0: int, y: int, len: int)
    ensures |RowPixels(x0, y, len)| == if len <= 0 then 0 else len
    ensures forall i :: 0 <= i < |RowPixels(x0, y, len)| ==> RowPixels(x0, y, len)[i] == Pixel(x0 + i, y)
    decreases len
  {
    if len > 0 {
      RowPixelsAt(x0, y, len - 1);
    }
  }

  /** The first `rows` rows of `rect`, top to bottom, each left to right. */
  function RectRows(rect: Rect, rows: int): seq<Pixel>
    decreases rows
  {
    if rows <= 0 then [] else RectRows(rect, rows - 1) + RowPixels(rect.x, rect.y + rows - 1, rect.width)
  }

  /** The pixels of `rect` in the order the pixel loops visit them; none
      when the rectangle is empty. */
  function RectPixels(rect: Rect): seq<Pixel> {
    RectRows(rect, rect.height)
  }

  /** A pixel is among the first `rows` rows exactly when it lies in the
      rectangle above row `rect.y + rows`. */
  lemma {:induction false} RectRowsMembership(rect: Rect, rows: int)
    ensures forall p :: p in RectRows(rect, rows) <==>
              rect.x <= p.x < rect.x + rect.width && rect.y <= p.y < rect.y + rows
    decreases rows
  {
    if rows > 0 {
      RectRowsMembership(rect, rows - 1);
      var row := RowPixels(rect.x, rect.y + rows - 1, rect.width);
      RowPixelsAt(rect.x, rect.y + rows - 1, rect.width);
      forall p: Pixel | rect.x <= p.x < rect.x + rect.width && p.y == rect.y + rows - 1 ensures p in row {
        assert row[p.x - rect.x] == p;
      }
    }
  }

  /** The pixels of a rectangle are those it covers. */
  lemma RectPixelsMembership(rect: Rect)
    ensures forall p :: p in RectPixels(rect) <==> rect.Covers(p.x, p.y)
  {
    RectRowsMembership(rect, rect.height);
  }

  /** No pixel of a rectangle is visited twice. */
  lemma {:induction false} RectRowsDistinct(rect: Rect, rows: int)
    ensures Distinct(RectRows(rect, rows))
    decreases rows
  {
    if rows > 0 {
      RectRowsDistinct(rect, rows - 1);
      RectRowsMembership(rect, rows - 1);
      var row := RowPixels(rect.x, rect.y + rows - 1, rect.width);
      RowPixelsAt(rect.x, rect.y + rows - 1, rect.width);
      DistinctConcat(RectRows(rect, rows - 1), row);
    }
  }

  /** The mask image as the traversal sees it: the tile grid (first tile
      indices, tile counts, grid offset, tile size) and the scene size. */
  datatype MaskImage = MaskImage(
    minTileX: int, minTileY: int,
    numXTiles: int, numYTiles: int,
    tileGridXOffset: int, tileGridYOffset: int,
    tileWidth: int, tileHeight: int,
    width: int, height: int)

  /** The scene rectangle `[0, w) x [0, h)`. */
  function ImageRect(img: MaskImage): Rect {
    Rect(0, 0, img.width, img.height)
  }

  /** The rectangle of tile `(tx, ty)`. */
  function TileRect(img: MaskImage, tx: int, ty: int): Rect {
    Rect(img.tileGridXOffset + tx * img.tileWidth, img.tileGridYOffset + ty * img.tileHeight,
         img.tileWidth, img.tileHeight)
  }

  /** The pixels of tile `(tx, ty)` that lie in the scene. */
  function TilePixels(img: MaskImage, tx: int, ty: int): seq<Pixel> {
    RectPixels(ImageRect(img).Intersection(TileRect(img, tx, ty)))
  }

  /** The number of tiles the loops run over. */
  function TileCount(img: MaskImage): nat {
    if img.numXTiles > 0 && img.numYTiles > 0 then img.numXTiles * img.numYTiles else 0
  }

  /** The `k`-th tile in loop order: tile columns outside, tile rows inside. */
  function TileAt(img: MaskImage, k: int): (int, int)
    requires img.numYTiles > 0
  {
    (img.minTileX + k / img.numYTiles, img.minTileY + k % img.numYTiles)
  }

  /** The pixels of the first `k` tiles in loop order. */
  function TilesPixels(img: MaskImage, k: nat): seq<Pixel>
    requires k <= TileCount(img)
  {
    if k == 0 then []
    else
      var t := TileAt(img, k - 1);
      TilesPixels(img, k - 1) + TilePixels(img, t.0, t.1)
  }

  /** The pixel loops of one tile: the clipped tile is skipped when empty,
      otherwise every pixel is visited row by row. */
  method ProcessTile(s: Stats, rect: Rect, sample: Pixel -> int, area: Pixel -> real) returns (t: Stats)
    ensures t == VisitAll(s, RectPixels(rect), sample, area)
  {
    t := s;
    if rect.IsEmpty() {
      if rect.height > 0 {
        EmptyRows(rect, rect.height);
      }
      return;
    }
    var y := rect.y;
    while y < rect.y + rect.height
      invariant rect.y <= y <= rect.y + rect.height
      invariant t == VisitAll(s, RectRows(rect, y - rect.y), sample, area)
    {
      t := ProcessRow(t, rect.x, y, rect.width, sample, area);
      VisitAllAppend(s, RectRows(rect, y - rect.y), RowPixels(rect.x, y, rect.width), sample, area);
      RowsStep(rect, y);
      y := y + 1;
    }
  }

  /** The inner pixel loop over one row of a clipped tile: a pixel counts
      when its mask sample is not zero. */
  method ProcessRow(s: Stats, x0: int, y: int, width: int, sample: Pixel -> int, area: Pixel -> real)
    returns (t: Stats)
    ensures t == VisitAll(s, RowPixels(x0, y, width), sample, area)
  {
    t := s;
    var x := x0;
    while x < x0 + width
      invariant x0 <= x && (x == x0 || x <= x0 + width)
      invariant t == VisitAll(s, RowPixels(x0, y, x - x0), sample, area)
    {
      VisitAllSnoc(s, RowPixels(x0, y, x - x0), Pixel(x, y), sample, area);
      if sample(Pixel(x, y)) != 0 {
        t := AddPixel(t, area(Pixel(x, y)));
      }
      x := x + 1;
    }
    RowPixelsAt(x0, y, width);
    assert RowPixels(x0, y, x - x0) == RowPixels(x0, y, width);
  }

  /** Row `y` of a rectangle follows the rows above it. */
  lemma RowsStep(rect: Rect, y: int)
    requires y >= rect.y
    ensures RectRows(rect, y + 1 - rect.y) == RectRows(rect, y - rect.y) + RowPixels(rect.x, y, rect.width)
  {
  }

  /** A rectangle without columns has no pixels in any of its rows. */
  lemma {:induction false} EmptyRows(rect: Rect, rows: int)
    requires rect.width <= 0
    ensures RectRows(rect, rows) == []
    decreases rows
  {
    if rows > 0 {
      EmptyRows(rect, rows - 1);
    }
  }

  /** Once the monitor reports cancellation it keeps reporting it. */
  ghost predicate Monotone(canceled: nat -> bool) {
    forall i, j :: 0 <= i <= j && canceled(i) ==> canceled(j)
  }

  /** The loop state after `polls` polls of the progress monitor, of which
      `worked` were answered "go on" and led to a tile being processed:
      the worked tiles are a prefix of the loop order, a poll answered
      "cancel" is never followed by work, and without cancellation `done`
      tiles have been processed. */
  ghost predicate Progress(img: MaskImage, earthRadius: real, sample: Pixel -> int, area: Pixel -> real,
                           canceled: nat -> bool, done: int, stats: Stats, worked: nat, polls: nat)
  {
    && worked <= TileCount(img)
    && polls >= worked && (polls > worked ==> canceled(worked))
    && (forall k :: 0 <= k < worked ==> !canceled(k))
    && (polls == worked ==> worked == done)
    && stats == VisitAll(Initial(earthRadius), TilesPixels(img, worked), sample, area)
  }

  /** `computeMaskAreaStatistics`: `canceled(p)` is the answer of the
      progress monitor to its `p`-th poll, `sample` the mask sample and
      `area` the area of a pixel. Returns the statistics, the tile total
      announced to the monitor and the number of tiles reported worked.
      The tiles worked are a prefix of the loop order: all of them unless a
      poll reported cancellation, after which no tile is processed. */
  method ComputeAreaStatistics(img: MaskImage, earthRadius: real, sample: Pixel -> int, area: Pixel -> real,
                               canceled: nat -> bool)
    returns (stats: Stats, total: int, worked: nat)
    requires Monotone(canceled)
    ensures total == img.numXTiles * img.numYTiles
    ensures worked <= TileCount(img)
    ensures forall k :: 0 <= k < worked ==> !canceled(k)
    ensures worked < TileCount(img) ==> canceled(worked)
    ensures stats == VisitAll(Initial(earthRadius), TilesPixels(img, worked), sample, area)
  {
    total := img.numXTiles * img.numYTiles;
    stats := Initial(earthRadius);
    worked := 0;
    var polls: nat := 0;
    var rows := if img.numYTiles > 0 then img.numYTiles else 0;
    var tx := img.minTileX;
    while tx < img.minTileX + img.numXTiles
      invariant img.minTileX <= tx
      invariant img.numXTiles > 0 ==> tx <= img.minTileX + img.numXTiles
      invariant img.numXTiles <= 0 ==> tx == img.minTileX
      invariant Progress(img, earthRadius, sample, area, canceled, (tx - img.minTileX) * rows, stats, worked, polls)
    {
      stats, worked, polls := ProcessColumn(img, earthRadius, sample, area, canceled, tx, rows, stats, worked, polls);
      tx := tx + 1;
    }
  }

  /** The inner loop of `computeMaskAreaStatistics`: the tiles of column
      `tx`, each after one poll of the progress monitor, until a poll
      answers "cancel". */
  method ProcessColumn(img: MaskImage, earthRadius: real, sample: Pixel -> int, area: Pixel -> real,
                       canceled: nat -> bool, tx: int, rows: int, stats0: Stats, worked0: nat, polls0: nat)
    returns (stats: Stats, worked: nat, polls: nat)
    requires Monotone(canceled)
    requires img.minTileX <= tx < img.minTileX + img.numXTiles
    requires rows == if img.numYTiles > 0 then img.numYTiles else 0
    requires Progress(img, earthRadius, sample, area, canceled, (tx - img.minTileX) * rows, stats0, worked0, polls0)
    ensures Progress(img, earthRadius, sample, area, canceled, (tx + 1 - img.minTileX) * rows, stats, worked, polls)
  {
    stats, worked, polls := stats0, worked0, polls0;
    var ty := img.minTileY;
    while ty < img.minTileY + img.numYTiles
      invariant img.minTileY <= ty
      invariant img.numYTiles > 0 ==> ty <= img.minTileY + img.numYTiles
      invariant img.numYTiles <= 0 ==> ty == img.minTileY
      invariant Progress(img, earthRadius, sample, area, canceled,
                         (tx - img.minTileX) * rows + (ty - img.minTileY), stats, worked, polls)
    {
      if canceled(polls) {
        CancelledPoll(img, earthRadius, sample, area, canceled,
                      (tx - img.minTileX) * rows + (ty - img.minTileY), (tx + 1 - img.minTileX) * rows,
                      stats, worked, polls);
        polls := polls + 1;
        break;
      }
      stats, worked, polls := ProcessNextTile(img, earthRadius, sample, area, canceled, tx, ty, rows,
                                              stats, worked, polls);
      ty := ty + 1;
    }
    MulSucc(tx - img.minTileX, rows);
  }

  /** A poll answered "cancel" leaves the work done so far as it is and
      records that the next tile was refused. */
  lemma CancelledPoll(img: MaskImage, earthRadius: real, sample: Pixel -> int, area: Pixel -> real,
                      canceled: nat -> bool, done: int, later: int, stats: Stats, worked: nat, polls: nat)
    requires Progress(img, earthRadius, sample, area, canceled, done, stats, worked, polls)
    requires canceled(polls)
    ensures Progress(img, earthRadius, sample, area, canceled, later, stats, worked, polls + 1)
  {
  }

  /** One poll answered "go on" followed by the tile `(tx, ty)`, the next
      one in loop order. */
  method ProcessNextTile(img: MaskImage, earthRadius: real, sample: Pixel -> int, area: Pixel -> real,
                         canceled: nat -> bool, tx: int, ty: int, rows: int,
                         stats0: Stats, worked0: nat, polls0: nat)
    returns (stats: Stats, worked: nat, polls: nat)
    requires Monotone(canceled)
    requires img.minTileX <= tx < img.minTileX + img.numXTiles
    requires img.minTileY <= ty < img.minTileY + img.numYTiles
    requires rows == img.numYTiles
    requires Progress(img, earthRadius, sample, area, canceled,
                      (tx - img.minTileX) * rows + (ty - img.minTileY), stats0, worked0, polls0)
    requires !canceled(polls0)
    ensures Progress(img, earthRadius, sample, area, canceled,
                     (tx - img.minTileX) * rows + (ty - img.minTileY) + 1, stats, worked, polls)
    ensures polls == worked == worked0 + 1
  {
    assert polls0 == worked0;
    var clipped := ImageRect(img).Intersection(TileRect(img, tx, ty));
    stats := ProcessTile(stats0, clipped, sample, area);
    NextTile(img, worked0, tx, ty);
    VisitAllAppend(Initial(earthRadius), TilesPixels(img, worked0), TilePixels(img, tx, ty), sample, area);
    worked := worked0 + 1;
    polls := polls0 + 1;
  }

  /** One more column of tiles. */
  lemma MulSucc(a: int, b: int)
    ensures (a + 1) * b == a * b + b
  {
  }

  /** The tile the loops reach after `worked` uninterrupted tiles is the
      `worked`-th tile of the loop order, and there is one. */
  lemma NextTile(img: MaskImage, worked: nat, tx: int, ty: int)
    requires img.minTileX <= tx < img.minTileX + img.numXTiles
    requires img.minTileY <= ty < img.minTileY + img.numYTiles
    requires worked == (tx - img.minTileX) * img.numYTiles + (ty - img.minTileY)
    ensures worked < TileCount(img) && TileAt(img, worked) == (tx, ty)
    ensures TilesPixels(img, worked + 1) == TilesPixels(img, worked) + TilePixels(img, tx, ty)
  {
    DivModUnique(worked, img.numYTiles, tx - img.minTileX, ty - img.minTileY);
    MulMonotone(tx - img.minTileX + 1, img.numXTiles, img.numYTiles);
  }

  /** Tiles at least one pixel wide and high. */
  predicate Regular(img: MaskImage) {
    img.tileWidth >= 1 && img.tileHeight >= 1
  }

  /** The tile column holding pixel column `x` (floor division). */
  function TileColumn(img: MaskImage, x: int): int
    requires Regular(img)
  {
    (x - img.tileGridXOffset) / img.tileWidth
  }

  /** The tile row holding pixel row `y` (floor division). */
  function TileRow(img: MaskImage, y: int): int
    requires Regular(img)
  {
    (y - img.tileGridYOffset) / img.tileHeight
  }

  /** The pixel lies in a tile the loops run over. */
  predicate InGrid(img: MaskImage, p: Pixel)
    requires Regular(img)
  {
    && img.minTileX <= TileColumn(img, p.x) < img.minTileX + img.numXTiles
    && img.minTileY <= TileRow(img, p.y) < img.minTileY + img.numYTiles
  }

  /** The position in loop order of the tile holding `p`. */
  function TileIndex(img: MaskImage, p: Pixel): int
    requires Regular(img)
  {
    (TileColumn(img, p.x) - img.minTileX) * img.numYTiles + (TileRow(img, p.y) - img.minTileY)
  }

  /** Floor division locates `v` between consecutive multiples of `d`. */
  lemma FloorDiv(v: int, d: int, q: int)
    requires d >= 1
    ensures q * d <= v < q * d + d <==> v / d == q
  {
    if q * d <= v < q * d + d {
      DivModUnique(v, d, q, v - q * d);
    }
  }

  /** A pixel belongs to the clipped tile `(tx, ty)` exactly when it lies in
      the scene and its column and row fall in that tile. */
  lemma TilePixelsMembership(img: MaskImage, tx: int, ty: int)
    requires Regular(img)
    ensures forall p :: p in TilePixels(img, tx, ty) <==>
              ImageRect(img).Covers(p.x, p.y) && TileColumn(img, p.x) == tx && TileRow(img, p.y) == ty
  {
    var tile := TileRect(img, tx, ty);
    RectPixelsMembership(ImageRect(img).Intersection(tile));
    forall p: Pixel
      ensures tile.Covers(p.x, p.y) <==> TileColumn(img, p.x) == tx && TileRow(img, p.y) == ty
    {
      FloorDiv(p.x - img.tileGridXOffset, img.tileWidth, tx);
      FloorDiv(p.y - img.tileGridYOffset, img.tileHeight, ty);
    }
  }

  /** The `k`-th tile of the loop order is the one whose loop position is
      `k`. */
  lemma TileAtIndex(img: MaskImage, k: int, tx: int, ty: int)
    requires 0 <= k < TileCount(img)
    ensures img.numYTiles > 0
    ensures TileAt(img, k) == (tx, ty) <==>
              && img.minTileX <= tx < img.minTileX + img.numXTiles
              && img.minTileY <= ty < img.minTileY + img.numYTiles
              && (tx - img.minTileX) * img.numYTiles + (ty - img.minTileY) == k
  {
    var n := img.numYTiles;
    var q, r := k / n, k % n;
    assert k == q * n + r;
    if q >= img.numXTiles {
      MulMonotone(img.numXTiles, q, n);
    }
    if img.minTileX <= tx < img.minTileX + img.numXTiles && img.minTileY <= ty < img.minTileY + n
       && (tx - img.minTileX) * n + (ty - img.minTileY) == k {
      DivModUnique(k, n, tx - img.minTileX, ty - img.minTileY);
    }
  }

  /** Adding the `k`-th tile in loop order adds exactly the pixels whose
      tile has loop position `k - 1`. */
  lemma TilesPixelsStep(img: MaskImage, k: nat, p: Pixel)
    requires Regular(img) && 0 < k <= TileCount(img)
    requires p in TilesPixels(img, k - 1) <==>
               ImageRect(img).Covers(p.x, p.y) && InGrid(img, p) && TileIndex(img, p) < k - 1
    ensures p in TilesPixels(img, k) <==>
              ImageRect(img).Covers(p.x, p.y) && InGrid(img, p) && TileIndex(img, p) < k
  {
    var t := TileAt(img, k - 1);
    PixelOfTileAtIff(img, k - 1, p);
    assert p in TilesPixels(img, k) <==> p in TilesPixels(img, k - 1) || p in TilePixels(img, t.0, t.1);
  }

  /** A pixel belongs to the `k`-th tile in loop order exactly when it is a
      scene pixel in the grid at loop position `k`. */
  lemma PixelOfTileAtIff(img: MaskImage, k: nat, p: Pixel)
    requires Regular(img) && k < TileCount(img)
    ensures img.numYTiles > 0
    ensures p in TilePixels(img, TileAt(img, k).0, TileAt(img, k).1) <==>
              ImageRect(img).Covers(p.x, p.y) && InGrid(img, p) && TileIndex(img, p) == k
  {
    var t := TileAt(img, k);
    TilePixelsMembership(img, t.0, t.1);
    TileAtIndex(img, k, TileColumn(img, p.x), TileRow(img, p.y));
  }

  /** The pixels of the first `k` tiles are the scene pixels in the grid
      whose tile comes before position `k`. */
  lemma {:induction false} TilesPixelsMembership(img: MaskImage, k: nat)
    requires Regular(img) && k <= TileCount(img)
    ensures forall p :: p in TilesPixels(img, k) <==>
              ImageRect(img).Covers(p.x, p.y) && InGrid(img, p) && TileIndex(img, p) < k
  {
    if k > 0 {
      TilesPixelsMembership(img, k - 1);
      forall p: Pixel
        ensures p in TilesPixels(img, k) <==>
                ImageRect(img).Covers(p.x, p.y) && InGrid(img, p) && TileIndex(img, p) < k
      {
        TilesPixelsStep(img, k, p);
      }
    }
  }

  /** Every pixel of the `k`-th tile in loop order has loop position `k`. */
  lemma PixelOfTileAt(img: MaskImage, k: nat, p: Pixel)
    requires Regular(img) && k < TileCount(img)
    requires img.numYTiles > 0 && p in TilePixels(img, TileAt(img, k).0, TileAt(img, k).1)
    ensures InGrid(img, p) && TileIndex(img, p) == k
  {
    PixelOfTileAtIff(img, k, p);
  }

  /** A pixel of the `k`-th tile is not among the pixels of the tiles
      before it. */
  lemma NotVisitedBefore(img: MaskImage, k: nat, p: Pixel)
    requires Regular(img) && 0 < k <= TileCount(img)
    requires img.numYTiles > 0 && p in TilePixels(img, TileAt(img, k - 1).0, TileAt(img, k - 1).1)
    ensures p !in TilesPixels(img, k - 1)
  {
    PixelOfTileAt(img, k - 1, p);
    TilesPixelsMembership(img, k - 1);
  }

  /** No pixel is visited twice, since every pixel lies in one tile. */
  lemma {:induction false} TilesPixelsDistinct(img: MaskImage, k: nat)
    requires Regular(img) && k <= TileCount(img)
    ensures Distinct(TilesPixels(img, k))
  {
    if k > 0 {
      TilesPixelsDistinct(img, k - 1);
      var t := TileAt(img, k - 1);
      var clipped := ImageRect(img).Intersection(TileRect(img, t.0, t.1));
      var tile := TilePixels(img, t.0, t.1);
      var before := TilesPixels(img, k - 1);
      RectRowsDistinct(clipped, clipped.height);
      forall i | 0 <= i < |tile| ensures tile[i] !in before {
        NotVisitedBefore(img, k, tile[i]);
      }
      DistinctConcat(before, tile);
    }
  }

  /** The non-zero pixels of a sequence. */
  ghost function NonZeroSet(px: seq<Pixel>, sample: Pixel -> int): set<Pixel> {
    set p | p in px && sample(p) != 0
  }

  /** A duplicate-free sequence counts each of its non-zero pixels once. */
  lemma {:induction false} CountIsCard(px: seq<Pixel>, sample: Pixel -> int)
    requires Distinct(px)
    ensures CountNonZero(px, sample) == |NonZeroSet(px, sample)|
    decreases |px|
  {
    if |px| > 0 {
      var front, last := px[..|px| - 1], px[|px| - 1];
      assert px == front + [last];
      DistinctPrefix(px, |px| - 1);
      CountIsCard(front, sample);
      assert forall i :: 0 <= i < |front| ==> front[i] == px[i];
      if sample(last) != 0 {
        assert NonZeroSet(px, sample) == NonZeroSet(front, sample) + {last};
      } else {
        assert NonZeroSet(px, sample) == NonZeroSet(front, sample);
      }
    }
  }

  /** Two duplicate-free orders of the same pixels count alike. */
  lemma CountSameMembers(a: seq<Pixel>, b: seq<Pixel>, sample: Pixel -> int)
    requires Distinct(a) && Distinct(b)
    requires forall p :: p in a <==> p in b
    ensures CountNonZero(a, sample) == CountNonZero(b, sample)
  {
    CountIsCard(a, sample);
    CountIsCard(b, sample);
    assert NonZeroSet(a, sample) == NonZeroSet(b, sample);
  }

  /** The tile grid reaches over the whole scene. */
  predicate TilesCover(img: MaskImage) {
    && img.tileGridXOffset + img.minTileX * img.tileWidth <= 0
    && img.width <= img.tileGridXOffset + (img.minTileX + img.numXTiles) * img.tileWidth
    && img.tileGridYOffset + img.minTileY * img.tileHeight <= 0
    && img.height <= img.tileGridYOffset + (img.minTileY + img.numYTiles) * img.tileHeight
  }

  /** Floor division by `d` maps `[lo*d, hi*d)` into `[lo, hi)`. */
  lemma DivBetween(v: int, d: int, lo: int, hi: int)
    requires d >= 1 && lo * d <= v < hi * d
    ensures lo <= v / d < hi
  {
    var q := v / d;
    FloorDiv(v, d, q);
    if q < lo {
      MulMonotone(q + 1, lo, d);
    }
    if q >= hi {
      MulMonotone(hi, q, d);
    }
  }

  /** When the grid covers the scene, every scene pixel lies in a tile the
      loops run over. */
  lemma CoveredInGrid(img: MaskImage, p: Pixel)
    requires Regular(img) && TilesCover(img) && ImageRect(img).Covers(p.x, p.y)
    ensures InGrid(img, p)
  {
    DivBetween(p.x - img.tileGridXOffset, img.tileWidth, img.minTileX, img.minTileX + img.numXTiles);
    DivBetween(p.y - img.tileGridYOffset, img.tileHeight, img.minTileY, img.minTileY + img.numYTiles);
  }

  /** A grid pixel comes before the end of the loop order. */
  lemma IndexBelowCount(img: MaskImage, p: Pixel)
    requires Regular(img) && InGrid(img, p)
    ensures 0 <= TileIndex(img, p) < TileCount(img)
  {
    var c, n := TileColumn(img, p.x) - img.minTileX, img.numYTiles;
    MulMonotone(c + 1, img.numXTiles, n);
    MulSucc(c, n);
  }

  /** With the tiles covering the scene and no cancellation, the pixel count
      is the number of non-zero mask samples in the scene. */
  lemma WholeSceneCounted(img: MaskImage, earthRadius: real, sample: Pixel -> int, area: Pixel -> real)
    requires Regular(img) && TilesCover(img)
    ensures VisitAll(Initial(earthRadius), TilesPixels(img, TileCount(img)), sample, area).numPixels ==
            CountNonZero(RectPixels(ImageRect(img)), sample)
  {
    var visited := TilesPixels(img, TileCount(img));
    var scene := RectPixels(ImageRect(img));
    TilesPixelsMembership(img, TileCount(img));
    RectPixelsMembership(ImageRect(img));
    forall p | p in scene ensures p in visited {
      CoveredInGrid(img, p);
      IndexBelowCount(img, p);
    }
    TilesPixelsDistinct(img, TileCount(img));
    RectRowsDistinct(ImageRect(img), img.height);
    CountSameMembers(visited, scene, sample);
    VisitAllCounts(earthRadius, visited, sample, area);
  }
}

=== FILE: tab_popup.dfy ===
/** The context menu the workspace's tab bar shows, composed from the
    number of tabs and the index of the tab under the mouse (negative when
    the click hit no tab). */
module TabPopup {
  import opened Basics

  datatype MenuItem =
    | CloseWindow(tab: int)
    | CloseAllWindows
    | CloseOtherWindows(tab: int)
    | Separator
    | MaximizeWindow(tab: int)
    | DockInWorkspace(tab: int)
    | DockAllInWorkspace
    | CloneWindow(tab: int)
    | TileEvenly
    | TileHorizontally
    | TileVertically

  /** The popup, or None when there are no tabs and nothing is shown. */
  function Popup(tabCount: nat, tabIndex: int): (r: Option<seq<MenuItem>>)
    ensures r.None? <==> tabCount == 0
  {
    if tabCount == 0 then None
    else
      var onTab := tabIndex >= 0;
      var several := tabCount > 1;
      Some((if onTab then [CloseWindow(tabIndex)] else []) +
           (if several then [CloseAllWindows] else []) +
           (if onTab && several then [CloseOtherWindows(tabIndex)] else []) +
           (if onTab || several
            then [Separator] +
                 (if onTab then [MaximizeWindow(tabIndex), DockInWorkspace(tabIndex)] else []) +
                 (if several then [DockAllInWorkspace] else [])
            else []) +
           (if onTab then [Separator, CloneWindow(tabIndex)] else []) +
           (if several then [Separator, TileEvenly, TileHorizontally, TileVertically] else []))
  }

  /** When an entry belongs in the menu, stated per entry: the single-window
      actions need a tab under the mouse and act on that tab, the
      all-window actions need more than one tab. */
  predicate Offered(item: MenuItem, tabCount: nat, tabIndex: int) {
    match item
    case CloseWindow(t) => t == tabIndex && tabIndex >= 0
    case CloseAllWindows => tabCount > 1
    case CloseOtherWindows(t) => t == tabIndex && tabIndex >= 0 && tabCount > 1
    case Separator => tabIndex >= 0 || tabCount > 1
    case MaximizeWindow(t) => t == tabIndex && tabIndex >= 0
    case DockInWorkspace(t) => t == tabIndex && tabIndex >= 0
    case DockAllInWorkspace => tabCount > 1
    case CloneWindow(t) => t == tabIndex && tabIndex >= 0
    case TileEvenly => tabCount > 1
    case TileHorizontally => tabCount > 1
    case TileVertically => tabCount > 1
  }

  /** Separators only ever sit between two groups of actions. */
  predicate WellSeparated(items: seq<MenuItem>) {
    && (|items| > 0 ==> items[0] != Separator && items[|items| - 1] != Separator)
    && (forall i :: 0 <= i < |items| - 1 && items[i] == Separator ==> items[i + 1] != Separator)
  }

  /** No action is listed twice. */
  predicate NoRepeatedAction(items: seq<MenuItem>) {
    forall i, j :: 0 <= i < j < |items| && items[i] != Separator ==> items[i] != items[j]
  }

  /** The menu holds exactly the offered entries, each action once, with
      separators only between groups. */
  lemma PopupContents(tabCount: nat, tabIndex: int)
    requires tabCount > 0
    ensures var items := Popup(tabCount, tabIndex).value;
            && (forall item :: item in items <==> Offered(item, tabCount, tabIndex))
            && WellSeparated(items)
            && NoRepeatedAction(items)
  {
    if tabIndex >= 0 && tabCount > 1 {
      ContentsOnTabOfSeveral(tabCount, tabIndex);
    } else if tabIndex >= 0 {
      ContentsOnSingleTab(tabCount, tabIndex);
    } else if tabCount > 1 {
      ContentsOffTab(tabCount, tabIndex);
    } else {
      assert Popup(tabCount, tabIndex).value == [];
    }
  }

  /** The full menu: the mouse on one of several tabs. */
  lemma ContentsOnTabOfSeveral(tabCount: nat, tabIndex: int)
    requires tabCount > 1 && tabIndex >= 0
    ensures var items := Popup(tabCount, tabIndex).value;
            && (forall item :: item in items <==> Offered(item, tabCount, tabIndex))
            && WellSeparated(items)
            && NoRepeatedAction(items)
  {
    var t := tabIndex;
    var items := [CloseWindow(t), CloseAllWindows, CloseOtherWindows(t), Separator,
                  MaximizeWindow(t), DockInWorkspace(t), DockAllInWorkspace, Separator,
                  CloneWindow(t), Separator, TileEvenly, TileHorizontally, TileVertically];
    assert Popup(tabCount, tabIndex).value == items;
    FullMenuOffered(tabCount, tabIndex, items);
    FullMenuShape(tabIndex, items);
  }

  /** The entries of the full menu are the offered ones. */
  lemma FullMenuOffered(tabCount: nat, t: int, items: seq<MenuItem>)
    requires tabCount > 1 && t >= 0
    requires items == [CloseWindow(t), CloseAllWindows, CloseOtherWindows(t), Separator,
                       MaximizeWindow(t), DockInWorkspace(t), DockAllInWorkspace, Separator,
                       CloneWindow(t), Separator, TileEvenly, TileHorizontally, TileVertically]
    ensures forall item :: item in items <==> Offered(item, tabCount, t)
  {
  }

  /** The full menu lists no action twice and separates its groups. */
  lemma FullMenuShape(t: int, items: seq<MenuItem>)
    requires items == [CloseWindow(t), CloseAllWindows, CloseOtherWindows(t), Separator,
                       MaximizeWindow(t), DockInWorkspace(t), DockAllInWorkspace, Separator,
                       CloneWindow(t), Separator, TileEvenly, TileHorizontally, TileVertically]
    ensures NoRepeatedAction(items) && WellSeparated(items)
  {
  }

  /** The mouse on the only tab: no all-window actions. */
  lemma ContentsOnSingleTab(tabCount: nat, tabIndex: int)
    requires tabCount == 1 && tabIndex >= 0
    ensures var items := Popup(tabCount, tabIndex).value;
            && (forall item :: item in items <==> Offered(item, tabCount, tabIndex))
            && WellSeparated(items)
            && NoRepeatedAction(items)
  {
    var t := tabIndex;
    assert Popup(tabCount, tabIndex).value ==
           [CloseWindow(t), Separator, MaximizeWindow(t), DockInWorkspace(t), Separator, CloneWindow(t)];
  }

  /** The mouse off the tabs with several tabs: only all-window actions. */
  lemma ContentsOffTab(tabCount: nat, tabIndex: int)
    requires tabCount > 1 && tabIndex < 0
    ensures var items := Popup(tabCount, tabIndex).value;
            && (forall item :: item in items <==> Offered(item, tabCount, tabIndex))
            && WellSeparated(items)
            && NoRepeatedAction(items)
  {
    assert Popup(tabCount, tabIndex).value ==
           [CloseAllWindows, Separator, DockAllInWorkspace, Separator, TileEvenly, TileHorizontally, TileVertically];
  }

  /** The labels as the action constructors set them: the clone action
      reuses the label of Close Others. */
  function LabelAsWritten(item: MenuItem): string {
    match item
    case CloseWindow(_) => "Close"
    case CloseAllWindows => "Close All"
    case CloseOtherWindows(_) => "Close Others"
    case Separator => ""
    case MaximizeWindow(_) => "Maximise"
    case DockInWorkspace(_) => "Dock"
    case DockAllInWorkspace => "Dock All"
    case CloneWindow(_) => "Close Others"
    case TileEvenly => "Tile Evenly"
    case TileHorizontally => "Tile Horizontally"
    case TileVertically => "Tile Vertically"
  }

  /** The labels with the clone action named after what it does. */
  function Label(item: MenuItem): string {
    match item
    case CloneWindow(_) => "Clone"
    case _ => LabelAsWritten(item)
  }

  /** With two tabs and the mouse on the first, the menu shows two different
      actions under the same text "Close Others". */
  lemma AsWrittenLabelsCollide()
    ensures var items := Popup(2, 0).value;
            && 2 < 8 < |items|
            && items[2] == CloseOtherWindows(0) && items[8] == CloneWindow(0)
            && LabelAsWritten(items[2]) == LabelAsWritten(items[8])
  {
    PopupContents(2, 0);
    assert Popup(2, 0).value[2] == CloseOtherWindows(0);
  }

  /** A single-window entry acts on the given tab. */
  predicate AimsAt(item: MenuItem, tabIndex: int) {
    match item
    case CloseWindow(t) => t == tabIndex
    case CloseOtherWindows(t) => t == tabIndex
    case MaximizeWindow(t) => t == tabIndex
    case DockInWorkspace(t) => t == tabIndex
    case CloneWindow(t) => t == tabIndex
    case _ => true
  }

  /** Two different non-separator entries aimed at the same tab carry
      different corrected labels. */
  lemma LabelInjective(a: MenuItem, b: MenuItem, tabIndex: int)
    requires a != Separator && b != Separator && a != b
    requires AimsAt(a, tabIndex) && AimsAt(b, tabIndex)
    ensures Label(a) != Label(b)
  {
  }

  /** With the corrected labels no two actions of any popup look alike. */
  lemma PopupLabelsDistinct(tabCount: nat, tabIndex: int)
    requires tabCount > 0
    ensures var items := Popup(tabCount, tabIndex).value;
            forall i, j :: 0 <= i < j < |items| && items[i] != Separator && items[j] != Separator ==>
              Label(items[i]) != Label(items[j])
  {
    PopupContents(tabCount, tabIndex);
    var items := Popup(tabCount, tabIndex).value;
    forall i, j | 0 <= i < j < |items| && items[i] != Separator && items[j] != Separator
      ensures Label(items[i]) != Label(items[j])
    {
      assert items[i] in items && items[j] in items;
      LabelInjective(items[i], items[j], tabIndex);
    }
  }
}

=== FILE: tiling.dfy ===
/** The layout arithmetic of the workspace's three tiling actions. Desktop
    sizes are non-negative, so Java's truncating `int` division agrees with
    Dafny's here. */
module Tiling {
  import opened Basics

  function RealAbs(x: real): real {
    if x < 0.0 then -x else x
  }

  /** The grids Tile Evenly considers for `n` windows: at most `n` columns
      and rows, at least one cell per window and at most two. */
  predicate Feasible(hor: int, ver: int, n: int) {
    1 <= hor <= n && 1 <= ver <= n && n <= hor * ver <= 2 * n
  }

  /** How far a grid is from square plus how far its cell count is from the
      window count. */
  function Score(hor: int, ver: int, n: int): real
    requires hor >= 1 && n >= 1
  {
    RealAbs(1.0 - (ver as real) / (hor as real)) +
    RealAbs(1.0 - ((hor * ver) as real) / (n as real))
  }

  /** Grid (h, v) is visited before grid (hor, ver): rows in the outer loop,
      columns in the inner loop. */
  predicate ScannedBefore(h: int, v: int, hor: int, ver: int) {
    v < ver || (v == ver && h < hor)
  }

  /** A single-row grid always qualifies, so a choice always exists. */
  lemma SingleRowFeasible(n: int)
    requires n >= 1
    ensures Feasible(n, 1, n)
  {
  }

  /** The grid search of Tile Evenly: the first grid, in scan order, of
      least score; (-1, -1) when there are no windows. */
  method ChooseGrid(n: int) returns (hor: int, ver: int)
    ensures n < 1 ==> hor == -1 && ver == -1
    ensures n >= 1 ==> Feasible(hor, ver, n)
    ensures n >= 1 ==> forall h, v :: Feasible(h, v, n) ==> Score(hor, ver, n) <= Score(h, v, n)
    ensures n >= 1 ==> forall h, v :: Feasible(h, v, n) && ScannedBefore(h, v, hor, ver) ==>
                         Score(hor, ver, n) < Score(h, v, n)
  {
    hor, ver := -1, -1;
    var found := false;  // stands for the initial +infinity of the best score
    var best: real := 0.0;
    var v := 1;
    while v <= n
      invariant n >= 1 ==> 1 <= v <= n + 1
      invariant n < 1 ==> !found
      invariant !found ==> hor == -1 && ver == -1
      invariant found ==> Feasible(hor, ver, n) && best == Score(hor, ver, n) && ver < v
      invariant forall h', v' :: Feasible(h', v', n) && v' < v ==> found && best <= Score(h', v', n)
      invariant found ==> forall h', v' :: Feasible(h', v', n) && ScannedBefore(h', v', hor, ver) ==>
                            best < Score(h', v', n)
    {
      var h := 1;
      while h <= n
        invariant 1 <= h <= n + 1
        invariant !found ==> hor == -1 && ver == -1
        invariant found ==> Feasible(hor, ver, n) && best == Score(hor, ver, n) &&
                            ScannedBefore(hor, ver, h, v)
        invariant forall h', v' :: Feasible(h', v', n) && ScannedBefore(h', v', h, v) ==>
                    found && best <= Score(h', v', n)
        invariant found ==> forall h', v' :: Feasible(h', v', n) && ScannedBefore(h', v', hor, ver) ==>
                              best < Score(h', v', n)
      {
        if h * v >= n && h * v <= 2 * n {
          var delta := Score(h, v, n);
          if !found || delta < best {
            best, hor, ver, found := delta, h, v, true;
          }
        }
        h := h + 1;
      }
      v := v + 1;
    }
    if n >= 1 {
      SingleRowFeasible(n);
    }
  }

  /** The cell of window `k` in a `hor` x `ver` grid over a `w` x `h`
      desktop: column k mod hor, row k div hor. */
  function EvenCell(k: nat, hor: int, ver: int, w: int, h: int): Rect
    requires hor >= 1 && ver >= 1
  {
    Rect((k % hor) * (w / hor), (k / hor) * (h / ver), w / hor, h / ver)
  }

  lemma RowMajorIndex(j: int, i: int, hor: int)
    requires hor >= 1 && j >= 0 && 0 <= i < hor
    ensures (j * hor + i) / hor == j && (j * hor + i) % hor == i
  {
    DivModUnique(j * hor + i, hor, j, i);
  }

  /** The inner placement loop of Tile Evenly for grid row `j`: windows
      `j * hor` up to the window count get the cells of that row. */
  method PlaceRow(n: int, hor: int, ver: int, w: int, h: int, j: int, cells: seq<Rect>)
    returns (placed: seq<Rect>)
    requires hor >= 1 && ver >= 1 && 0 <= j
    requires |cells| == if j * hor < n then j * hor else n
    requires forall k :: 0 <= k < |cells| ==> cells[k] == EvenCell(k, hor, ver, w, h)
    ensures |placed| == if (j + 1) * hor < n then (j + 1) * hor else n
    ensures forall k :: 0 <= k < |placed| ==> placed[k] == EvenCell(k, hor, ver, w, h)
  {
    placed := cells;
    var windowWidth := w / hor;
    var windowHeight := h / ver;
    var windowIndex := j * hor;
    var i := 0;
    while i < hor
      invariant 0 <= i <= hor
      invariant windowIndex == j * hor + i
      invariant |placed| == if windowIndex < n then windowIndex else n
      invariant forall k :: 0 <= k < |placed| ==> placed[k] == EvenCell(k, hor, ver, w, h)
    {
      if windowIndex < n {
        RowMajorIndex(j, i, hor);
        placed := placed + [Rect(i * windowWidth, j * windowHeight, windowWidth, windowHeight)];
      }
      windowIndex := windowIndex + 1;
      i := i + 1;
    }
    assert windowIndex == (j + 1) * hor;
  }

  /** Tile Evenly: chooses the grid, then fills it row by row with the
      windows in tab order. */
  method TileEvenly(n: int, w: int, h: int) returns (cells: seq<Rect>, hor: int, ver: int)
    requires w >= 0 && h >= 0
    ensures n < 1 ==> cells == []
    ensures n >= 1 ==> Feasible(hor, ver, n) && |cells| == n
    ensures n >= 1 ==> forall h', v' :: Feasible(h', v', n) ==> Score(hor, ver, n) <= Score(h', v', n)
    ensures n >= 1 ==> forall h', v' :: Feasible(h', v', n) && ScannedBefore(h', v', hor, ver) ==>
                         Score(hor, ver, n) < Score(h', v', n)
    ensures n >= 1 ==> forall k :: 0 <= k < n ==> cells[k] == EvenCell(k, hor, ver, w, h)
  {
    hor, ver := ChooseGrid(n);
    cells := [];
    if n < 1 {
      return;
    }
    var j := 0;
    while j < ver
      invariant 0 <= j <= ver
      invariant |cells| == if j * hor < n then j * hor else n
      invariant forall k :: 0 <= k < |cells| ==> cells[k] == EvenCell(k, hor, ver, w, h)
    {
      cells := PlaceRow(n, hor, ver, w, h, j, cells);
      j := j + 1;
    }
    assert n <= ver * hor;
  }

  lemma QuotientTimesDivisor(w: int, d: int)
    requires w >= 0 && d >= 1
    ensures 0 <= (w / d) * d <= w
  {
  }

  /** Slot `a` of a strip of `count` slots of width `size` ends within
      `count * size`. */
  lemma SlotInside(a: int, count: int, size: int)
    requires 0 <= a < count && size >= 0
    ensures 0 <= a * size && a * size + size <= count * size
  {
    MulMonotone(0, a, size);
    MulMonotone(a + 1, count, size);
    assert (a + 1) * size == a * size + size;
  }

  /** Window `k < n` of a grid with at least `n` cells sits in one of its
      rows. */
  lemma RowWithinGrid(k: nat, hor: int, ver: int, n: int)
    requires hor >= 1 && ver >= 1 && k < n <= hor * ver
    ensures k / hor < ver
  {
    var row := k / hor;
    assert row * hor <= k;
    if row >= ver {
      MulMonotone(ver, row, hor);
    }
  }

  /** A strip of `count` slots of width `total / count` fits in `total`. */
  lemma SlotInTotal(a: int, count: int, total: int)
    requires 0 <= a < count && total >= 0
    ensures 0 <= total / count
    ensures 0 <= a * (total / count) && a * (total / count) + total / count <= total
  {
    var size := total / count;
    SlotInside(a, count, size);
    QuotientTimesDivisor(total, count);
    assert count * size == size * count;
  }

  /** Any cell of a `hor` x `ver` grid over the desktop lies on it. */
  lemma GridCellInside(col: int, row: int, hor: int, ver: int, w: int, h: int)
    requires 0 <= col < hor && 0 <= row < ver && w >= 0 && h >= 0
    ensures Rect(col * (w / hor), row * (h / ver), w / hor, h / ver).InsideArea(w, h)
  {
    SlotInTotal(col, hor, w);
    SlotInTotal(row, ver, h);
  }

  /** Every Tile Evenly cell lies on the desktop. */
  lemma EvenCellInside(k: nat, hor: int, ver: int, n: int, w: int, h: int)
    requires Feasible(hor, ver, n) && k < n && w >= 0 && h >= 0
    ensures EvenCell(k, hor, ver, w, h).InsideArea(w, h)
  {
    RowWithinGrid(k, hor, ver, n);
    GridCellInside(k % hor, k / hor, hor, ver, w, h);
  }

  /** Two positions in a strip of equal-width slots do not overlap. */
  lemma SlotsDisjoint(a: int, b: int, size: int)
    requires 0 <= a < b && size >= 0
    ensures a * size + size <= b * size
  {
    MulMonotone(a + 1, b, size);
    assert (a + 1) * size == a * size + size;
  }

  lemma SameQuotientRemainder(a: int, b: int, d: int)
    requires d >= 1 && a != b
    ensures a / d != b / d || a % d != b % d
  {
  }

  lemma DivNonNegative(a: int, d: int)
    requires d >= 1 && a >= 0
    ensures 0 <= a / d && 0 <= a % d
  {
  }

  /** Two different cells of a grid over the desktop do not overlap. */
  lemma GridCellsDisjoint(c1: int, r1: int, c2: int, r2: int, hor: int, ver: int, w: int, h: int)
    requires 0 <= c1 && 0 <= r1 && 0 <= c2 && 0 <= r2 && (c1 != c2 || r1 != r2)
    requires hor >= 1 && ver >= 1 && w >= 0 && h >= 0
    ensures Rect(c1 * (w / hor), r1 * (h / ver), w / hor, h / ver).DisjointFrom(
              Rect(c2 * (w / hor), r2 * (h / ver), w / hor, h / ver))
  {
    if c1 < c2 {
      SlotsDisjoint(c1, c2, w / hor);
    } else if c2 < c1 {
      SlotsDisjoint(c2, c1, w / hor);
    } else if r1 < r2 {
      SlotsDisjoint(r1, r2, h / ver);
    } else {
      SlotsDisjoint(r2, r1, h / ver);
    }
  }

  /** Different windows get non-overlapping Tile Evenly cells. */
  lemma EvenCellsDisjoint(k1: nat, k2: nat, hor: int, ver: int, w: int, h: int)
    requires hor >= 1 && ver >= 1 && k1 != k2 && w >= 0 && h >= 0
    ensures EvenCell(k1, hor, ver, w, h).DisjointFrom(EvenCell(k2, hor, ver, w, h))
  {
    SameQuotientRemainder(k1, k2, hor);
    DivNonNegative(k1, hor);
    DivNonNegative(k2, hor);
    GridCellsDisjoint(k1 % hor, k1 / hor, k2 % hor, k2 / hor, hor, ver, w, h);
  }

  /** Tile Horizontally: window i takes the i-th of `n` equal columns over
      the full height; no windows means a division by zero. */
  function TileHorizontally(n: nat, w: int, h: int): (r: Result<seq<Rect>, JavaException>)
    requires w >= 0 && h >= 0
    ensures n == 0 <==> r == Failure(Arithmetic)
    ensures r.Success? ==> |r.value| == n
    ensures r.Success? ==> forall i :: 0 <= i < n ==> r.value[i] == Column(i, n, w, h)
  {
    if n == 0 then Failure(Arithmetic)
    else Success(seq(n, i requires 0 <= i < n => Column(i, n, w, h)))
  }

  /** Column `i` of `n` equal columns over the full height. */
  function Column(i: int, n: int, w: int, h: int): (r: Rect)
    requires n >= 1
    ensures r.y == 0 && r.height == h && r.width == w / n && r.x == i * r.width
  {
    Rect(i * (w / n), 0, w / n, h)
  }

  /** Row `i` of `n` equal rows over the full width. */
  function Row(i: int, n: int, w: int, h: int): (r: Rect)
    requires n >= 1
    ensures r.x == 0 && r.width == w && r.height == h / n && r.y == i * r.height
  {
    Rect(0, i * (h / n), w, h / n)
  }

  /** Tile Vertically: window i takes the i-th of `n` equal rows over the
      full width. */
  function TileVertically(n: nat, w: int, h: int): (r: Result<seq<Rect>, JavaException>)
    requires w >= 0 && h >= 0
    ensures n == 0 <==> r == Failure(Arithmetic)
    ensures r.Success? ==> |r.value| == n
    ensures r.Success? ==> forall i :: 0 <= i < n ==> r.value[i] == Row(i, n, w, h)
  {
    if n == 0 then Failure(Arithmetic)
    else Success(seq(n, i requires 0 <= i < n => Row(i, n, w, h)))
  }

  function Transpose(r: Rect): Rect {
    Rect(r.y, r.x, r.height, r.width)
  }

  /** Columns are pairwise disjoint and lie on the desktop. */
  lemma ColumnsDisjointInside(n: int, w: int, h: int, i: nat, j: nat)
    requires w >= 0 && h >= 0 && n > 0 && i < n && j < n
    ensures Column(i, n, w, h).InsideArea(w, h)
    ensures i != j ==> Column(i, n, w, h).DisjointFrom(Column(j, n, w, h))
  {
    var size := w / n;
    if i < j { SlotsDisjoint(i, j, size); }
    if j < i { SlotsDisjoint(j, i, size); }
    SlotInTotal(i, n, w);
  }

  /** Tile Vertically is Tile Horizontally with the axes swapped. */
  lemma VerticalIsTransposedHorizontal(n: nat, w: int, h: int)
    requires w >= 0 && h >= 0 && n > 0
    ensures var v := TileVertically(n, w, h).value;
            var hz := TileHorizontally(n, h, w).value;
            |v| == |hz| && forall i :: 0 <= i < n ==> v[i] == Transpose(hz[i])
  {
  }

  /** Rows are pairwise disjoint and lie on the desktop, by transposing
      the column layout. */
  lemma RowsDisjointInside(n: int, w: int, h: int, i: nat, j: nat)
    requires w >= 0 && h >= 0 && n > 0 && i < n && j < n
    ensures Row(i, n, w, h).InsideArea(w, h)
    ensures i != j ==> Row(i, n, w, h).DisjointFrom(Row(j, n, w, h))
  {
    ColumnsDisjointInside(n, h, w, i, j);
    assert Row(i, n, w, h) == Transpose(Column(i, n, h, w));
    assert Row(j, n, w, h) == Transpose(Column(j, n, h, w));
  }
}

=== FILE: workspace.dfy ===
/** The workspace window: document windows live as internal frames on a
    desktop pane, each paired with a tab in a tab bar above it. Frames and
    tabs are identified by the running window number `tabCount` had when
    they were created; `C` is the type of the hosted document windows. */
module WorkspaceWindows {
  import opened Basics
  import Tiling

  /** An internal frame on the desktop: its tab, the document window it
      hosts and its position and size. */
  datatype Frame<C> = Frame(tab: nat, window: C, bounds: Rect)

  /** `frames` is the frame-to-tab map; a frame is on the desktop exactly
      while it is mapped. `tabToFrame` is the reverse map. */
  datatype Workspace<C> = Workspace(
    frames: map<nat, Frame<C>>,
    tabToFrame: map<nat, nat>,
    tabs: seq<nat>,            // the tab model, in display order
    tabCount: nat,             // windows ever added
    barVisible: bool)          // the tab bar is shown

  /** The two maps are inverse to each other. */
  ghost predicate Paired<C>(ws: Workspace<C>) {
    && (forall f :: f in ws.frames ==>
          ws.frames[f].tab in ws.tabToFrame && ws.tabToFrame[ws.frames[f].tab] == f)
    && (forall t :: t in ws.tabToFrame ==>
          ws.tabToFrame[t] in ws.frames && ws.frames[ws.tabToFrame[t]].tab == t)
  }

  /** The consistency the window keeps: inverse maps, frames and tabs
      numbered below the window count, a tab model that lists each tab once
      and every tab that has a frame, and a tab bar shown exactly while
      frames exist. A tab may stay in the model after its frame is gone,
      until the tab bar itself removes it. */
  ghost predicate Valid<C>(ws: Workspace<C>) {
    && Paired(ws)
    && (forall f :: f in ws.frames ==> f < ws.tabCount)
    && (forall i :: 0 <= i < |ws.tabs| ==> ws.tabs[i] < ws.tabCount)
    && Distinct(ws.tabs)
    && (forall t :: t in ws.tabToFrame ==> t in ws.tabs)
    && (ws.barVisible <==> ws.frames != map[])
  }

  /** A freshly constructed workspace: no windows, tab bar hidden. */
  function Initial<C>(): (ws: Workspace<C>)
    ensures Valid(ws) && ws.tabs == [] && !ws.barVisible
  {
    Workspace(map[], map[], [], 0, false)
  }

  /** `addWindow`: a new frame and a new tab for `window`, the tab appended
      at the end, the frame cascaded 24 pixels further than the previous
      one, the tab bar shown. */
  function AddWindow<C>(ws: Workspace<C>, window: C): (r: Workspace<C>)
    ensures r.tabs == ws.tabs + [ws.tabCount]
    ensures r.tabCount == ws.tabCount + 1
    ensures r.barVisible
    ensures forall f :: f in r.frames <==> f in ws.frames || f == ws.tabCount
    ensures ws.tabCount in r.frames &&
            r.frames[ws.tabCount] == Frame(ws.tabCount, window, Rect(r.tabCount * 24, r.tabCount * 24, 400, 400))
    ensures ws.tabCount in r.tabToFrame && r.tabToFrame[ws.tabCount] == ws.tabCount
  {
    var index := ws.tabCount;
    var count := ws.tabCount + 1;
    Workspace(ws.frames[index := Frame(index, window, Rect(count * 24, count * 24, 400, 400))],
              ws.tabToFrame[index := index],
              ws.tabs + [index],
              count,
              true)
  }

  /** Adding a window keeps the workspace consistent, with a fresh frame
      and tab; every existing frame is left as it was. */
  lemma AddWindowValid<C>(ws: Workspace<C>, window: C)
    requires Valid(ws)
    ensures Valid(AddWindow(ws, window))
    ensures ws.tabCount !in ws.frames && ws.tabCount !in ws.tabToFrame && ws.tabCount !in ws.tabs
    ensures forall f :: f in ws.frames ==> AddWindow(ws, window).frames[f] == ws.frames[f]
  {
    var r := AddWindow(ws, window);
    assert ws.tabCount !in ws.tabs;
    assert Distinct(r.tabs);
  }

  /** The tab model without `tab`, the other tabs in their order. */
  function WithoutTab(tabs: seq<nat>, tab: nat): (r: seq<nat>)
    ensures |r| <= |tabs|
    ensures forall i :: 0 <= i < |r| ==> r[i] in tabs && r[i] != tab
    ensures forall i :: 0 <= i < |tabs| && tabs[i] != tab ==> tabs[i] in r
    decreases |tabs|
  {
    if |tabs| == 0 then []
    else
      var front := WithoutTab(tabs[..|tabs| - 1], tab);
      if tabs[|tabs| - 1] == tab then front else front + [tabs[|tabs| - 1]]
  }

  /** Removing a tab the model does not list changes nothing. */
  lemma {:induction false} WithoutAbsentTab(tabs: seq<nat>, tab: nat)
    requires tab !in tabs
    ensures WithoutTab(tabs, tab) == tabs
    decreases |tabs|
  {
    if |tabs| > 0 {
      WithoutAbsentTab(tabs[..|tabs| - 1], tab);
    }
  }

  /** Removing `tab` from a model that ends in another tab keeps that last
      tab last. */
  lemma WithoutTabSnoc(front: seq<nat>, last: nat, tab: nat)
    requires last != tab
    ensures WithoutTab(front + [last], tab) == WithoutTab(front, tab) + [last]
  {
    assert (front + [last])[..|front|] == front;
  }

  /** Removing a position before the last one keeps the last element last. */
  lemma RemoveAtSnoc(front: seq<nat>, last: nat, i: nat)
    requires i < |front|
    ensures RemoveAt(front + [last], i) == RemoveAt(front, i) + [last]
  {
  }

  /** Removing the one position that holds `x` from a duplicate-free
      sequence is removing `x`. */
  lemma {:induction false} RemoveAtIsWithout(s: seq<nat>, i: nat)
    requires Distinct(s) && i < |s|
    ensures RemoveAt(s, i) == WithoutTab(s, s[i])
    decreases |s|
  {
    var last := |s| - 1;
    var front := s[..last];
    DistinctPrefix(s, last);
    assert s == front + [s[last]];
    if i == last {
      assert RemoveAt(s, i) == front;
      WithoutAbsentTab(front, s[i]);
    } else {
      RemoveAtIsWithout(front, i);
      WithoutTabSnoc(front, s[last], s[i]);
      RemoveAtSnoc(front, s[last], i);
    }
  }

  /** Removing a position keeps a sequence duplicate-free and adds nothing. */
  lemma RemoveAtDistinct(s: seq<nat>, i: nat)
    requires Distinct(s) && i < |s|
    ensures Distinct(RemoveAt(s, i))
    ensures forall j :: 0 <= j < |s| - 1 ==> RemoveAt(s, i)[j] in s && RemoveAt(s, i)[j] != s[i]
  {
    var r := RemoveAt(s, i);
    forall j, k | 0 <= j < k < |r| ensures r[j] != r[k] {
      var j' := if j < i then j else j + 1;
      var k' := if k < i then k else k + 1;
      assert r[j] == s[j'] && r[k] == s[k'];
    }
    forall j | 0 <= j < |r| ensures r[j] in s && r[j] != s[i] {
      var j' := if j < i then j else j + 1;
      assert r[j] == s[j'];
    }
  }

  /** The tab model after closing a frame whose tab is `tab`. */
  function TabsAfterClose(tabs: seq<nat>, tab: nat, removeTab: bool): (r: seq<nat>)
    ensures Distinct(tabs) && removeTab ==> r == WithoutTab(tabs, tab) && Distinct(r)
    ensures Distinct(tabs) ==> forall i :: 0 <= i < |r| ==> r[i] in tabs
    ensures !removeTab ==> r == tabs
  {
    if removeTab then
      var tabIndex := IndexOf(tabs, tab);
      if tabIndex >= 0 then
        if Distinct(tabs) then
          RemoveAtIsWithout(tabs, tabIndex);
          RemoveAtDistinct(tabs, tabIndex);
          RemoveAt(tabs, tabIndex)
        else RemoveAt(tabs, tabIndex)
      else
        WithoutAbsentTab(tabs, tab);
        tabs
    else tabs
  }

  /** `closeInternalFrame(frame, removeTab)`: the frame leaves both maps and
      the desktop, its tab leaves the tab model only when `removeTab` is set
      and the tab is listed, and the tab bar is hidden once the desktop is
      empty. Returns the document window the frame hosted. */
  function CloseInternalFrame<C>(ws: Workspace<C>, frame: nat, removeTab: bool): (r: (Workspace<C>, Option<C>))
    ensures r.1.Some? <==> frame in ws.frames
    ensures r.1.Some? ==> r.1.value == ws.frames[frame].window
    ensures forall f :: f in r.0.frames <==> f in ws.frames && f != frame
    ensures !(frame in ws.frames && removeTab) ==> r.0.tabs == ws.tabs
    ensures !r.0.barVisible <==> !ws.barVisible || r.0.frames == map[]
    ensures r.0.tabCount == ws.tabCount
  {
    if frame !in ws.frames then
      var frames := ws.frames;
      (ws.(barVisible := if frames == map[] then false else ws.barVisible), None)
    else
      var tab := ws.frames[frame].tab;
      var frames := ws.frames - {frame};
      (Workspace(frames, ws.tabToFrame - {tab}, TabsAfterClose(ws.tabs, tab, removeTab), ws.tabCount,
                 if frames == map[] then false else ws.barVisible),
       Some(ws.frames[frame].window))
  }

  /** On a consistent workspace, closing keeps it consistent: a managed
      frame takes its tab's mapping with it, the tab model loses exactly
      that tab when asked to, and every other frame is untouched. */
  lemma CloseInternalFrameValid<C>(ws: Workspace<C>, frame: nat, removeTab: bool)
    requires Valid(ws)
    ensures var r := CloseInternalFrame(ws, frame, removeTab).0;
            && Valid(r)
            && (frame in ws.frames ==> ws.frames[frame].tab !in r.tabToFrame)
            && (frame in ws.frames && removeTab ==> r.tabs == WithoutTab(ws.tabs, ws.frames[frame].tab))
            && (forall f :: f in r.frames ==> r.frames[f] == ws.frames[f])
  {
  }

  /** Adding a key absent from a map and removing it again gives the map back. */
  lemma PutThenRemove<K, V>(m: map<K, V>, k: K, v: V)
    requires k !in m
    ensures m[k := v] - {k} == m
  {
  }

  /** Closing, tab included, the tab just appended gives the tab model back. */
  lemma AppendedTabClosed(tabs: seq<nat>, n: nat)
    requires Distinct(tabs) && n !in tabs
    ensures TabsAfterClose(tabs + [n], n, true) == tabs
  {
    var added := tabs + [n];
    assert IndexOf(added, n) == |tabs|;
    assert RemoveAt(added, |tabs|) == tabs;
  }

  /** Adding a window and closing its frame again, tab included, gives back
      the document window and leaves the frames, the tab map, the tab model
      and the tab bar as they were; only the window number has moved on. */
  lemma AddThenCloseRestores<C>(ws: Workspace<C>, window: C)
    requires Valid(ws)
    ensures var (back, closed) := CloseInternalFrame(AddWindow(ws, window), ws.tabCount, true);
            && closed == Some(window)
            && back.frames == ws.frames && back.tabToFrame == ws.tabToFrame
            && back.tabs == ws.tabs && back.barVisible == ws.barVisible
            && back.tabCount == ws.tabCount + 1
  {
    var n := ws.tabCount;
    assert n !in ws.frames && n !in ws.tabToFrame && n !in ws.tabs;
    var added := AddWindow(ws, window);
    PutThenRemove(ws.frames, n, added.frames[n]);
    PutThenRemove(ws.tabToFrame, n, n);
    AppendedTabClosed(ws.tabs, n);
  }

  /** The document windows of the given tabs, in that order; a tab without
      a frame makes `getTopComponent` dereference null. */
  function WindowsOf<C>(ws: Workspace<C>, tabs: seq<nat>): (r: Result<seq<C>, JavaException>)
    requires Paired(ws)
    ensures r.Success? <==> forall i :: 0 <= i < |tabs| ==> tabs[i] in ws.tabToFrame
    ensures r.Failure? ==> r.error == NullPointer
    ensures r.Success? ==> |r.value| == |tabs|
    ensures r.Success? ==> forall i :: 0 <= i < |tabs| ==>
              r.value[i] == ws.frames[ws.tabToFrame[tabs[i]]].window
    decreases |tabs|
  {
    if |tabs| == 0 then Success([])
    else
      var last := tabs[|tabs| - 1];
      match WindowsOf(ws, tabs[..|tabs| - 1])
      case Failure(e) => Failure(e)
      case Success(front) =>
        if last in ws.tabToFrame then Success(front + [ws.frames[ws.tabToFrame[last]].window])
        else Failure(NullPointer)
  }

  /** `getContainedTopComponents`: one document window per tab, in tab
      order. */
  function ContainedTopComponents<C>(ws: Workspace<C>): (r: Result<seq<C>, JavaException>)
    requires Paired(ws)
    ensures r.Success? <==> forall i :: 0 <= i < |ws.tabs| ==> ws.tabs[i] in ws.tabToFrame
    ensures r.Success? ==> |r.value| == |ws.tabs|
    ensures r.Success? ==> forall i :: 0 <= i < |ws.tabs| ==>
              r.value[i] == ws.frames[ws.tabToFrame[ws.tabs[i]]].window
  {
    WindowsOf(ws, ws.tabs)
  }

  /** A workspace that shows the same window for every tab of another one
      lists the same windows for tabs that all have frames. */
  lemma WindowsOfExtended<C>(a: Workspace<C>, b: Workspace<C>, tabs: seq<nat>)
    requires Paired(a) && Paired(b)
    requires forall t :: t in a.tabToFrame ==>
               t in b.tabToFrame && b.frames[b.tabToFrame[t]].window == a.frames[a.tabToFrame[t]].window
    requires forall i :: 0 <= i < |tabs| ==> tabs[i] in a.tabToFrame
    ensures WindowsOf(b, tabs) == WindowsOf(a, tabs)
  {
    var wa, wb := WindowsOf(a, tabs), WindowsOf(b, tabs);
    assert wb.Success?;
    assert wa.value == wb.value;
  }

  /** Adding a window appends it to the contained windows. */
  lemma AddWindowAppends<C>(ws: Workspace<C>, window: C)
    requires Valid(ws) && ContainedTopComponents(ws).Success?
    ensures Valid(AddWindow(ws, window))
    ensures ContainedTopComponents(AddWindow(ws, window)) ==
            Success(ContainedTopComponents(ws).value + [window])
  {
    AddWindowValid(ws, window);
    var added := AddWindow(ws, window);
    WindowsOfExtended(ws, added, ws.tabs);
    assert added.tabs[..|ws.tabs|] == ws.tabs;
  }

  /** The tab bar's "close" action: the frame goes, the tab stays in the
      model for the tab bar to remove itself. An index beyond the tab model
      throws. */
  function TabClose<C>(ws: Workspace<C>, tabIndex: int): (r: Result<Workspace<C>, JavaException>)
    requires Valid(ws)
    ensures r.Success? <==> 0 <= tabIndex < |ws.tabs|
    ensures r.Failure? ==> r.error == IndexOutOfBounds
    ensures r.Success? ==> Valid(r.value) && r.value.tabs == ws.tabs
    ensures r.Success? ==> ws.tabs[tabIndex] !in r.value.tabToFrame
    ensures r.Success? ==> forall f :: f in r.value.frames <==>
              f in ws.frames && ws.frames[f].tab != ws.tabs[tabIndex]
  {
    if !(0 <= tabIndex < |ws.tabs|) then Failure(IndexOutOfBounds)
    else
      var tab := ws.tabs[tabIndex];
      if tab in ws.tabToFrame then
        CloseInternalFrameValid(ws, ws.tabToFrame[tab], false);
        Success(CloseInternalFrame(ws, ws.tabToFrame[tab], false).0)
      else Success(ws)
  }

  /** The tab bar removing a tab from its model once its frame is gone. */
  function RemoveTabFromModel<C>(ws: Workspace<C>, tabIndex: nat): (r: Workspace<C>)
    requires tabIndex < |ws.tabs|
    ensures Valid(ws) && ws.tabs[tabIndex] !in ws.tabToFrame ==> Valid(r)
    ensures Distinct(ws.tabs) ==> r.tabs == WithoutTab(ws.tabs, ws.tabs[tabIndex])
  {
    var r := ws.(tabs := RemoveAt(ws.tabs, tabIndex));
    if Distinct(ws.tabs) then
      RemoveAtIsWithout(ws.tabs, tabIndex);
      RemoveAtDistinct(ws.tabs, tabIndex);
      r
    else r
  }

  /** Closing through the tab bar and letting the tab bar drop the tab ends
      where closing the frame with its tab does. */
  lemma TabCloseAgreesWithClose<C>(ws: Workspace<C>, tabIndex: nat)
    requires Valid(ws) && tabIndex < |ws.tabs| && ws.tabs[tabIndex] in ws.tabToFrame
    ensures RemoveTabFromModel(TabClose(ws, tabIndex).value, tabIndex) ==
            CloseInternalFrame(ws, ws.tabToFrame[ws.tabs[tabIndex]], true).0
  {
    assert IndexOf(ws.tabs, ws.tabs[tabIndex]) == tabIndex;
  }

  /** The popup's "Close" action: the frame and its tab go. An index beyond
      the tab model throws, and a tab without a frame makes the close
      dereference null. */
  function CloseWindow<C>(ws: Workspace<C>, tabIndex: int): (r: Result<Workspace<C>, JavaException>)
    requires Valid(ws)
    ensures !(0 <= tabIndex < |ws.tabs|) <==> r == Failure(IndexOutOfBounds)
    ensures 0 <= tabIndex < |ws.tabs| ==>
              (r.Success? <==> ws.tabs[tabIndex] in ws.tabToFrame) &&
              (r.Failure? ==> r.error == NullPointer)
    ensures r.Success? ==> Valid(r.value)
    ensures r.Success? ==> r.value.tabs == WithoutTab(ws.tabs, ws.tabs[tabIndex])
    ensures r.Success? ==> forall f :: f in r.value.frames <==>
              f in ws.frames && ws.frames[f].tab != ws.tabs[tabIndex]
    ensures r.Success? ==> forall f :: f in r.value.frames ==> r.value.frames[f] == ws.frames[f]
    ensures r.Success? ==> forall t :: t in r.value.tabToFrame <==>
              t in ws.tabToFrame && t != ws.tabs[tabIndex]
  {
    if !(0 <= tabIndex < |ws.tabs|) then Failure(IndexOutOfBounds)
    else
      var tab := ws.tabs[tabIndex];
      if tab !in ws.tabToFrame then Failure(NullPointer)
      else
        CloseInternalFrameValid(ws, ws.tabToFrame[tab], true);
        Success(CloseInternalFrame(ws, ws.tabToFrame[tab], true).0)
  }

  /** Every tab in the tab map leads to a frame on the desktop. */
  ghost predicate TabsHaveFrames<C>(ws: Workspace<C>) {
    forall t :: t in ws.tabToFrame ==> ws.tabToFrame[t] in ws.frames
  }

  /** Tab `k` exists and still has a frame. */
  ghost predicate HasFrame<C>(ws: Workspace<C>, k: int) {
    0 <= k < |ws.tabs| && ws.tabs[k] in ws.tabToFrame
  }

  /** The frame shown by tab `k`. */
  ghost function FrameOfTab<C>(ws: Workspace<C>, k: int): (f: nat)
    requires HasFrame(ws, k)
    ensures TabsHaveFrames(ws) ==> f in ws.frames
  {
    ws.tabToFrame[ws.tabs[k]]
  }

  /** One frame moved to `bounds`, everything else as it was. */
  function Relaid<C>(ws: Workspace<C>, frame: nat, bounds: Rect): (r: Workspace<C>)
    requires frame in ws.frames
    ensures r.tabs == ws.tabs && r.tabToFrame == ws.tabToFrame
    ensures r.tabCount == ws.tabCount && r.barVisible == ws.barVisible
    ensures forall f :: f in r.frames <==> f in ws.frames
    ensures forall f :: f in ws.frames && f != frame ==> r.frames[f] == ws.frames[f]
    ensures r.frames[frame] == ws.frames[frame].(bounds := bounds)
  {
    ws.(frames := ws.frames[frame := ws.frames[frame].(bounds := bounds)])
  }

  /** Gives the frame of tab `k` the bounds `cells[k]`, for `k` from `from`
      on, as the tiling actions do; a missing tab throws, a tab without a
      frame dereferences null. Only the frames change. */
  function ApplyLayout<C>(ws: Workspace<C>, cells: seq<Rect>, from: nat): (r: Result<Workspace<C>, JavaException>)
    requires TabsHaveFrames(ws) && from <= |cells|
    ensures r.Success? <==> forall k :: from <= k < |cells| ==> HasFrame(ws, k)
    ensures r.Failure? ==> r.error == IndexOutOfBounds || r.error == NullPointer
    ensures r.Success? ==> r.value.tabToFrame == ws.tabToFrame && r.value.tabs == ws.tabs &&
                           r.value.tabCount == ws.tabCount && r.value.barVisible == ws.barVisible
    decreases |cells| - from
  {
    if from == |cells| then Success(ws)
    else if from >= |ws.tabs| then assert !HasFrame(ws, from); Failure(IndexOutOfBounds)
    else if ws.tabs[from] !in ws.tabToFrame then assert !HasFrame(ws, from); Failure(NullPointer)
    else
      var placed := Relaid(ws, ws.tabToFrame[ws.tabs[from]], cells[from]);
      assert HasFrame(ws, from);
      assert forall k :: HasFrame(placed, k) == HasFrame(ws, k);
      ApplyLayout(placed, cells, from + 1)
  }

  /** A layout keeps every frame on the desktop with its tab and window. */
  lemma {:induction false} ApplyLayoutKeepsFrames<C>(ws: Workspace<C>, cells: seq<Rect>, from: nat)
    requires TabsHaveFrames(ws) && from <= |cells| && ApplyLayout(ws, cells, from).Success?
    ensures var r := ApplyLayout(ws, cells, from).value;
            && (forall f :: f in r.frames <==> f in ws.frames)
            && (forall f :: f in ws.frames ==> r.frames[f].tab == ws.frames[f].tab && r.frames[f].window == ws.frames[f].window)
    decreases |cells| - from
  {
    if from < |cells| {
      var placed := Relaid(ws, ws.tabToFrame[ws.tabs[from]], cells[from]);
      ApplyLayoutKeepsFrames(placed, cells, from + 1);
    }
  }

  /** A layout leaves alone a frame that no tab from `from` on shows. */
  lemma {:induction false} ApplyLayoutUntouched<C>(ws: Workspace<C>, cells: seq<Rect>, from: nat, f: nat)
    requires TabsHaveFrames(ws) && from <= |cells| && ApplyLayout(ws, cells, from).Success?
    requires f in ws.frames
    requires forall k :: from <= k < |cells| ==> HasFrame(ws, k) && FrameOfTab(ws, k) != f
    ensures var r := ApplyLayout(ws, cells, from).value;
            f in r.frames && r.frames[f] == ws.frames[f]
    decreases |cells| - from
  {
    if from < |cells| {
      assert HasFrame(ws, from);
      var placed := Relaid(ws, ws.tabToFrame[ws.tabs[from]], cells[from]);
      assert forall k :: from < k < |cells| ==> FrameOfTab(placed, k) == FrameOfTab(ws, k);
      ApplyLayoutUntouched(placed, cells, from + 1, f);
    }
  }

  /** Different tabs show different frames. */
  ghost predicate FramesInjective<C>(ws: Workspace<C>) {
    forall j, k :: HasFrame(ws, j) && HasFrame(ws, k) && j != k ==> FrameOfTab(ws, j) != FrameOfTab(ws, k)
  }

  /** In a consistent workspace different tabs show different frames. */
  lemma ValidFramesInjective<C>(ws: Workspace<C>)
    requires Valid(ws)
    ensures FramesInjective(ws)
  {
    forall j, k | HasFrame(ws, j) && HasFrame(ws, k) && j != k
      ensures FrameOfTab(ws, j) != FrameOfTab(ws, k)
    {
      assert ws.frames[FrameOfTab(ws, j)].tab == ws.tabs[j];
      assert ws.frames[FrameOfTab(ws, k)].tab == ws.tabs[k];
    }
  }

  /** Moving one frame keeps the workspace consistent. */
  lemma RelaidValid<C>(ws: Workspace<C>, frame: nat, bounds: Rect)
    requires Valid(ws) && frame in ws.frames
    ensures Valid(Relaid(ws, frame, bounds))
  {
  }

  /** A layout gives the frame of tab `k` the bounds `cells[k]`. */
  lemma {:induction false} ApplyLayoutPlaces<C>(ws: Workspace<C>, cells: seq<Rect>, from: nat)
    requires TabsHaveFrames(ws) && FramesInjective(ws)
    requires from <= |cells| && ApplyLayout(ws, cells, from).Success?
    ensures forall k :: from <= k < |cells| ==> HasFrame(ws, k)
    ensures var r := ApplyLayout(ws, cells, from).value;
            forall k :: from <= k < |cells| ==>
              FrameOfTab(ws, k) in r.frames && r.frames[FrameOfTab(ws, k)].bounds == cells[k]
    decreases |cells| - from
  {
    if from < |cells| {
      assert HasFrame(ws, from);
      var frame := FrameOfTab(ws, from);
      var placed := Relaid(ws, frame, cells[from]);
      assert forall k :: HasFrame(placed, k) == HasFrame(ws, k);
      assert forall k :: HasFrame(ws, k) ==> FrameOfTab(placed, k) == FrameOfTab(ws, k);
      ApplyLayoutPlaces(placed, cells, from + 1);
      ApplyLayoutUntouched(placed, cells, from + 1, frame);
    }
  }

  /** A layout that succeeds leaves the workspace consistent. */
  lemma ApplyLayoutValid<C>(ws: Workspace<C>, cells: seq<Rect>, from: nat)
    requires Valid(ws) && from <= |cells| && ApplyLayout(ws, cells, from).Success?
    ensures Valid(ApplyLayout(ws, cells, from).value)
  {
    ApplyLayoutKeepsFrames(ws, cells, from);
    var r := ApplyLayout(ws, cells, from).value;
    if ws.frames != map[] {
      var f :| f in ws.frames;
      assert f in r.frames;
    }
  }

  /** Tile Horizontally applied to the workspace: window i of the tab
      order gets the i-th column. */
  function TileHorizontallyWorkspace<C>(ws: Workspace<C>, width: int, height: int): (r: Result<Workspace<C>, JavaException>)
    requires Valid(ws) && width >= 0 && height >= 0
    ensures |ws.frames| == 0 ==> r == Failure(Arithmetic)
    ensures r.Success? <==> |ws.frames| > 0 && forall i :: 0 <= i < |ws.frames| ==> HasFrame(ws, i)
    ensures |ws.frames| > 0 && r.Failure? ==> r.error == IndexOutOfBounds || r.error == NullPointer
    ensures r.Success? ==> Valid(r.value) && r.value.tabs == ws.tabs && r.value.tabToFrame == ws.tabToFrame
    ensures r.Success? ==> forall i :: 0 <= i < |ws.frames| ==>
              r.value.frames[FrameOfTab(ws, i)].bounds == Tiling.Column(i, |ws.frames|, width, height)
  {
    match Tiling.TileHorizontally(|ws.frames|, width, height)
    case Failure(e) => Failure(e)
    case Success(cells) =>
      var r := ApplyLayout(ws, cells, 0);
      if r.Success? then
        ApplyLayoutValid(ws, cells, 0);
        ValidFramesInjective(ws);
        ApplyLayoutPlaces(ws, cells, 0);
        r
      else r
  }

  /** After Tile Horizontally no two windows overlap and all lie on the
      desktop. */
  lemma TiledHorizontallyDisjoint<C>(ws: Workspace<C>, width: int, height: int, i: nat, j: nat)
    requires Valid(ws) && width >= 0 && height >= 0
    requires TileHorizontallyWorkspace(ws, width, height).Success?
    requires i < |ws.frames| && j < |ws.frames|
    ensures HasFrame(ws, i) && HasFrame(ws, j)
    ensures var tiled := TileHorizontallyWorkspace(ws, width, height).value;
            var fi, fj := FrameOfTab(ws, i), FrameOfTab(ws, j);
            tiled.frames[fi].bounds.InsideArea(width, height) &&
            (i != j ==> fi != fj && tiled.frames[fi].bounds.DisjointFrom(tiled.frames[fj].bounds))
  {
    Tiling.ColumnsDisjointInside(|ws.frames|, width, height, i, j);
  }

  /** Tile Vertically applied to the workspace: window i of the tab order
      gets the i-th row. */
  function TileVerticallyWorkspace<C>(ws: Workspace<C>, width: int, height: int): (r: Result<Workspace<C>, JavaException>)
    requires Valid(ws) && width >= 0 && height >= 0
    ensures |ws.frames| == 0 ==> r == Failure(Arithmetic)
    ensures r.Success? <==> |ws.frames| > 0 && forall i :: 0 <= i < |ws.frames| ==> HasFrame(ws, i)
    ensures |ws.frames| > 0 && r.Failure? ==> r.error == IndexOutOfBounds || r.error == NullPointer
    ensures r.Success? ==> Valid(r.value) && r.value.tabs == ws.tabs && r.value.tabToFrame == ws.tabToFrame
    ensures r.Success? ==> forall i :: 0 <= i < |ws.frames| ==>
              r.value.frames[FrameOfTab(ws, i)].bounds == Tiling.Row(i, |ws.frames|, width, height)
  {
    match Tiling.TileVertically(|ws.frames|, width, height)
    case Failure(e) => Failure(e)
    case Success(cells) =>
      var r := ApplyLayout(ws, cells, 0);
      if r.Success? then
        ApplyLayoutValid(ws, cells, 0);
        ValidFramesInjective(ws);
        ApplyLayoutPlaces(ws, cells, 0);
        r
      else r
  }

  /** After Tile Vertically no two windows overlap and all lie on the
      desktop. */
  lemma TiledVerticallyDisjoint<C>(ws: Workspace<C>, width: int, height: int, i: nat, j: nat)
    requires Valid(ws) && width >= 0 && height >= 0
    requires TileVerticallyWorkspace(ws, width, height).Success?
    requires i < |ws.frames| && j < |ws.frames|
    ensures HasFrame(ws, i) && HasFrame(ws, j)
    ensures var tiled := TileVerticallyWorkspace(ws, width, height).value;
            var fi, fj := FrameOfTab(ws, i), FrameOfTab(ws, j);
            tiled.frames[fi].bounds.InsideArea(width, height) &&
            (i != j ==> fi != fj && tiled.frames[fi].bounds.DisjointFrom(tiled.frames[fj].bounds))
  {
    Tiling.RowsDisjointInside(|ws.frames|, width, height, i, j);
  }

  /** Tile Evenly applied to the workspace: window k of the tab order goes
      to column k mod hor and row k div hor of the chosen grid. */
  method TileEvenlyWorkspace<C>(ws: Workspace<C>, width: int, height: int)
    returns (r: Result<Workspace<C>, JavaException>, hor: int, ver: int)
    requires Valid(ws) && width >= 0 && height >= 0
    ensures |ws.frames| == 0 ==> r == Success(ws)
    ensures r.Success? <==> forall k :: 0 <= k < |ws.frames| ==> HasFrame(ws, k)
    ensures r.Failure? ==> r.error == IndexOutOfBounds || r.error == NullPointer
    ensures |ws.frames| > 0 ==> Tiling.Feasible(hor, ver, |ws.frames|)
    ensures |ws.frames| > 0 ==> forall h, v :: Tiling.Feasible(h, v, |ws.frames|) ==>
              Tiling.Score(hor, ver, |ws.frames|) <= Tiling.Score(h, v, |ws.frames|)
    ensures |ws.frames| > 0 ==> forall h, v ::
              Tiling.Feasible(h, v, |ws.frames|) && Tiling.ScannedBefore(h, v, hor, ver) ==>
              Tiling.Score(hor, ver, |ws.frames|) < Tiling.Score(h, v, |ws.frames|)
    ensures r.Success? ==> Valid(r.value) && r.value.tabs == ws.tabs && r.value.tabToFrame == ws.tabToFrame
    ensures r.Success? && |ws.frames| > 0 ==> forall k :: 0 <= k < |ws.frames| ==>
              r.value.frames[FrameOfTab(ws, k)].bounds == Tiling.EvenCell(k, hor, ver, width, height)
  {
    var cells;
    cells, hor, ver := Tiling.TileEvenly(|ws.frames|, width, height);
    r := ApplyLayout(ws, cells, 0);
    if r.Success? {
      ApplyLayoutValid(ws, cells, 0);
      ValidFramesInjective(ws);
      ApplyLayoutPlaces(ws, cells, 0);
    }
  }
}
